=== FILE: README.md ===
# Playwright for Java: API generator core and request router

This Dafny project models two parts of the Playwright for Java repository.

**The API generator.** `ApiGenerator.java` reads the Playwright API description and writes one Java interface per entry. Its core has these parts:

- **Elements.** A chain of elements mirrors the description. Each element has a dotted schema path and a type scope, which is the nearest interface or nested class.
- **Type resolution.** `TypeRef.createCustomType` consults a path-keyed type table. It can synthesise enums and nested classes in the type scope, with deduplication by name. `TypeRef.toJava` renders a type expression as Java: it strips `Promise`, boxes optional primitives, converts builtins and refuses unmapped unions.
- **Emission.** The emitters write the Java text:
  - each method, with its cascade of `default` overloads for trailing optional params, unless a hand-written signature replaces it;
  - fields, getters and builder methods;
  - nested classes, enums and the event enum;
  - the interface declaration, with its restricted `extends` clause.

**The router.** `Router.java` is the route table of a page or browser context. It holds an ordered list of (URL matcher, handler) pairs:
- `add` appends a pair;
- `remove` filters pairs out by matcher, and optionally by handler identity;
- `handle` gives a request to the first matching route.

**How the model is built.**
- Generator state that the Java code updates in place is modelled as Dafny classes and methods with loops. This covers the `enums` and `classes` registries of a type definition (class `Definitions.Scope`) and the router's route list (class `Routing.Router`).
- Each such loop is proved against a specification function.
- Each emitter is a function from the model to the lines it appends to the output list. A method with the source's loops is proved equal to it.
- A Java exception is a `Fail` result. The first exception thrown is the error reported.

Modules:
- `Results`: the result type and the loop combinators.
- `Text`: the `java.lang.String` operations used.
- `Schema`: the parsed description, the element chain, paths and type scopes.
- `TypeResolution`: `createCustomType` and `toJava`.
- `Conversion`: how `convertBuiltinType` acts on composite type names.
- `Containers`: nested container types rendered end to end.
- `Definitions`: the model built from the description, the registries and the constructors.
- `MethodEmitter`: `Method.writeTo`.
- `MethodExamples`: worked overload cascades.
- `TypeEmitter`: fields, classes, enums, events and interfaces.
- `Routing`: the router.

Three behaviours of the code that the model keeps as written:
- **Enum types without a mapping.** `createCustomType` fails for an enum type that has no type-table entry. An entry whose source type matches is used to name the enum.
- **Event enum commas.** `writeEvents` compares the loop index with the number of events. That index is never reached inside the loop, so every event constant, the last one included, ends with a comma.
- **When unions are refused.** `toJava` rejects a union after removing `null|` and before unwrapping `Promise`.

## Model

A = `api-generator/src/main/java/com/microsoft/playwright/tools/ApiGenerator.java`
R = `playwright/src/main/java/com/microsoft/playwright/impl/Router.java`

| member | source | states |
|---|---|---|
| Schema.Element.TypeScope | api-generator/src/main/java/com/microsoft/playwright/tools/ApiGenerator.java:58-60 | the type scope is a type definition (interface, nested class or enum) on the element's own parent chain |
| Schema.PathIsJoinedSegments | api-generator/src/main/java/com/microsoft/playwright/tools/ApiGenerator.java:49-53 | an element's path is its chain of names from the root interface, joined by dots; a TypeRef and a nested class reuse the parent's path |
| Schema.PathSplitsIntoSegments | api-generator/src/main/java/com/microsoft/playwright/tools/ApiGenerator.java:49-53 | when no name holds a dot, splitting the path on dots gives back the chain of names |
| Schema.SamePathSameSegments | api-generator/src/main/java/com/microsoft/playwright/tools/ApiGenerator.java:49-53 | two dot-free elements with the same path have the same chain of names, so the path identifies the element's place |
| Text.ToTitle | api-generator/src/main/java/com/microsoft/playwright/tools/ApiGenerator.java:62-64 | succeeds exactly on a non-empty name; only the first character is upper-cased and the rest is kept |
| TypeResolution.SynthesizedClassName | api-generator/src/main/java/com/microsoft/playwright/tools/ApiGenerator.java:91-96 | a field's class is its title-cased name; any other owner's class is its parent's title-cased name followed by its own; fails exactly when a needed name is empty |
| TypeResolution.SynthesizedClassNameExamples | api-generator/src/main/java/com/microsoft/playwright/tools/ApiGenerator.java:92-96 | the field `position` gives `Position`, and the param `options` of `Page.click` gives `ClickOptions` |
| TypeResolution.PlanCustomType | api-generator/src/main/java/com/microsoft/playwright/tools/ApiGenerator.java:78-113 | fails with the missing-enum-mapping error exactly for an enum type without an entry, and with the unexpected-source-type error exactly when the entry's source type differs; a matching entry names the custom type; an anonymous object type without an entry gets the synthesised class name; an enum is synthesised only under an entry and a class only for `Object`, each named by the custom type |
| TypeResolution.StripPromise | api-generator/src/main/java/com/microsoft/playwright/tools/ApiGenerator.java:137-146 | `Promise` becomes `void`; `Promise<X>` becomes X (wrapping it back gives the input); the bare prefix `Promise<` fails; anything else is unchanged |
| TypeResolution.StripPromiseUnwraps | api-generator/src/main/java/com/microsoft/playwright/tools/ApiGenerator.java:137-146 | stripping undoes wrapping in `Promise<...>` for every X |
| TypeResolution.ToJava | api-generator/src/main/java/com/microsoft/playwright/tools/ApiGenerator.java:115-135 | a custom type wins; JSON null is `void`; an optional `number` or `boolean` is boxed; fails exactly on a union left after removing `null\|` (with the missing-union-mapping error) or on `Promise<`; otherwise the converted, unwrapped name |
| TypeResolution.ConvertArrayOfPlain | api-generator/src/main/java/com/microsoft/playwright/tools/ApiGenerator.java:148-154 | `Array<X>` converts to `List<X>` when no other replacement touches X |
| TypeResolution.RenderPromiseOfArray | api-generator/src/main/java/com/microsoft/playwright/tools/ApiGenerator.java:115-154 | `Promise<Array<X>>` renders as `List<X>` for X that no replacement touches (X holds none of `A`, `O`, `g`, `b`, `u`, `\|`) |
| TypeResolution.RenderNumber | api-generator/src/main/java/com/microsoft/playwright/tools/ApiGenerator.java:115-154 | a required `number` renders as `int`, an optional one as `Integer` |
| TypeResolution.RenderVoid | api-generator/src/main/java/com/microsoft/playwright/tools/ApiGenerator.java:115-154 | `Promise` renders as `void` |
| TypeResolution.RenderUnion | api-generator/src/main/java/com/microsoft/playwright/tools/ApiGenerator.java:130-132 | a union of builtins such as `string\|number` fails with the missing-union-mapping error for the owner's path |
| TypeResolution.RenderPlain | api-generator/src/main/java/com/microsoft/playwright/tools/ApiGenerator.java:115-154 | a type name untouched by every rule, such as `Page`, renders as itself |
| Conversion.ConvertSplits | api-generator/src/main/java/com/microsoft/playwright/tools/ApiGenerator.java:148-154 | the conversion of a name splits at a `,`, space or `>`: no replacement reaches across one; `TypeResolution.ConvertBuiltinType` is the chain of five replacements |
| Conversion.ConvertSkipsPunctuation | api-generator/src/main/java/com/microsoft/playwright/tools/ApiGenerator.java:148-154 | leading `,`, spaces and `>` are kept as they are |
| Conversion.ConvertList | api-generator/src/main/java/com/microsoft/playwright/tools/ApiGenerator.java:148-154 | `Array<X>` converts to `List<` followed by the conversion of X, for every X |
| Conversion.ConvertMap | api-generator/src/main/java/com/microsoft/playwright/tools/ApiGenerator.java:148-154 | `Object<X>` converts to `Map<` followed by the conversion of X, for every X |
| Conversion.ConvertDropsNull | api-generator/src/main/java/com/microsoft/playwright/tools/ApiGenerator.java:148-154 | a leading `null\|` is dropped and the rest converted, for every rest |
| Conversion.ConvertString | api-generator/src/main/java/com/microsoft/playwright/tools/ApiGenerator.java:148-154 | `string` converts to `String` |
| Containers.ConvertNested | api-generator/src/main/java/com/microsoft/playwright/tools/ApiGenerator.java:148-154 | `Array<null\|Object<K, V>>` converts to `List<Map<K', V'>>` where K', V' are the conversions of K and V, for every K and V |
| Containers.DroppedTargetLeavesNoChar | api-generator/src/main/java/com/microsoft/playwright/tools/ApiGenerator.java:130 | a `null\|` between wrappers holding no `n` is the only place a bar occurs, so removing it leaves no union |
| Containers.NestedIsNoUnion | api-generator/src/main/java/com/microsoft/playwright/tools/ApiGenerator.java:130-132 | `Promise<Array<null\|Object<K, V>>>` is no union for bar-free K and V |
| Containers.RenderListOfNullableMap | api-generator/src/main/java/com/microsoft/playwright/tools/ApiGenerator.java:115-154 | `Promise<Array<null\|Object<K, V>>>` renders as `List<Map<K', V'>>` for every bar-free K and V, with K', V' their conversions |
| Containers.RenderNestedContainers | api-generator/src/main/java/com/microsoft/playwright/tools/ApiGenerator.java:115-154 | `Promise<Array<null\|Object<string, number>>>` renders as `List<Map<String, int>>` |
| Definitions.NonNull | api-generator/src/main/java/com/microsoft/playwright/tools/ApiGenerator.java:789 | keeps exactly the alternatives of the input that are not `null` |
| Definitions.NonNullConcat | api-generator/src/main/java/com/microsoft/playwright/tools/ApiGenerator.java:789 | filtering distributes over concatenation, so the kept alternatives stay in order |
| Definitions.EnumValueName | api-generator/src/main/java/com/microsoft/playwright/tools/ApiGenerator.java:790 | fails exactly on a literal shorter than two characters; otherwise character i of the value is character i + 1 of the literal (the quotes dropped) with `-` turned into `_`, upper-cased; so it holds no `-` and no lower-case ASCII letter |
| Definitions.EnumValueNames | api-generator/src/main/java/com/microsoft/playwright/tools/ApiGenerator.java:788-791 | succeeds exactly when every literal has two characters; value i is the name of literal i |
| Definitions.SplitOfThree | api-generator/src/main/java/com/microsoft/playwright/tools/ApiGenerator.java:787 | `split` on `\|` of three pipe-free pieces, the last one non-empty, gives the pieces; `Text.JavaSplit` is `String.split`, dropping trailing empty pieces |
| Definitions.EnumValuesExample | api-generator/src/main/java/com/microsoft/playwright/tools/ApiGenerator.java:784-792 | the values of `"a-b"\|"c"\|null` are exactly `A_B`, `C` in that order; `EnumValues` is the pipeline: `JavaSplit` on `\|`, `NonNull`, then `EnumValueNames` |
| Definitions.EnumValuesOfTwo | api-generator/src/main/java/com/microsoft/playwright/tools/ApiGenerator.java:784-792 | the same for any lower-case letters a, b, c |
| Definitions.AddIfAbsentKeepsDistinct | api-generator/src/main/java/com/microsoft/playwright/tools/ApiGenerator.java:180-196 | registering keeps the names in a registry pairwise distinct |
| Definitions.AddIfAbsentFirstWins | api-generator/src/main/java/com/microsoft/playwright/tools/ApiGenerator.java:180-196 | a second registration under the same name changes nothing (the first definition wins; registering is idempotent) |
| Definitions.AddIfAbsentAppends | api-generator/src/main/java/com/microsoft/playwright/tools/ApiGenerator.java:180-187 | afterwards the name is registered, the old entries are a prefix, and at most one entry was added |
| Definitions.Scope.AddEnum | api-generator/src/main/java/com/microsoft/playwright/tools/ApiGenerator.java:180-187 | the search loop leaves the enums as before when the name is present and appends otherwise; classes unchanged; distinct names kept |
| Definitions.Scope.HasClass | api-generator/src/main/java/com/microsoft/playwright/tools/ApiGenerator.java:190-194 | the search loop finds the name exactly when a registered class has it |
| Definitions.Scope.CreateNestedClass | api-generator/src/main/java/com/microsoft/playwright/tools/ApiGenerator.java:189-196 | a present name changes nothing and cannot fail; otherwise the build succeeds whenever every property is buildable for its field, a failed build changes nothing, and a successful one appends, last, the class of that name and element with one field per property, in order, each named by its key and typed by the property's resolved type; enums unchanged |
| Definitions.BuildNestedClass | api-generator/src/main/java/com/microsoft/playwright/tools/ApiGenerator.java:730-740 | succeeds whenever every property is buildable for its field; one field per property, in order, named by its key and owning the property's type with the custom type and nested-class flag its resolution chose; names in every scope stay distinct |
| Definitions.BuildField | api-generator/src/main/java/com/microsoft/playwright/tools/ApiGenerator.java:414-418 | succeeds whenever the property's type is buildable (its resolution succeeds, an enum's values can be named, and a class's properties are buildable in turn); the field is named by the property key and owns the property's type with the custom type and nested-class flag its resolution chose; a failed resolution fails the field with its error and changes nothing; otherwise the registries change as the resolution's synthesis demands |
| Definitions.NewTypeRef | api-generator/src/main/java/com/microsoft/playwright/tools/ApiGenerator.java:72-113 | succeeds whenever the type is buildable (its resolution succeeds, an enum's values can be named, and a class's properties are buildable in turn); a failed resolution or a failed enum value fails with that error and changes nothing; the result carries the type, the owner's required flag, the resolution's custom type, and `isNestedClass` exactly for a synthesised class; a synthesised enum is registered with first-wins deduplication; a synthesised class, unless one of its name exists, is built with one field per property and appended, and its build fails only when some property is not buildable; nothing else changes |
| Definitions.BuildMethod | api-generator/src/main/java/com/microsoft/playwright/tools/ApiGenerator.java:318-326 | succeeds whenever the return type and every arg's object type are buildable; a failed resolution of the return type fails the method with that error and changes nothing; otherwise the method's element and Java name, its return type (its `type` resolved for the method) and one param per arg in order, each holding the arg's type resolved for the param; the enum or class that the return type and each arg's type synthesize is registered under its name; registered entries are never removed or reordered |
| Definitions.BuildParam | api-generator/src/main/java/com/microsoft/playwright/tools/ApiGenerator.java:387-390 | a JSON-null param type fails with the param's path and changes nothing; any other type succeeds whenever it is buildable, the registries change as the resolution's synthesis demands, and the param keeps its required flag and owns its type with the custom type and nested-class flag its resolution chose; on success the enum or class its type synthesizes is registered under its name |
| Definitions.SynthesizedGrows | api-generator/src/main/java/com/microsoft/playwright/tools/ApiGenerator.java:78-113 | resolving a type never removes or reorders a registered enum or class |
| Definitions.SynthesizedRegisters | api-generator/src/main/java/com/microsoft/playwright/tools/ApiGenerator.java:78-113 | after a successful resolution the registries hold, under its name, the enum or nested class it synthesized (a duplicate name counts as already registered) |
| Definitions.RegisteredGrows | api-generator/src/main/java/com/microsoft/playwright/tools/ApiGenerator.java:78-113 | what a type synthesized stays registered as the registries grow |
| Definitions.SynthesizedBuildable | api-generator/src/main/java/com/microsoft/playwright/tools/ApiGenerator.java:78-113 | resolving a buildable type succeeds whatever the registries held |
| Definitions.BuildParams | api-generator/src/main/java/com/microsoft/playwright/tools/ApiGenerator.java:319-323 | succeeds whenever every arg has a buildable object type; the loop builds one param per arg, in order, each holding the arg's type resolved for the param; the enum or class each arg's type synthesizes stays registered under its name; registered entries are never removed or reordered |
| Definitions.AddParam | api-generator/src/main/java/com/microsoft/playwright/tools/ApiGenerator.java:320-322 | one pass of the args loop appends the param built for arg i, registers what that arg's type synthesizes, and succeeds whenever that arg has a buildable object type |
| Definitions.BuildEvent | api-generator/src/main/java/com/microsoft/playwright/tools/ApiGenerator.java:211-214 | succeeds whenever the event's type is buildable; the event owns its type with the custom type and nested-class flag its resolution chose; the registries change as the resolution's synthesis demands, only grow, and on success hold what the event's type synthesizes; a failed resolution fails the event with its error and changes nothing |
| Definitions.BuildInterface | api-generator/src/main/java/com/microsoft/playwright/tools/ApiGenerator.java:525-543 | succeeds whenever every method, property and event member is buildable; methods and properties become methods and events become events, each in member order, each method carrying its member's Java name, resolved return type and params and each event its resolved type; the base is kept; the interface's enums and classes include, by name, every enum and class that a member's return type, arg types or event type synthesizes, and their names are distinct |
| Definitions.AddMember | api-generator/src/main/java/com/microsoft/playwright/tools/ApiGenerator.java:530-541 | one pass of the member loop extends the collected methods or events with the one built for the member, by the member's kind, keeps every earlier member's synthesized types registered and registers this member's, and succeeds whenever the member is buildable |
| MethodEmitter.ParamNameOverride | api-generator/src/main/java/com/microsoft/playwright/tools/ApiGenerator.java:382-402 | the options of `Keyboard.type` and `Keyboard.press` are named `delay`; any other param keeps its own name |
| MethodEmitter.MethodToJava | api-generator/src/main/java/com/microsoft/playwright/tools/ApiGenerator.java:328-337 | the StringBuilder loop yields the return type, name and comma-joined params; the first failing param is reported before the return type |
| MethodEmitter.AppendJoined | api-generator/src/main/java/com/microsoft/playwright/tools/ApiGenerator.java:330-334 | appending with a separator only when the text is non-empty is joining |
| MethodEmitter.JoinFirstParams | api-generator/src/main/java/com/microsoft/playwright/tools/ApiGenerator.java:357-366 | the loop yields the first k params joined by commas and their names joined by commas, or the first param's failure |
| MethodEmitter.WriteDefaultOverloadedMethod | api-generator/src/main/java/com/microsoft/playwright/tools/ApiGenerator.java:355-376 | the method computes the overload with k params |
| MethodEmitter.OverloadForwards | api-generator/src/main/java/com/microsoft/playwright/tools/ApiGenerator.java:355-376 | the overload with k params declares the first k params and forwards their names plus `0` if param k renders as `int` and `null` otherwise; it has `return ` unless the type is `void` (`MethodEmitter.OverloadLines` is the overload's three lines) |
| MethodEmitter.ForwardedArgs | api-generator/src/main/java/com/microsoft/playwright/tools/ApiGenerator.java:367-370 | the names, a `, ` when not empty, then the default, are the names and the default joined |
| MethodEmitter.OverloadError | api-generator/src/main/java/com/microsoft/playwright/tools/ApiGenerator.java:355-376 | the overload fails exactly when one of the first k + 1 params or the return type fails, and reports the first |
| MethodEmitter.WriteMethod | api-generator/src/main/java/com/microsoft/playwright/tools/ApiGenerator.java:339-353 | the method computes the hand-written or the generated lines (`MethodEmitter.MethodLines`) |
| MethodEmitter.WriteGenerated | api-generator/src/main/java/com/microsoft/playwright/tools/ApiGenerator.java:345-352 | the backward loop stopping at the first required param, then the signature |
| MethodEmitter.RunIsTrailingOptional | api-generator/src/main/java/com/microsoft/playwright/tools/ApiGenerator.java:345-351 | the backward loop visits exactly the trailing run of optional params |
| MethodEmitter.CascadeShape | api-generator/src/main/java/com/microsoft/playwright/tools/ApiGenerator.java:345-351 | three lines per visited param, the overload with p params in block i - p |
| MethodEmitter.GeneratedLinesShape | api-generator/src/main/java/com/microsoft/playwright/tools/ApiGenerator.java:345-352 | with k trailing optional params: 3k + 1 lines, the overloads in decreasing param count, then the full signature |
| MethodEmitter.GeneratedLinesError | api-generator/src/main/java/com/microsoft/playwright/tools/ApiGenerator.java:345-376 | generation fails exactly when a param or the return type fails, reporting the first failing param, else the return type |
| MethodEmitter.CascadeOk | api-generator/src/main/java/com/microsoft/playwright/tools/ApiGenerator.java:345-351 | when every param and the return type render, every overload renders |
| MethodEmitter.OverrideWins | api-generator/src/main/java/com/microsoft/playwright/tools/ApiGenerator.java:340-344 | a hand-written signature is emitted line by line under the offset, cannot fail, and does not depend on params or return type |
| MethodExamples.CascadeOfTwo | api-generator/src/main/java/com/microsoft/playwright/tools/ApiGenerator.java:345-351 | with two optional params the loop writes the overload with one param, then the one with none |
| MethodExamples.TwoOptionalParams | api-generator/src/main/java/com/microsoft/playwright/tools/ApiGenerator.java:339-376 | the seven lines for a `void` method with two optional non-`int` params |
| MethodExamples.StartTracingNotCustom | api-generator/src/main/java/com/microsoft/playwright/tools/ApiGenerator.java:232-314 | `ChromiumBrowser.startTracing` has no hand-written signature |
| MethodExamples.StartTracingOptionsName | api-generator/src/main/java/com/microsoft/playwright/tools/ApiGenerator.java:91-96 | the options param of `ChromiumBrowser.startTracing` synthesises the class `StartTracingOptions` |
| MethodExamples.PageParam | api-generator/src/main/java/com/microsoft/playwright/tools/ApiGenerator.java:405-407 | an optional `Page` param named `page` renders as `Page page`; `MethodEmitter.ParamJava` renders a param as its type and name |
| MethodExamples.OptionsParam | api-generator/src/main/java/com/microsoft/playwright/tools/ApiGenerator.java:405-407 | the options param renders as `StartTracingOptions options` |
| MethodExamples.StartTracingOverloads | api-generator/src/main/java/com/microsoft/playwright/tools/ApiGenerator.java:339-376 | `startTracing(Page page, StartTracingOptions options)` gets the overloads forwarding `(page, null)` and `(null)`, then its signature |
| TypeEmitter.FieldDeclaration | api-generator/src/main/java/com/microsoft/playwright/tools/ApiGenerator.java:420-434 | the `url` and `polling` options are written whatever their type; any other field is one declaration of its type and name and fails exactly when its type fails; all lines lie under the offset |
| TypeEmitter.GetterReturnsField | api-generator/src/main/java/com/microsoft/playwright/tools/ApiGenerator.java:436-440 | a three-line method named after the field that returns the field; fails exactly when the type fails |
| TypeEmitter.SetterOk | api-generator/src/main/java/com/microsoft/playwright/tools/ApiGenerator.java:477-498 | the setter fails exactly when the type fails or the name is empty |
| TypeEmitter.SetterShape | api-generator/src/main/java/com/microsoft/playwright/tools/ApiGenerator.java:477-498 | three lines: a nested-class field gets `set...` returning the new object; `httpCredentials` and other fields get `with...` returning the builder |
| TypeEmitter.BuilderShape | api-generator/src/main/java/com/microsoft/playwright/tools/ApiGenerator.java:442-499 | an ordinary field's builder has 4 lines, or 8 for `postData` whose first four are the `String` overload of `postData`, ends with `}`, and has the `set`/`with` head and return of its kind; fails exactly as the setter does |
| TypeEmitter.BuilderIndented | api-generator/src/main/java/com/microsoft/playwright/tools/ApiGenerator.java:442-499 | every builder line lies under the offset |
| TypeEmitter.EnumPublicInsideClass | api-generator/src/main/java/com/microsoft/playwright/tools/ApiGenerator.java:794-797 | an enum line is indented and starts with `public ` exactly inside a nested class; `TypeEmitter.EnumLine` writes the enum with its values joined by commas |
| TypeEmitter.ClassesLinesIsConcatAll | api-generator/src/main/java/com/microsoft/playwright/tools/ApiGenerator.java:202-204 | the classes are written one after the other, the first failure stopping the run |
| TypeEmitter.WriteBuilderMethods | api-generator/src/main/java/com/microsoft/playwright/tools/ApiGenerator.java:764-777 | the method computes the constructor and `done()` inside another nested class, then each field's builder |
| TypeEmitter.WriteClass | api-generator/src/main/java/com/microsoft/playwright/tools/ApiGenerator.java:742-762 | the method computes the class text: head, own scope, fields, blank line, getters or builders, `}` |
| TypeEmitter.WriteScope | api-generator/src/main/java/com/microsoft/playwright/tools/ApiGenerator.java:198-205 | the two loops write the enums, then the classes, in registration order |
| TypeEmitter.ClassIndented | api-generator/src/main/java/com/microsoft/playwright/tools/ApiGenerator.java:742-762 | a class starts with its head and ends with `}` at the offset; everything between lies two spaces deeper; recursively for nested classes |
| TypeEmitter.ScopeIndented | api-generator/src/main/java/com/microsoft/playwright/tools/ApiGenerator.java:198-205 | everything a type scope writes lies under its offset |
| TypeEmitter.ClassesIndented | api-generator/src/main/java/com/microsoft/playwright/tools/ApiGenerator.java:202-204 | every class written lies under the offset |
| TypeEmitter.WriteEvents | api-generator/src/main/java/com/microsoft/playwright/tools/ApiGenerator.java:586-603 | the method computes the event enum text |
| TypeEmitter.EventLinesShape | api-generator/src/main/java/com/microsoft/playwright/tools/ApiGenerator.java:586-603 | nothing without events; otherwise the enum head, `CLOSE` for `Page`, one constant per event in order, `}`, a blank line and the two listener methods (`TypeEmitter.EventLines`) |
| TypeEmitter.EventConstantsEndWithComma | api-generator/src/main/java/com/microsoft/playwright/tools/ApiGenerator.java:595-598 | each constant is the upper-cased event name and ends with a comma, the last one included |
| TypeEmitter.EventLinesIndented | api-generator/src/main/java/com/microsoft/playwright/tools/ApiGenerator.java:586-603 | every event line lies under the offset |
| TypeEmitter.ExtendsOnlyAllowed | api-generator/src/main/java/com/microsoft/playwright/tools/ApiGenerator.java:523-571 | the declaration has an `extends` clause exactly when the base is `Browser`, `JSHandle` or `BrowserContext`; any other base is dropped |
| TypeEmitter.OverloadIndented | api-generator/src/main/java/com/microsoft/playwright/tools/ApiGenerator.java:372-375 | every overload line starts with the offset |
| TypeEmitter.MethodIndented | api-generator/src/main/java/com/microsoft/playwright/tools/ApiGenerator.java:339-353 | whatever a method writes, hand-written or generated, lies under the offset |
| TypeEmitter.WriteInterface | api-generator/src/main/java/com/microsoft/playwright/tools/ApiGenerator.java:545-584 | the method computes the interface file from its sections |
| TypeEmitter.InterfaceErrors | api-generator/src/main/java/com/microsoft/playwright/tools/ApiGenerator.java:571-578 | the file fails exactly when the nested types or a method fail; the nested types' error comes first |
| TypeEmitter.InterfaceLayout | api-generator/src/main/java/com/microsoft/playwright/tools/ApiGenerator.java:545-584 | preamble, declaration, shared types, events in that order; `}` and an empty line last, preceded for `Worker` by its `waitForEvent` (`TypeEmitter.InterfaceLines`) |
| TypeEmitter.InterfaceBodyIndented | api-generator/src/main/java/com/microsoft/playwright/tools/ApiGenerator.java:571-583 | between the declaration and the closing brace every line is indented by two spaces when the shared types are |
| Routing.Router.Add | playwright/src/main/java/com/microsoft/playwright/impl/Router.java:40-42 | the new route goes last and the size grows by one; `Router.Size` is the route count |
| Routing.Router.Remove | playwright/src/main/java/com/microsoft/playwright/impl/Router.java:44-48 | the filter loop leaves exactly the kept routes in order; the size never grows |
| Routing.FirstMatch | playwright/src/main/java/com/microsoft/playwright/impl/Router.java:55-61 | the first route accepting the URL, with no earlier one accepting; none exactly when no route accepts |
| Routing.Router.Handle | playwright/src/main/java/com/microsoft/playwright/impl/Router.java:54-62 | handled exactly when some route accepts the URL; then the invoked handler is that of the first such route; otherwise nothing is invoked |
| Routing.FilteredConcat | playwright/src/main/java/com/microsoft/playwright/impl/Router.java:44-48 | removal distributes over concatenation, so the kept routes keep their order |
| Routing.FilteredMembers | playwright/src/main/java/com/microsoft/playwright/impl/Router.java:46 | a route remains exactly when it was present and is not matched |
| Routing.FilteredLength | playwright/src/main/java/com/microsoft/playwright/impl/Router.java:44-52 | removal never grows the table; the size is kept exactly when nothing matches, and then the table is unchanged |
| Routing.FilteredIdempotent | playwright/src/main/java/com/microsoft/playwright/impl/Router.java:44-48 | removing twice is removing once |
| Routing.RemoveAllOfMatcher | playwright/src/main/java/com/microsoft/playwright/impl/Router.java:46 | with a null handler every route of the matcher goes and every other route stays |
| Routing.RemoveOneHandler | playwright/src/main/java/com/microsoft/playwright/impl/Router.java:46 | with a handler exactly the routes pairing that matcher with that same handler go |
| Routing.AddThenRemove | playwright/src/main/java/com/microsoft/playwright/impl/Router.java:40-48 | adding a route and removing it by matcher and handler gives the same table as removing before adding |
| Routing.AddedRouteIsLast | playwright/src/main/java/com/microsoft/playwright/impl/Router.java:40-62 | adding never changes which route handles an already-handled URL; the new route gets only URLs no earlier route accepts |

## Left out

- **Generator I/O.** The constructor and `main`, which read the description and write files, are not part of this model. The model starts from a parsed description and ends with lines of text.
- **The mutable output list.** Writers return the lines they would append to the shared output list rather than appending to it. An exception is a `Fail` result, which is where the generator aborts.
- **Library code.** The `Types` class is not part of this model: the type table is a parameter. So is the hand-written signature table in the emitters; `MethodEmitter.CustomSignatures` holds its entries. A mapping's `defineTypesIn` callback is recorded as a flag and its effect is not modelled.
- **Literal file text.** The license header, the import lines and `writeSharedTypes` (fixed literal text chosen by interface name) are passed to the interface writer as parameters.
- **Description text.** JSON member order is the order of the input sequences. An absent method `type` is modelled as JSON null, so with no custom type it renders as `void`; Java throws a NullPointerException there instead, because `toJava` calls `isJsonNull` on the missing element (ApiGenerator.java:119).
- **Case conversion.** `Text.Upper` and `Text.ToTitle` upper-case ASCII letters only; Java's `toUpperCase` also maps other letters.
- **Generated interfaces.** Generated interfaces such as `ChromiumBrowser` are generator output and are not part of this model; `startTracing` is a worked example.
- **Router callbacks.** `UrlMatcher.test` is a function parameter of `Handle`, and `UrlMatcher.equals` is the matcher type's equality. Handler identity is the handler type's equality, and `null` in `remove` is `None`. `BiConsumer.accept` is modelled by returning the handler that would be invoked; its effects are not modelled. A null handler stored by `add` is not modelled.
- Definitions.BuildMethod: the registries' contents after the params are resolved are stated as growing and as holding, by name, what the return type and args synthesize, not entry by entry; which failing param's error is reported is not stated.
- Definitions.BuildInterface: the interface's enums and classes are stated to include, by name, every one its members' types synthesize, not that nothing else is there, nor the values or fields of a registered entry (the first entry of a name wins).
- Definitions.BuildParams: which failing param's error is reported is not stated; success is stated for buildable args, a sufficient condition (a class already registered under its name is not rebuilt, so it cannot fail).
- Definitions.BuildNestedClass: which failing property's error is reported is not stated, and the class's own enums and classes are stated only to have distinct names.
- **Concurrency.** None is modelled; both components are single-threaded.

=== FILE: conversion.dfy ===
/** `convertBuiltinType` on composite type names: how the fixed
    replacements act on containers, nullable types and type arguments. */
module Conversion {
  import opened Results
  import opened Text
  import opened Schema
  import opened TypeResolution

  /** Punctuation that occurs in no replaced name. */
  predicate Punctuation(c: char) {
    c == ',' || c == ' ' || c == '>'
  }

  /** The conversion works on both sides of a punctuation character
      separately: no replaced name reaches across `,`, ` ` or `>`. */
  lemma ConvertSplits(a: string, b: string)
    requires |b| > 0 && Punctuation(b[0])
    ensures ConvertBuiltinType(a + b) == ConvertBuiltinType(a) + ConvertBuiltinType(b)
  {
    var a1, b1 := Replace(a, "Array<", "List<"), Replace(b, "Array<", "List<");
    ReplaceSplits(a, b, "Array<", "List<");
    var a2, b2 := Replace(a1, "Object<", "Map<"), Replace(b1, "Object<", "Map<");
    ReplaceSplits(a1, b1, "Object<", "Map<");
    var a3, b3 := Replace(a2, "string", "String"), Replace(b2, "string", "String");
    ReplaceSplits(a2, b2, "string", "String");
    var a4, b4 := Replace(a3, "number", "int"), Replace(b3, "number", "int");
    ReplaceSplits(a3, b3, "number", "int");
    ReplaceSplits(a4, b4, "null|", "");
  }

  /** Leading punctuation is kept as it is. */
  lemma ConvertSkipsPunctuation(p: string, x: string)
    requires forall i :: 0 <= i < |p| ==> Punctuation(p[i])
    ensures ConvertBuiltinType(p + x) == p + ConvertBuiltinType(x)
  {
    var x1 := Replace(x, "Array<", "List<");
    var x2 := Replace(x1, "Object<", "Map<");
    var x3 := Replace(x2, "string", "String");
    var x4 := Replace(x3, "number", "int");
    ReplaceSkipsNoStart(p, x, "Array<", "List<");
    ReplaceSkipsNoStart(p, x1, "Object<", "Map<");
    ReplaceSkipsNoStart(p, x2, "string", "String");
    ReplaceSkipsNoStart(p, x3, "number", "int");
    ReplaceSkipsNoStart(p, x4, "null|", "");
  }

  /** `Array<` becomes `List<` and the element type is converted. */
  lemma ConvertList(x: string)
    ensures ConvertBuiltinType("Array<" + x) == "List<" + ConvertBuiltinType(x)
  {
    var s := "Array<" + x;
    assert StartsWith(s, "Array<") && s[|"Array<"|..] == x;
    var x1 := Replace(x, "Array<", "List<");
    var x2 := Replace(x1, "Object<", "Map<");
    var x3 := Replace(x2, "string", "String");
    var x4 := Replace(x3, "number", "int");
    ReplaceSkipsNoStart("List<", x1, "Object<", "Map<");
    var u := "List<" + x2;
    forall i | 0 <= i < |"List<"| ensures !StartsWith(u[i..], "string") {
      if i == 2 && |u[i..]| >= 6 {
        assert u[i..][..6][2] == '<';
      } else if |u[i..]| >= 6 {
        assert u[i..][..6][0] == u[i];
      }
    }
    ReplaceSkipsPrefix("List<", x2, "string", "String");
    ReplaceSkipsNoStart("List<", x3, "number", "int");
    ReplaceSkipsNoStart("List<", x4, "null|", "");
  }

  /** `Object<` becomes `Map<` and the type arguments are converted. */
  lemma ConvertMap(x: string)
    ensures ConvertBuiltinType("Object<" + x) == "Map<" + ConvertBuiltinType(x)
  {
    var x1 := Replace(x, "Array<", "List<");
    ReplaceSkipsNoStart("Object<", x, "Array<", "List<");
    var s := "Object<" + x1;
    assert StartsWith(s, "Object<") && s[|"Object<"|..] == x1;
    var x2 := Replace(x1, "Object<", "Map<");
    var x3 := Replace(x2, "string", "String");
    var x4 := Replace(x3, "number", "int");
    ReplaceSkipsNoStart("Map<", x2, "string", "String");
    ReplaceSkipsNoStart("Map<", x3, "number", "int");
    ReplaceSkipsNoStart("Map<", x4, "null|", "");
  }

  /** A leading `null|` is removed: a nullable type converts as the type. */
  lemma ConvertDropsNull(x: string)
    ensures ConvertBuiltinType("null|" + x) == ConvertBuiltinType(x)
  {
    var x1 := Replace(x, "Array<", "List<");
    var x2 := Replace(x1, "Object<", "Map<");
    var x3 := Replace(x2, "string", "String");
    var x4 := Replace(x3, "number", "int");
    ReplaceSkipsNoStart("null|", x, "Array<", "List<");
    ReplaceSkipsNoStart("null|", x1, "Object<", "Map<");
    ReplaceSkipsNoStart("null|", x2, "string", "String");
    var u := "null|" + x3;
    forall i | 0 <= i < |"null|"| ensures !StartsWith(u[i..], "number") {
      if i == 0 && |u| >= 6 {
        assert u[..6][2] == 'l';
      } else if |u[i..]| >= 6 {
        assert u[i..][..6][0] == u[i];
      }
    }
    ReplaceSkipsPrefix("null|", x3, "number", "int");
    var s := "null|" + x4;
    assert StartsWith(s, "null|") && s[|"null|"|..] == x4;
  }

  lemma ConvertString()
    ensures ConvertBuiltinType("string") == "String"
  {
    var n := "string";
    ReplaceMissingChar(n, "Array<", "List<", 'A');
    ReplaceMissingChar(n, "Object<", "Map<", 'O');
    assert StartsWith(n, "string") && n[|"string"|..] == [];
    assert Replace(n, "string", "String") == "String";
    ReplaceMissingChar("String", "number", "int", 'b');
    ReplaceMissingChar("String", "null|", "", '|');
  }
}

/** Containers nested in each other: `Promise<Array<null|Object<K, V>>>`,
    written with its parts grouped from the right. */
module Containers {
  import opened Results
  import opened Text
  import opened Schema
  import opened TypeResolution
  import opened Conversion

  /** `Array<null|Object<K, V>>`. */
  function ListOfNullableMap(k: string, v: string): string {
    "Array<" + ("null|" + ("Object<" + (k + (", " + (v + ">>")))))
  }

  /** A promised array of nullable objects from K to V renders as a List
      of Maps from the converted K to the converted V. */
  lemma RenderListOfNullableMap(owner: Element, k: string, v: string)
    requires '|' !in k && '|' !in v
    ensures ToJava(TypeRef(owner, TypeObj("Promise<" + ListOfNullableMap(k, v) + ">", []), true, None, false))
         == Ok("List<" + ("Map<" + (ConvertBuiltinType(k) + (", " + (ConvertBuiltinType(v) + ">>")))))
  {
    var inner := ListOfNullableMap(k, v);
    StripPromiseUnwraps(inner);
    NestedIsNoUnion(k, v);
    ConvertNested(k, v);
    RenderBuiltin(owner, "Promise<" + inner + ">", inner,
                  "List<" + ("Map<" + (ConvertBuiltinType(k) + (", " + (ConvertBuiltinType(v) + ">>")))));
  }

  /** The conversion goes inside the containers: Array becomes List,
      `null|` goes, Object becomes Map and both type arguments are
      converted. */
  lemma ConvertNested(k: string, v: string)
    ensures ConvertBuiltinType(ListOfNullableMap(k, v))
         == "List<" + ("Map<" + (ConvertBuiltinType(k) + (", " + (ConvertBuiltinType(v) + ">>"))))
  {
    var z := k + (", " + (v + ">>"));
    ConvertList("null|" + ("Object<" + z));
    ConvertDropsNull("Object<" + z);
    ConvertMap(z);
    ConvertSplits(k, ", " + (v + ">>"));
    ConvertSkipsPunctuation(", ", v + ">>");
    ConvertSplits(v, ">>");
    ConvertSkipsPunctuation(">>", "");
    assert ConvertBuiltinType("") == "";
    assert ">>" + "" == ">>";
  }

  /** A target between two wrappers that do not hold its first character,
      followed by text that lacks one of its characters `c`, is the only
      place `c` occurs: once the target is dropped, `c` is gone. */
  lemma {:induction false} DroppedTargetLeavesNoChar(p: string, a: string, target: string, rest: string, t: string, c: char)
    requires |target| > 0 && target[0] !in p && target[0] !in a && |t| > 0 && t[0] !in target
    requires c in target && c !in p && c !in a && c !in rest && c !in t
    ensures !Contains(Replace(p + (a + (target + rest)) + t, target, ""), [c])
  {
    var s := target + rest;
    ReplaceSplits(p + (a + s), t, target, "");
    ReplaceMissingChar(t, target, "", c);
    ReplaceSkipsNoStart(p, a + s, target, "");
    ReplaceSkipsNoStart(a, s, target, "");
    assert StartsWith(s, target) && s[|target|..] == rest;
    ReplaceMissingChar(rest, target, "", c);
    var out := p + (a + rest) + t;
    assert Replace(p + (a + s) + t, target, "") == out;
    NotContainsMissingChar(out, [c], c);
  }

  /** Its only bar belongs to `null|`, so it is no union. */
  lemma NestedIsNoUnion(k: string, v: string)
    requires '|' !in k && '|' !in v
    ensures !Contains(Replace("Promise<" + ListOfNullableMap(k, v) + ">", "null|", ""), "|")
  {
    DroppedTargetLeavesNoChar("Promise<", "Array<", "null|", "Object<" + (k + (", " + (v + ">>"))), ">", '|');
  }

  /** A promised list of nullable maps:
      `Promise<Array<null|Object<string, number>>>` renders as
      `List<Map<String, int>>`. */
  lemma RenderNestedContainers(owner: Element, k: string, v: string)
    requires k == "string" && v == "number"
    ensures ToJava(TypeRef(owner, TypeObj("Promise<" + ListOfNullableMap(k, v) + ">", []), true, None, false))
         == Ok("List<Map<String, int>>")
  {
    RenderListOfNullableMap(owner, k, v);
    ConvertString();
    ConvertNumber();
    ListOfMapText(ConvertBuiltinType(k), ConvertBuiltinType(v));
  }

  lemma ListOfMapText(ck: string, cv: string)
    requires ck == "String" && cv == "int"
    ensures "List<" + ("Map<" + (ck + (", " + (cv + ">>")))) == "List<Map<String, int>>"
  {
  }
}

=== FILE: definitions.dfy ===
/** The type definitions the generator builds from the description: enums
    and nested classes synthesized on first use and registered, first one
    wins, in the nearest enclosing type scope; and the eager construction
    of an interface's methods, params, events and their types. */
module Definitions {
  import opened Results
  import opened Text
  import opened Schema
  import opened TypeResolution

  /** An `Enum`: the type scope that owns it, its name and its values. */
  datatype EnumDef = EnumDef(scope: Element, name: string, values: seq<string>)

  /** A `Field` of a nested class: its element (whose name is the
      property's "name"), its Java name (the property's key) and its type. */
  datatype FieldDef = FieldDef(elem: Element, name: string, typeRef: TypeRef)

  /** A `NestedClass`: its element, name, fields and the enums and classes
      synthesized in its own scope. */
  datatype ClassDef = ClassDef(elem: Element, name: string, fields: seq<FieldDef>,
                               enums: seq<EnumDef>, classes: seq<ClassDef>)

  datatype ParamDef = ParamDef(elem: Element, typeRef: TypeRef, required: bool)

  /** A `Method`: its element, its Java name, return type and params. */
  datatype MethodDef = MethodDef(elem: Element, name: string, returnType: TypeRef, params: seq<ParamDef>)

  datatype EventDef = EventDef(elem: Element, typeRef: TypeRef)

  /** An `Interface`: its element, its "extends" entry, its methods (one per
      method or property member), events, and the enums and classes
      synthesized in its scope. */
  datatype InterfaceDef = InterfaceDef(elem: Element, base: Option<string>, methods: seq<MethodDef>,
                                       events: seq<EventDef>, enums: seq<EnumDef>, classes: seq<ClassDef>)

  // ---------------------------------------------------------------------
  // Enum values

  /** `"null"` alternatives are dropped, the others kept in order. */
  function NonNull(pieces: seq<string>): (r: seq<string>)
    ensures |r| <= |pieces|
    ensures forall x :: x in r <==> x in pieces && x != "null"
  {
    if pieces == [] then []
    else (if pieces[0] == "null" then [] else [pieces[0]]) + NonNull(pieces[1..])
  }

  /** Filtering commutes with concatenation, so the kept alternatives keep
      their relative order. */
  lemma {:induction false} NonNullConcat(a: seq<string>, b: seq<string>)
    ensures NonNull(a + b) == NonNull(a) + NonNull(b)
  {
    if a == [] {
      assert a + b == b;
    } else {
      var head := if a[0] == "null" then [] else [a[0]];
      assert (a + b)[0] == a[0] && (a + b)[1..] == a[1..] + b;
      assert NonNull(a + b) == head + NonNull(a[1..] + b);
      NonNullConcat(a[1..], b);
      assert head + (NonNull(a[1..]) + NonNull(b)) == (head + NonNull(a[1..])) + NonNull(b);
    }
  }

  /** One alternative's value name: the first and last characters (the
      quotes) removed, which throws below two characters; `-` replaced by
      `_`; upper-cased. */
  function EnumValueName(literal: string): (r: Result<string>)
    ensures r.Ok? <==> |literal| >= 2
    ensures r.Ok? ==> |r.value| == |literal| - 2
    ensures r.Ok? ==> forall i :: 0 <= i < |r.value| ==>
              r.value[i] == UpperChar(if literal[i + 1] == '-' then '_' else literal[i + 1])
    ensures r.Ok? ==> '-' !in r.value
    ensures r.Ok? ==> forall i :: 0 <= i < |r.value| ==> !('a' <= r.value[i] <= 'z')
  {
    if |literal| < 2 then Fail(StringIndexOutOfBounds(literal))
    else
      var inner := literal[1..|literal| - 1];
      ReplaceCharPointwise(inner, '-', '_');
      var v := Upper(Replace(inner, "-", "_"));
      assert forall i :: 0 <= i < |v| ==> v[i] != '-' by {
        forall i | 0 <= i < |v| ensures v[i] != '-' {
          assert Replace(inner, "-", "_")[i] != '-';
        }
      }
      Ok(v)
  }

  /** The stream `map` over the kept alternatives; the first failure is the
      one thrown. */
  function EnumValueNames(literals: seq<string>): (r: Result<seq<string>>)
    ensures r.Ok? <==> forall i :: 0 <= i < |literals| ==> |literals[i]| >= 2
    ensures r.Ok? ==> |r.value| == |literals|
    ensures r.Ok? ==> forall i :: 0 <= i < |literals| ==> EnumValueName(literals[i]) == Ok(r.value[i])
  {
    if literals == [] then Ok([])
    else
      var first :- EnumValueName(literals[0]);
      var rest :- EnumValueNames(literals[1..]);
      Ok([first] + rest)
  }

  /** The `Enum` constructor's value list: split on `|`, `null` dropped, each
      alternative turned into a value name. */
  function EnumValues(union: string): Result<seq<string>> {
    EnumValueNames(NonNull(JavaSplit(union, '|')))
  }

  /** `"a-b"|"c"|null` gives exactly A_B and C, in that order. */
  lemma EnumValuesExample()
    ensures EnumValues("\"a-b\"|\"c\"|null") == Ok(["A_B", "C"])
  {
    EnumValuesOfTwo('a', 'b', 'c');
  }

  predicate Lower(c: char) { 'a' <= c <= 'z' }

  /** `"a-b"|"c"|null` for any lower-case letters a, b, c: the hyphen becomes
      an underscore, the letters are upper-cased and null is dropped. */
  lemma EnumValuesOfTwo(a: char, b: char, c: char)
    requires Lower(a) && Lower(b) && Lower(c)
    ensures EnumValues(['"', a, '-', b, '"', '|', '"', c, '"', '|', 'n', 'u', 'l', 'l'])
         == Ok([[UpperChar(a), '_', UpperChar(b)], [UpperChar(c)]])
  {
    var q1, q2, n := ['"', a, '-', b, '"'], ['"', c, '"'], ['n', 'u', 'l', 'l'];
    var union := ['"', a, '-', b, '"', '|', '"', c, '"', '|', 'n', 'u', 'l', 'l'];
    SplitOfThree(q1, q2, n);
    assert union == q1 + ['|'] + (q2 + ['|'] + n);
    assert JavaSplit(union, '|') == [q1, q2, n];
    NonNullOfThree(q1, q2, n);
    EnumValueNameOfPair(a, b);
    EnumValueNameOfOne(c);
    EnumValueNamesOfTwo(q1, q2, [UpperChar(a), '_', UpperChar(b)], [UpperChar(c)]);
    assert EnumValues(union) == EnumValueNames([q1, q2]);
  }

  /** Splitting three pipe-free pieces joined by `|`, the last one not
      empty, gives the pieces. */
  lemma SplitOfThree(x: string, y: string, z: string)
    requires '|' !in x && '|' !in y && '|' !in z && z != ""
    ensures JavaSplit(x + ['|'] + (y + ['|'] + z), '|') == [x, y, z]
  {
    var u := x + ['|'] + (y + ['|'] + z);
    assert u[|x|] == '|';
    SplitAllConcat(x, y + ['|'] + z, '|');
    SplitAllConcat(y, z, '|');
    SplitAllNoSep(z, '|');
    assert SplitAll(u, '|') == [x, y, z];
    assert DropTrailingEmpty([x, y, z]) == [x, y, z];
  }

  /** A trailing `null` is dropped, other pieces of another length kept. */
  lemma NonNullOfThree(x: string, y: string, z: string)
    requires |x| != 4 && |y| != 4 && z == "null"
    ensures NonNull([x, y, z]) == [x, y]
  {
    assert NonNull([z]) == [] by { assert [z][1..] == []; }
    assert NonNull([y, z]) == [y] by { assert [y, z][1..] == [z]; }
    assert [x, y, z][1..] == [y, z];
  }

  /** Two literals whose names are known. */
  lemma EnumValueNamesOfTwo(x: string, y: string, nx: string, ny: string)
    requires EnumValueName(x) == Ok(nx) && EnumValueName(y) == Ok(ny)
    ensures EnumValueNames([x, y]) == Ok([nx, ny])
  {
    assert EnumValueNames([y]) == Ok([ny]) by {
      assert [y][1..] == [] && [y][0] == y;
      assert EnumValueNames([]) == Ok([]);
      assert [ny] + [] == [ny];
    }
    assert [x, y][1..] == [y] && [x, y][0] == x;
    assert [nx] + [ny] == [nx, ny];
  }

  lemma EnumValueNameOfPair(a: char, b: char)
    requires Lower(a) && Lower(b)
    ensures EnumValueName(['"', a, '-', b, '"']) == Ok([UpperChar(a), '_', UpperChar(b)])
  {
    var q := ['"', a, '-', b, '"'];
    assert q[1..|q| - 1] == [a] + ['-', b];
    ReplaceSkipsPrefix([a], ['-', b], "-", "_");
    assert Replace(['-', b], "-", "_") == ['_', b] by {
      assert StartsWith(['-', b], "-");
      assert ['-', b][1..] == [b];
      assert Replace([b], "-", "_") == [b] by {
        assert [b][..1] == [b] && [b] != "-";
        assert [b][1..] == [];
      }
    }
    assert Replace(q[1..|q| - 1], "-", "_") == [a, '_', b];
    assert Upper([a, '_', b]) == [UpperChar(a), '_', UpperChar(b)];
  }

  lemma EnumValueNameOfOne(c: char)
    requires Lower(c)
    ensures EnumValueName(['"', c, '"']) == Ok([UpperChar(c)])
  {
    var q := ['"', c, '"'];
    assert q[1..|q| - 1] == [c];
    assert Replace([c], "-", "_") == [c] by {
      assert [c][..1] == [c] && [c] != "-";
      assert [c][1..] == [];
    }
    assert Upper([c]) == [UpperChar(c)];
  }

  // ---------------------------------------------------------------------
  // Registries: deduplication by name, first one wins

  function EnumName(e: EnumDef): string { e.name }
  function ClassName(c: ClassDef): string { c.name }

  function NamesOf<T>(s: seq<T>, nameOf: T -> string): (r: seq<string>)
    ensures |r| == |s|
    ensures forall i :: 0 <= i < |s| ==> r[i] == nameOf(s[i])
  {
    if s == [] then [] else NamesOf(s[..|s| - 1], nameOf) + [nameOf(s[|s| - 1])]
  }

  predicate Distinct(names: seq<string>) {
    forall i, j :: 0 <= i < j < |names| ==> names[i] != names[j]
  }

  /** `addEnum` / `createNestedClass` as a function of the registry: the
      registry is unchanged when an entry of that name exists, otherwise the
      new entry is appended. */
  function AddIfAbsent<T>(s: seq<T>, x: T, nameOf: T -> string): seq<T> {
    if nameOf(x) in NamesOf(s, nameOf) then s else s + [x]
  }

  /** Adding keeps the names pairwise distinct. */
  lemma AddIfAbsentKeepsDistinct<T>(s: seq<T>, x: T, nameOf: T -> string)
    requires Distinct(NamesOf(s, nameOf))
    ensures Distinct(NamesOf(AddIfAbsent(s, x, nameOf), nameOf))
  {
    var r := AddIfAbsent(s, x, nameOf);
    if nameOf(x) !in NamesOf(s, nameOf) {
      var names := NamesOf(r, nameOf);
      forall i, j | 0 <= i < j < |names| ensures names[i] != names[j] {
        if j == |s| {
          assert names[i] == NamesOf(s, nameOf)[i];
        } else {
          assert names[i] == NamesOf(s, nameOf)[i] && names[j] == NamesOf(s, nameOf)[j];
        }
      }
    }
  }

  /** A second request under a name already present, whatever it carries,
      changes nothing: the first definition wins. In particular adding is
      idempotent. */
  lemma AddIfAbsentFirstWins<T>(s: seq<T>, x: T, y: T, nameOf: T -> string)
    requires nameOf(y) == nameOf(x)
    ensures AddIfAbsent(AddIfAbsent(s, x, nameOf), y, nameOf) == AddIfAbsent(s, x, nameOf)
  {
    var r := AddIfAbsent(s, x, nameOf);
    if nameOf(x) !in NamesOf(s, nameOf) {
      assert NamesOf(r, nameOf)[|s|] == nameOf(x);
    }
  }

  /** After adding, an entry of that name is present, and the registry grew
      by at most one entry at the end. */
  lemma AddIfAbsentAppends<T>(s: seq<T>, x: T, nameOf: T -> string)
    ensures nameOf(x) in NamesOf(AddIfAbsent(s, x, nameOf), nameOf)
    ensures var r := AddIfAbsent(s, x, nameOf); r[..|s|] == s && |r| <= |s| + 1
  {
    var r := AddIfAbsent(s, x, nameOf);
    if nameOf(x) !in NamesOf(s, nameOf) {
      assert NamesOf(r, nameOf)[|s|] == nameOf(x);
    }
  }

  /** Names are distinct in every scope of a nested class, recursively. */
  predicate ClassWellFormed(c: ClassDef) {
    && Distinct(NamesOf(c.enums, EnumName))
    && Distinct(NamesOf(c.classes, ClassName))
    && forall k :: 0 <= k < |c.classes| ==> ClassWellFormed(c.classes[k])
  }

  // ---------------------------------------------------------------------
  // What building a type leaves behind

  /** `t` is the TypeRef built for `desc` owned by `owner`: the type as
      given, the owner's required flag, and the custom type and class flag
      its resolution chose. */
  predicate Resolves(types: TypeTable, owner: Element, desc: TypeDesc, ownerRequired: bool, t: TypeRef)
    requires owner.IsMember()
  {
    var plan := PlanCustomType(types, owner, desc);
    plan.Ok? && t == TypeRef(owner, desc, ownerRequired, plan.value.customType, plan.value.synthesis.SynthesizeClass?)
  }

  /** One field per property, in order, named by the property's key and
      typed by the property's resolved type. */
  predicate FieldsBuilt(types: TypeTable, elem: Element, props: seq<PropDesc>, fields: seq<FieldDef>) {
    && |fields| == |props|
    && forall i :: 0 <= i < |props| ==>
         && fields[i].name == props[i].key
         && fields[i].elem == FieldEl(elem, props[i].name)
         && Resolves(types, fields[i].elem, props[i].typ, props[i].required, fields[i].typeRef)
  }

  /** Whether a TypeRef for `desc` owned by `owner` can be built whatever
      the registries hold: the resolution succeeds, an enum's values can be
      named, and a class's properties are buildable for its fields. A class
      already registered under its name is not built again, so this is
      enough for success, not needed for it. */
  predicate Buildable(types: TypeTable, owner: Element, desc: TypeDesc)
    requires owner.IsMember()
    decreases desc
  {
    var plan := PlanCustomType(types, owner, desc);
    && plan.Ok?
    && (plan.value.synthesis.SynthesizeEnum? ==> EnumValues(TypeName(desc)).Ok?)
    && (plan.value.synthesis.SynthesizeClass? ==>
          && desc.TypeObj?
          && var elem := NestedClassEl(TypeRefEl(owner, TypeName(desc)), TypeName(desc), plan.value.synthesis.className);
             forall i :: 0 <= i < |desc.properties| ==>
               Buildable(types, FieldEl(elem, desc.properties[i].name), desc.properties[i].typ))
  }

  /** Every property's type is buildable for its field of class `elem`. */
  predicate PropsBuildable(types: TypeTable, elem: Element, props: seq<PropDesc>) {
    forall i :: 0 <= i < |props| ==> Buildable(types, FieldEl(elem, props[i].name), props[i].typ)
  }

  /** Every arg has an object type that is buildable for its param. */
  predicate ArgsBuildable(types: TypeTable, method_: Element, args: seq<ParamDesc>) {
    forall i :: 0 <= i < |args| ==>
      !args[i].typ.NullType? && Buildable(types, ParamEl(method_, args[i].name), args[i].typ)
  }

  /** Whether a computation succeeded, and with which error if not. */
  function Status<T>(r: Result<T>): (s: Result<()>)
    ensures s.Ok? <==> r.Ok?
    ensures s.Fail? ==> s.error == r.error
  {
    if r.Ok? then Ok(()) else Fail(r.error)
  }

  /** What resolving `desc` for `owner` does to the registries of the
      owner's type scope `scopeElem` (from `enums0`, `classes0` to `enums`,
      `classes`), and whether it succeeds: a failed resolution, a failed
      enum value and a failed nested class leave both registries as they
      were; a mapped or callback type touches neither; an enum is added
      unless one of its name is present; a class is built and appended
      unless one of its name is present. */
  predicate Synthesized(types: TypeTable, owner: Element, desc: TypeDesc, scopeElem: Element,
                        enums0: seq<EnumDef>, classes0: seq<ClassDef>,
                        enums: seq<EnumDef>, classes: seq<ClassDef>, status: Result<()>)
    requires owner.IsMember()
  {
    var plan := PlanCustomType(types, owner, desc);
    && (plan.Fail? ==> status == Fail(plan.error) && enums == enums0 && classes == classes0)
    && (plan.Ok? ==> match plan.value.synthesis
         case NoSynthesis => status.Ok? && enums == enums0 && classes == classes0
         case Callback => status.Ok? && enums == enums0 && classes == classes0
         case SynthesizeEnum(name) =>
           var values := EnumValues(TypeName(desc));
           && classes == classes0
           && (values.Fail? ==> status == Fail(values.error) && enums == enums0)
           && (values.Ok? ==> status.Ok? && enums == AddIfAbsent(enums0, EnumDef(scopeElem, name, values.value), EnumName))
         case SynthesizeClass(name) =>
           && enums == enums0
           && (name in NamesOf(classes0, ClassName) ==> status.Ok? && classes == classes0)
           && (name !in NamesOf(classes0, ClassName) && status.Fail? ==>
                classes == classes0 &&
                !(desc.TypeObj? && PropsBuildable(types, NestedClassEl(TypeRefEl(owner, TypeName(desc)), TypeName(desc), name),
                                                  desc.properties)))
           && (name !in NamesOf(classes0, ClassName) && status.Ok? ==>
                && |classes| == |classes0| + 1
                && classes[..|classes0|] == classes0
                && classes[|classes0|].name == name
                && classes[|classes0|].elem == NestedClassEl(TypeRefEl(owner, TypeName(desc)), TypeName(desc), name)
                && desc.TypeObj?
                && FieldsBuilt(types, classes[|classes0|].elem, desc.properties, classes[|classes0|].fields)))
  }

  /** Resolving a type never removes or reorders a registered entry. */
  lemma SynthesizedGrows(types: TypeTable, owner: Element, desc: TypeDesc, scopeElem: Element,
                         enums0: seq<EnumDef>, classes0: seq<ClassDef>,
                         enums: seq<EnumDef>, classes: seq<ClassDef>, status: Result<()>)
    requires owner.IsMember()
    requires Synthesized(types, owner, desc, scopeElem, enums0, classes0, enums, classes, status)
    ensures enums0 <= enums && classes0 <= classes
  {
    var plan := PlanCustomType(types, owner, desc);
    if plan.Ok? && plan.value.synthesis.SynthesizeEnum? {
      var values := EnumValues(TypeName(desc));
      if values.Ok? {
        AddIfAbsentAppends(enums0, EnumDef(scopeElem, plan.value.synthesis.enumName, values.value), EnumName);
      }
    }
  }

  /** A buildable type succeeds, whatever the registries held. */
  lemma SynthesizedBuildable(types: TypeTable, owner: Element, desc: TypeDesc, scopeElem: Element,
                             enums0: seq<EnumDef>, classes0: seq<ClassDef>,
                             enums: seq<EnumDef>, classes: seq<ClassDef>, status: Result<()>)
    requires owner.IsMember()
    requires Synthesized(types, owner, desc, scopeElem, enums0, classes0, enums, classes, status)
    requires Buildable(types, owner, desc)
    ensures status.Ok?
  {
    var plan := PlanCustomType(types, owner, desc);
    if plan.value.synthesis.SynthesizeClass? {
      var elem := NestedClassEl(TypeRefEl(owner, TypeName(desc)), TypeName(desc), plan.value.synthesis.className);
      assert PropsBuildable(types, elem, desc.properties);
    }
  }

  /** The registries hold, by name, what resolving `desc` for `owner`
      synthesizes: the enum or the nested class of the name the resolution
      chose. */
  predicate Registered(types: TypeTable, owner: Element, desc: TypeDesc,
                       enums: seq<EnumDef>, classes: seq<ClassDef>)
    requires owner.IsMember()
  {
    var plan := PlanCustomType(types, owner, desc);
    plan.Ok? ==> match plan.value.synthesis
      case SynthesizeEnum(name) => name in NamesOf(enums, EnumName)
      case SynthesizeClass(name) => name in NamesOf(classes, ClassName)
      case _ => true
  }

  /** A name present in a registry stays present as the registry grows. */
  lemma NamesOfGrows<T>(s: seq<T>, t: seq<T>, nameOf: T -> string, name: string)
    requires s <= t && name in NamesOf(s, nameOf)
    ensures name in NamesOf(t, nameOf)
  {
    var j :| 0 <= j < |s| && NamesOf(s, nameOf)[j] == name;
    assert NamesOf(t, nameOf)[j] == nameOf(t[j]) == nameOf(s[j]);
  }

  /** A successful resolution leaves behind what it synthesized. */
  lemma SynthesizedRegisters(types: TypeTable, owner: Element, desc: TypeDesc, scopeElem: Element,
                             enums0: seq<EnumDef>, classes0: seq<ClassDef>,
                             enums: seq<EnumDef>, classes: seq<ClassDef>, status: Result<()>)
    requires owner.IsMember()
    requires Synthesized(types, owner, desc, scopeElem, enums0, classes0, enums, classes, status)
    requires status.Ok?
    ensures Registered(types, owner, desc, enums, classes)
  {
    var plan := PlanCustomType(types, owner, desc);
    if plan.Ok? {
      match plan.value.synthesis {
        case NoSynthesis =>
        case Callback =>
        case SynthesizeEnum(name) =>
          AddIfAbsentAppends(enums0, EnumDef(scopeElem, name, EnumValues(TypeName(desc)).value), EnumName);
        case SynthesizeClass(name) =>
          if name !in NamesOf(classes0, ClassName) {
            assert NamesOf(classes, ClassName)[|classes0|] == name;
          }
      }
    }
  }

  lemma RegisteredGrows(types: TypeTable, owner: Element, desc: TypeDesc,
                        enums0: seq<EnumDef>, classes0: seq<ClassDef>, enums: seq<EnumDef>, classes: seq<ClassDef>)
    requires owner.IsMember()
    requires Registered(types, owner, desc, enums0, classes0)
    requires enums0 <= enums && classes0 <= classes
    ensures Registered(types, owner, desc, enums, classes)
  {
    var plan := PlanCustomType(types, owner, desc);
    if plan.Ok? {
      match plan.value.synthesis {
        case NoSynthesis =>
        case Callback =>
        case SynthesizeEnum(name) => NamesOfGrows(enums0, enums, EnumName, name);
        case SynthesizeClass(name) => NamesOfGrows(classes0, classes, ClassName, name);
      }
    }
  }

  /** A `TypeDefinition`'s registries: the enums and nested classes
      synthesized in its scope. */
  class Scope {
    const elem: Element
    var enums: seq<EnumDef>
    var classes: seq<ClassDef>

    ghost predicate Valid()
      reads this
    {
      && elem.IsTypeDefinition()
      && Distinct(NamesOf(enums, EnumName))
      && Distinct(NamesOf(classes, ClassName))
      && forall k :: 0 <= k < |classes| ==> ClassWellFormed(classes[k])
    }

    constructor (elem: Element)
      requires elem.IsTypeDefinition()
      ensures Valid() && this.elem == elem && enums == [] && classes == []
    {
      this.elem := elem;
      enums := [];
      classes := [];
    }

    /** `addEnum`: a linear search for the name, then an append. */
    method AddEnum(e: EnumDef)
      requires Valid()
      modifies this
      ensures Valid()
      ensures enums == AddIfAbsent(old(enums), e, EnumName)
      ensures classes == old(classes)
    {
      var i := 0;
      while i < |enums|
        invariant 0 <= i <= |enums|
        invariant forall j :: 0 <= j < i ==> enums[j].name != e.name
      {
        if enums[i].name == e.name {
          assert NamesOf(enums, EnumName)[i] == e.name;
          return;
        }
        i := i + 1;
      }
      assert e.name !in NamesOf(enums, EnumName) by {
        forall j | 0 <= j < |enums| ensures NamesOf(enums, EnumName)[j] != e.name {
        }
      }
      AddIfAbsentKeepsDistinct(enums, e, EnumName);
      enums := enums + [e];
    }

    /** The linear search of `createNestedClass` for a class of that name. */
    method HasClass(name: string) returns (found: bool)
      ensures found <==> name in NamesOf(classes, ClassName)
    {
      var i := 0;
      while i < |classes|
        invariant 0 <= i <= |classes|
        invariant forall j :: 0 <= j < i ==> classes[j].name != name
      {
        if classes[i].name == name {
          assert NamesOf(classes, ClassName)[i] == name;
          return true;
        }
        i := i + 1;
      }
      assert name !in NamesOf(classes, ClassName) by {
        forall j | 0 <= j < |classes| ensures NamesOf(classes, ClassName)[j] != name {
        }
      }
      return false;
    }

    /** `createNestedClass`: a linear search for the name; only when it is
        absent is the class built (so a class skipped as a duplicate is
        never resolved and cannot fail) and appended. */
    method CreateNestedClass(types: TypeTable, name: string, typeRefEl: Element, desc: TypeDesc)
      returns (r: Result<()>)
      requires Valid() && desc.TypeObj?
      modifies this
      ensures Valid()
      ensures enums == old(enums)
      ensures name in NamesOf(old(classes), ClassName) ==> r.Ok? && classes == old(classes)
      ensures name !in NamesOf(old(classes), ClassName) && r.Fail? ==> classes == old(classes)
      ensures PropsBuildable(types, NestedClassEl(typeRefEl, desc.name, name), desc.properties) ==> r.Ok?
      ensures name !in NamesOf(old(classes), ClassName) && r.Ok? ==>
        |classes| == |old(classes)| + 1 && classes[..|old(classes)|] == old(classes) &&
        classes[|old(classes)|].name == name &&
        classes[|old(classes)|].elem == NestedClassEl(typeRefEl, desc.name, name) &&
        FieldsBuilt(types, classes[|old(classes)|].elem, desc.properties, classes[|old(classes)|].fields)
      decreases desc, 1
    {
      var known := HasClass(name);
      if known {
        return Ok(());
      }
      var built := BuildNestedClass(types, NestedClassEl(typeRefEl, desc.name, name), desc);
      if built.Fail? {
        return Fail(built.error);
      }
      AddIfAbsentKeepsDistinct(classes, built.value, ClassName);
      classes := classes + [built.value];
      r := Ok(());
    }
  }

  /** The `NestedClass` constructor: one field per property, in order, each
      type resolved in the class's own scope. */
  method BuildNestedClass(types: TypeTable, elem: Element, desc: TypeDesc) returns (r: Result<ClassDef>)
    requires elem.NestedClassEl? && desc.TypeObj?
    ensures r.Ok? ==> r.value.elem == elem && r.value.name == elem.className
    ensures r.Ok? ==> FieldsBuilt(types, elem, desc.properties, r.value.fields)
    ensures r.Ok? ==> ClassWellFormed(r.value)
    ensures PropsBuildable(types, elem, desc.properties) ==> r.Ok?
    decreases desc, 0
  {
    var scope := new Scope(elem);
    var props := desc.properties;
    var fields: seq<FieldDef> := [];
    var i := 0;
    while i < |props|
      invariant 0 <= i <= |props|
      invariant scope.Valid() && scope.elem == elem
      invariant FieldsBuilt(types, elem, props[..i], fields)
    {
      var p := props[i];
      assert p in desc.properties;
      var field := BuildField(scope, types, p);
      if field.Fail? {
        return Fail(field.error);
      }
      fields := fields + [field.value];
      i := i + 1;
      assert props[..i] == props[..i - 1] + [p];
    }
    assert props[..i] == props;
    r := Ok(ClassDef(elem, elem.className, fields, scope.enums, scope.classes));
  }

  /** The `Field` constructor: a field named by the property's key, whose
      type is resolved in the enclosing class's scope. */
  method BuildField(scope: Scope, types: TypeTable, p: PropDesc) returns (r: Result<FieldDef>)
    requires scope.Valid() && scope.elem.NestedClassEl?
    modifies scope
    ensures scope.Valid()
    ensures Synthesized(types, FieldEl(scope.elem, p.name), p.typ, scope.elem,
                        old(scope.enums), old(scope.classes), scope.enums, scope.classes, Status(r))
    ensures r.Ok? ==> r.value.name == p.key && r.value.elem == FieldEl(scope.elem, p.name)
    ensures r.Ok? ==> Resolves(types, r.value.elem, p.typ, p.required, r.value.typeRef)
    ensures Buildable(types, FieldEl(scope.elem, p.name), p.typ) ==> r.Ok?
    decreases p.typ, 3
  {
    var fieldEl := FieldEl(scope.elem, p.name);
    var t := NewTypeRef(scope, types, fieldEl, p.typ, p.required);
    if t.Fail? {
      return Fail(t.error);
    }
    r := Ok(FieldDef(fieldEl, p.key, t.value));
  }

  /** The TypeRef constructor: resolve the type (`createCustomType`) and
      perform the synthesis it asks for in the owner's type scope. */
  method NewTypeRef(scope: Scope, types: TypeTable, owner: Element, desc: TypeDesc, ownerRequired: bool)
    returns (r: Result<TypeRef>)
    requires scope.Valid() && owner.IsMember() && owner.TypeScope() == scope.elem
    modifies scope
    ensures scope.Valid()
    ensures Synthesized(types, owner, desc, scope.elem, old(scope.enums), old(scope.classes),
                        scope.enums, scope.classes, Status(r))
    ensures r.Ok? ==> Resolves(types, owner, desc, ownerRequired, r.value)
    ensures Buildable(types, owner, desc) ==> r.Ok?
    decreases desc, 2
  {
    var plan := PlanCustomType(types, owner, desc);
    if plan.Fail? {
      return Fail(plan.error);
    }
    var p := plan.value;
    match p.synthesis {
      case NoSynthesis =>
      case Callback =>
      case SynthesizeEnum(name) =>
        var values := EnumValues(TypeName(desc));
        if values.Fail? {
          return Fail(values.error);
        }
        scope.AddEnum(EnumDef(scope.elem, name, values.value));
      case SynthesizeClass(name) =>
        assert TypeName(desc) != "";
        var created := scope.CreateNestedClass(types, name, TypeRefEl(owner, TypeName(desc)), desc);
        if created.Fail? {
          return Fail(created.error);
        }
    }
    r := Ok(TypeRef(owner, desc, ownerRequired, p.customType, p.synthesis.SynthesizeClass?));
  }

  /** Java names for schema method names that are reserved words or not
      identifiers. */
  const JavaMethodNames: map<string, string> := map[
    "continue" := "continue_",
    "$eval" := "evalOnSelector",
    "$$eval" := "evalOnSelectorAll",
    "$" := "querySelector",
    "$$" := "querySelectorAll",
    "goto" := "navigate"
  ]

  function JavaMethodName(jsonName: string): string {
    if jsonName in JavaMethodNames then JavaMethodNames[jsonName] else jsonName
  }

  /** The `Method` constructor: return type first, then each arg in order;
      a param whose "type" is not an object fails. */
  method BuildMethod(scope: Scope, types: TypeTable, m: MemberDesc) returns (r: Result<MethodDef>)
    requires scope.Valid() && scope.elem.InterfaceEl?
    modifies scope
    ensures scope.Valid()
    ensures r.Ok? ==> r.value.elem == MethodEl(scope.elem, m.name) && r.value.name == JavaMethodName(m.name)
    ensures var plan := PlanCustomType(types, MethodEl(scope.elem, m.name), m.typ);
      plan.Fail? ==> r == Fail(plan.error) && scope.enums == old(scope.enums) && scope.classes == old(scope.classes)
    ensures r.Ok? ==> Resolves(types, r.value.elem, m.typ, m.required, r.value.returnType)
    ensures r.Ok? ==> ParamsBuilt(types, r.value.elem, m.args, r.value.params)
    ensures r.Ok? ==> Registered(types, MethodEl(scope.elem, m.name), m.typ, scope.enums, scope.classes)
    ensures r.Ok? ==> ArgsRegistered(types, MethodEl(scope.elem, m.name), m.args, scope.enums, scope.classes)
    ensures old(scope.enums) <= scope.enums && old(scope.classes) <= scope.classes
    ensures Buildable(types, MethodEl(scope.elem, m.name), m.typ) && ArgsBuildable(types, MethodEl(scope.elem, m.name), m.args) ==>
              r.Ok?
  {
    var elem := MethodEl(scope.elem, m.name);
    var returnType := NewTypeRef(scope, types, elem, m.typ, m.required);
    SynthesizedGrows(types, elem, m.typ, scope.elem, old(scope.enums), old(scope.classes),
                     scope.enums, scope.classes, Status(returnType));
    if returnType.Fail? {
      return Fail(returnType.error);
    }
    SynthesizedRegisters(types, elem, m.typ, scope.elem, old(scope.enums), old(scope.classes),
                         scope.enums, scope.classes, Status(returnType));
    ghost var enums0, classes0 := scope.enums, scope.classes;
    var params := BuildParams(scope, types, elem, m.args);
    if params.Fail? {
      return Fail(params.error);
    }
    RegisteredGrows(types, elem, m.typ, enums0, classes0, scope.enums, scope.classes);
    r := Ok(MethodDef(elem, JavaMethodName(m.name), returnType.value, params.value));
  }

  /** One param per arg, in order, each with the arg's name and flag and
      the arg's resolved type, owned by the param; no arg's type is JSON
      null. */
  predicate ParamsBuilt(types: TypeTable, method_: Element, args: seq<ParamDesc>, params: seq<ParamDef>) {
    && |params| == |args|
    && forall i :: 0 <= i < |args| ==>
         && params[i].elem == ParamEl(method_, args[i].name)
         && params[i].required == args[i].required
         && Resolves(types, params[i].elem, args[i].typ, args[i].required, params[i].typeRef)
         && !args[i].typ.NullType?
  }

  /** The `Param` constructor: a "type" that is not an object fails with
      the param's path. */
  method BuildParam(scope: Scope, types: TypeTable, elem: Element, a: ParamDesc) returns (r: Result<ParamDef>)
    requires scope.Valid() && elem.MethodEl? && elem.parent == scope.elem
    modifies scope
    ensures scope.Valid()
    ensures a.typ.NullType? ==>
      r == Fail(NotAnObject(ParamEl(elem, a.name).Path())) &&
      scope.enums == old(scope.enums) && scope.classes == old(scope.classes)
    ensures !a.typ.NullType? ==> Synthesized(types, ParamEl(elem, a.name), a.typ, scope.elem,
                                              old(scope.enums), old(scope.classes), scope.enums, scope.classes, Status(r))
    ensures r.Ok? ==> r.value.elem == ParamEl(elem, a.name) && r.value.required == a.required
    ensures r.Ok? ==> Resolves(types, r.value.elem, a.typ, a.required, r.value.typeRef)
    ensures r.Ok? ==> Registered(types, ParamEl(elem, a.name), a.typ, scope.enums, scope.classes)
    ensures old(scope.enums) <= scope.enums && old(scope.classes) <= scope.classes
    ensures !a.typ.NullType? && Buildable(types, ParamEl(elem, a.name), a.typ) ==> r.Ok?
  {
    var paramEl := ParamEl(elem, a.name);
    if a.typ.NullType? {
      return Fail(NotAnObject(paramEl.Path()));
    }
    assert paramEl.TypeScope() == elem.TypeScope() == scope.elem;
    var t := NewTypeRef(scope, types, paramEl, a.typ, a.required);
    SynthesizedGrows(types, paramEl, a.typ, scope.elem, old(scope.enums), old(scope.classes),
                     scope.enums, scope.classes, Status(t));
    if t.Fail? {
      return Fail(t.error);
    }
    SynthesizedRegisters(types, paramEl, a.typ, scope.elem, old(scope.enums), old(scope.classes),
                         scope.enums, scope.classes, Status(t));
    r := Ok(ParamDef(paramEl, t.value, a.required));
  }

  lemma ParamsBuiltNext(types: TypeTable, method_: Element, args: seq<ParamDesc>, i: nat,
                        params: seq<ParamDef>, p: ParamDef)
    requires i < |args| && ParamsBuilt(types, method_, args[..i], params)
    requires p.elem == ParamEl(method_, args[i].name) && p.required == args[i].required
    requires Resolves(types, p.elem, args[i].typ, args[i].required, p.typeRef) && !args[i].typ.NullType?
    ensures ParamsBuilt(types, method_, args[..i + 1], params + [p])
  {
    assert args[..i + 1] == args[..i] + [args[i]];
  }

  /** The registries hold what every arg's type synthesizes. */
  predicate ArgsRegistered(types: TypeTable, method_: Element, args: seq<ParamDesc>,
                           enums: seq<EnumDef>, classes: seq<ClassDef>) {
    forall i :: 0 <= i < |args| ==> Registered(types, ParamEl(method_, args[i].name), args[i].typ, enums, classes)
  }

  lemma ArgsRegisteredGrows(types: TypeTable, method_: Element, args: seq<ParamDesc>,
                            enums0: seq<EnumDef>, classes0: seq<ClassDef>, enums: seq<EnumDef>, classes: seq<ClassDef>)
    requires ArgsRegistered(types, method_, args, enums0, classes0)
    requires enums0 <= enums && classes0 <= classes
    ensures ArgsRegistered(types, method_, args, enums, classes)
  {
    forall i | 0 <= i < |args|
      ensures Registered(types, ParamEl(method_, args[i].name), args[i].typ, enums, classes)
    {
      RegisteredGrows(types, ParamEl(method_, args[i].name), args[i].typ, enums0, classes0, enums, classes);
    }
  }

  lemma ArgsRegisteredNext(types: TypeTable, method_: Element, args: seq<ParamDesc>, i: nat,
                           enums: seq<EnumDef>, classes: seq<ClassDef>)
    requires i < |args| && ArgsRegistered(types, method_, args[..i], enums, classes)
    requires Registered(types, ParamEl(method_, args[i].name), args[i].typ, enums, classes)
    ensures ArgsRegistered(types, method_, args[..i + 1], enums, classes)
  {
    assert forall k :: 0 <= k < i ==> args[..i + 1][k] == args[..i][k];
  }

  method BuildParams(scope: Scope, types: TypeTable, elem: Element, args: seq<ParamDesc>)
    returns (r: Result<seq<ParamDef>>)
    requires scope.Valid() && elem.MethodEl? && elem.parent == scope.elem
    modifies scope
    ensures scope.Valid()
    ensures r.Ok? ==> ParamsBuilt(types, elem, args, r.value)
    ensures r.Ok? ==> ArgsRegistered(types, elem, args, scope.enums, scope.classes)
    ensures old(scope.enums) <= scope.enums && old(scope.classes) <= scope.classes
    ensures ArgsBuildable(types, elem, args) ==> r.Ok?
  {
    var params: seq<ParamDef> := [];
    var i := 0;
    while i < |args|
      invariant 0 <= i <= |args|
      invariant scope.Valid()
      invariant ParamsBuilt(types, elem, args[..i], params)
      invariant ArgsRegistered(types, elem, args[..i], scope.enums, scope.classes)
      invariant old(scope.enums) <= scope.enums && old(scope.classes) <= scope.classes
    {
      ghost var enums0, classes0 := scope.enums, scope.classes;
      var added := AddParam(scope, types, elem, args, i, params);
      if added.Fail? {
        return Fail(added.error);
      }
      ArgsRegisteredGrows(types, elem, args[..i], enums0, classes0, scope.enums, scope.classes);
      ArgsRegisteredNext(types, elem, args, i, scope.enums, scope.classes);
      params := added.value;
      i := i + 1;
    }
    assert args[..i] == args;
    r := Ok(params);
  }

  /** One pass of the params loop: the param for arg i is built and
      appended. */
  method AddParam(scope: Scope, types: TypeTable, elem: Element, args: seq<ParamDesc>, i: nat, params: seq<ParamDef>)
    returns (r: Result<seq<ParamDef>>)
    requires scope.Valid() && elem.MethodEl? && elem.parent == scope.elem
    requires i < |args| && ParamsBuilt(types, elem, args[..i], params)
    modifies scope
    ensures scope.Valid()
    ensures r.Ok? ==> ParamsBuilt(types, elem, args[..i + 1], r.value)
    ensures r.Ok? ==> Registered(types, ParamEl(elem, args[i].name), args[i].typ, scope.enums, scope.classes)
    ensures old(scope.enums) <= scope.enums && old(scope.classes) <= scope.classes
    ensures !args[i].typ.NullType? && Buildable(types, ParamEl(elem, args[i].name), args[i].typ) ==> r.Ok?
    ensures ArgsBuildable(types, elem, args) ==> r.Ok?
  {
    var p := BuildParam(scope, types, elem, args[i]);
    if p.Fail? {
      return Fail(p.error);
    }
    ParamsBuiltNext(types, elem, args, i, params, p.value);
    r := Ok(params + [p.value]);
  }

  /** The `Event` constructor. */
  method BuildEvent(scope: Scope, types: TypeTable, m: MemberDesc) returns (r: Result<EventDef>)
    requires scope.Valid() && scope.elem.InterfaceEl?
    modifies scope
    ensures scope.Valid()
    ensures Synthesized(types, EventEl(scope.elem, m.name), m.typ, scope.elem,
                        old(scope.enums), old(scope.classes), scope.enums, scope.classes, Status(r))
    ensures r.Ok? ==> r.value.elem == EventEl(scope.elem, m.name)
    ensures r.Ok? ==> Resolves(types, r.value.elem, m.typ, m.required, r.value.typeRef)
    ensures r.Ok? ==> Registered(types, EventEl(scope.elem, m.name), m.typ, scope.enums, scope.classes)
    ensures old(scope.enums) <= scope.enums && old(scope.classes) <= scope.classes
    ensures Buildable(types, EventEl(scope.elem, m.name), m.typ) ==> r.Ok?
  {
    var eventEl := EventEl(scope.elem, m.name);
    var t := NewTypeRef(scope, types, eventEl, m.typ, m.required);
    SynthesizedGrows(types, eventEl, m.typ, scope.elem, old(scope.enums), old(scope.classes),
                     scope.enums, scope.classes, Status(t));
    if t.Fail? {
      return Fail(t.error);
    }
    SynthesizedRegisters(types, eventEl, m.typ, scope.elem, old(scope.enums), old(scope.classes),
                         scope.enums, scope.classes, Status(t));
    r := Ok(EventDef(eventEl, t.value));
  }

  predicate IsMethodMember(m: MemberDesc) {
    m.kind.MethodKind? || m.kind.PropertyKind?
  }

  /** The members that become Java methods (methods and properties), in
      order. */
  function MethodMembers(ms: seq<MemberDesc>): seq<MemberDesc> {
    if ms == [] then []
    else MethodMembers(ms[..|ms| - 1]) + (if IsMethodMember(ms[|ms| - 1]) then [ms[|ms| - 1]] else [])
  }

  /** The members that become events, in order. */
  function EventMembers(ms: seq<MemberDesc>): seq<MemberDesc> {
    if ms == [] then []
    else EventMembers(ms[..|ms| - 1]) + (if ms[|ms| - 1].kind.EventKind? then [ms[|ms| - 1]] else [])
  }

  /** `d` is the method built for member `m` of interface `elem`: its
      element, its Java name, its return type and its params. */
  predicate MethodBuilt(types: TypeTable, elem: Element, m: MemberDesc, d: MethodDef) {
    && d.elem == MethodEl(elem, m.name)
    && d.name == JavaMethodName(m.name)
    && Resolves(types, d.elem, m.typ, m.required, d.returnType)
    && ParamsBuilt(types, d.elem, m.args, d.params)
  }

  /** `e` is the event built for member `m` of interface `elem`. */
  predicate EventBuilt(types: TypeTable, elem: Element, m: MemberDesc, e: EventDef) {
    && e.elem == EventEl(elem, m.name)
    && Resolves(types, e.elem, m.typ, m.required, e.typeRef)
  }

  /** `methods` and `events` hold, in order, the method built for each
      method or property member and the event built for each event member
      of `ms`. */
  predicate MembersCollected(types: TypeTable, elem: Element, ms: seq<MemberDesc>,
                             methods: seq<MethodDef>, events: seq<EventDef>) {
    && |methods| == |MethodMembers(ms)|
    && (forall k :: 0 <= k < |methods| ==> MethodBuilt(types, elem, MethodMembers(ms)[k], methods[k]))
    && |events| == |EventMembers(ms)|
    && (forall k :: 0 <= k < |events| ==> EventBuilt(types, elem, EventMembers(ms)[k], events[k]))
  }

  /** What a member needs so that building it succeeds: a method's or
      property's return type and args are buildable, an event's type is
      buildable; other kinds are skipped. */
  predicate MemberBuildable(types: TypeTable, elem: Element, m: MemberDesc) {
    if IsMethodMember(m) then
      Buildable(types, MethodEl(elem, m.name), m.typ) && ArgsBuildable(types, MethodEl(elem, m.name), m.args)
    else if m.kind.EventKind? then Buildable(types, EventEl(elem, m.name), m.typ)
    else true
  }

  /** The registries hold what a member's types synthesize: a method's or
      property's return type and args, an event's type. */
  predicate MemberRegistered(types: TypeTable, elem: Element, m: MemberDesc,
                             enums: seq<EnumDef>, classes: seq<ClassDef>) {
    if IsMethodMember(m) then
      && Registered(types, MethodEl(elem, m.name), m.typ, enums, classes)
      && ArgsRegistered(types, MethodEl(elem, m.name), m.args, enums, classes)
    else if m.kind.EventKind? then Registered(types, EventEl(elem, m.name), m.typ, enums, classes)
    else true
  }

  predicate MembersRegistered(types: TypeTable, elem: Element, ms: seq<MemberDesc>,
                              enums: seq<EnumDef>, classes: seq<ClassDef>) {
    forall k :: 0 <= k < |ms| ==> MemberRegistered(types, elem, ms[k], enums, classes)
  }

  lemma MembersRegisteredGrows(types: TypeTable, elem: Element, ms: seq<MemberDesc>,
                               enums0: seq<EnumDef>, classes0: seq<ClassDef>, enums: seq<EnumDef>, classes: seq<ClassDef>)
    requires MembersRegistered(types, elem, ms, enums0, classes0)
    requires enums0 <= enums && classes0 <= classes
    ensures MembersRegistered(types, elem, ms, enums, classes)
  {
    forall k | 0 <= k < |ms| ensures MemberRegistered(types, elem, ms[k], enums, classes) {
      var m := ms[k];
      if IsMethodMember(m) {
        RegisteredGrows(types, MethodEl(elem, m.name), m.typ, enums0, classes0, enums, classes);
        ArgsRegisteredGrows(types, MethodEl(elem, m.name), m.args, enums0, classes0, enums, classes);
      } else if m.kind.EventKind? {
        RegisteredGrows(types, EventEl(elem, m.name), m.typ, enums0, classes0, enums, classes);
      }
    }
  }

  lemma CollectMethod(types: TypeTable, elem: Element, ms: seq<MemberDesc>, m: MemberDesc, methods: seq<MethodDef>,
                      events: seq<EventDef>, built: MethodDef)
    requires MembersCollected(types, elem, ms, methods, events)
    requires IsMethodMember(m) && MethodBuilt(types, elem, m, built)
    ensures MembersCollected(types, elem, ms + [m], methods + [built], events)
  {
    assert (ms + [m])[..|ms|] == ms;
  }

  lemma CollectEvent(types: TypeTable, elem: Element, ms: seq<MemberDesc>, m: MemberDesc, methods: seq<MethodDef>,
                     events: seq<EventDef>, built: EventDef)
    requires MembersCollected(types, elem, ms, methods, events)
    requires m.kind.EventKind? && EventBuilt(types, elem, m, built)
    ensures MembersCollected(types, elem, ms + [m], methods, events + [built])
  {
    assert (ms + [m])[..|ms|] == ms;
  }

  lemma CollectOther(types: TypeTable, elem: Element, ms: seq<MemberDesc>, m: MemberDesc,
                     methods: seq<MethodDef>, events: seq<EventDef>)
    requires MembersCollected(types, elem, ms, methods, events)
    requires !IsMethodMember(m) && !m.kind.EventKind?
    ensures MembersCollected(types, elem, ms + [m], methods, events)
  {
    assert (ms + [m])[..|ms|] == ms;
  }

  /** The `Interface` constructor: every member in order; methods and
      properties become methods, events become events, other kinds are
      skipped. */
  method BuildInterface(types: TypeTable, desc: InterfaceDesc) returns (r: Result<InterfaceDef>)
    ensures r.Ok? ==> r.value.elem == InterfaceEl(desc.name) && r.value.base == desc.base
    ensures r.Ok? ==> MembersCollected(types, r.value.elem, desc.members, r.value.methods, r.value.events)
    ensures r.Ok? ==> MembersRegistered(types, r.value.elem, desc.members, r.value.enums, r.value.classes)
    ensures (forall k :: 0 <= k < |desc.members| ==> MemberBuildable(types, InterfaceEl(desc.name), desc.members[k])) ==> r.Ok?
    ensures r.Ok? ==> Distinct(NamesOf(r.value.enums, EnumName)) && Distinct(NamesOf(r.value.classes, ClassName))
    ensures r.Ok? ==> forall k :: 0 <= k < |r.value.classes| ==> ClassWellFormed(r.value.classes[k])
  {
    var elem := InterfaceEl(desc.name);
    var scope := new Scope(elem);
    var methods: seq<MethodDef> := [];
    var events: seq<EventDef> := [];
    var i := 0;
    while i < |desc.members|
      invariant 0 <= i <= |desc.members|
      invariant scope.Valid() && scope.elem == elem
      invariant MembersCollected(types, elem, desc.members[..i], methods, events)
      invariant MembersRegistered(types, elem, desc.members[..i], scope.enums, scope.classes)
    {
      assert desc.members[..i + 1] == desc.members[..i] + [desc.members[i]];
      var collected := AddMember(scope, types, desc.members[..i], desc.members[i], methods, events);
      if collected.Fail? {
        return Fail(collected.error);
      }
      methods, events := collected.value.0, collected.value.1;
      i := i + 1;
    }
    assert desc.members[..i] == desc.members;
    r := Ok(InterfaceDef(elem, desc.base, methods, events, scope.enums, scope.classes));
  }

  lemma RegisterOne(types: TypeTable, elem: Element, ms: seq<MemberDesc>, m: MemberDesc,
                    enums: seq<EnumDef>, classes: seq<ClassDef>)
    requires MembersRegistered(types, elem, ms, enums, classes)
    requires MemberRegistered(types, elem, m, enums, classes)
    ensures MembersRegistered(types, elem, ms + [m], enums, classes)
  {
    assert forall k :: 0 <= k < |ms| ==> (ms + [m])[k] == ms[k];
  }

  /** One pass of the constructor's loop: a method or property member is
      built into a method, an event into an event, anything else skipped. */
  method AddMember(scope: Scope, types: TypeTable, ms: seq<MemberDesc>, m: MemberDesc,
                   methods: seq<MethodDef>, events: seq<EventDef>)
    returns (r: Result<(seq<MethodDef>, seq<EventDef>)>)
    requires scope.Valid() && scope.elem.InterfaceEl?
    requires MembersCollected(types, scope.elem, ms, methods, events)
    requires MembersRegistered(types, scope.elem, ms, scope.enums, scope.classes)
    modifies scope
    ensures scope.Valid()
    ensures r.Ok? ==> MembersCollected(types, scope.elem, ms + [m], r.value.0, r.value.1)
    ensures r.Ok? ==> MembersRegistered(types, scope.elem, ms + [m], scope.enums, scope.classes)
    ensures MemberBuildable(types, scope.elem, m) ==> r.Ok?
  {
    if IsMethodMember(m) {
      var built := BuildMethod(scope, types, m);
      if built.Fail? {
        return Fail(built.error);
      }
      MembersRegisteredGrows(types, scope.elem, ms, old(scope.enums), old(scope.classes), scope.enums, scope.classes);
      RegisterOne(types, scope.elem, ms, m, scope.enums, scope.classes);
      CollectMethod(types, scope.elem, ms, m, methods, events, built.value);
      r := Ok((methods + [built.value], events));
    } else if m.kind.EventKind? {
      var built := BuildEvent(scope, types, m);
      if built.Fail? {
        return Fail(built.error);
      }
      MembersRegisteredGrows(types, scope.elem, ms, old(scope.enums), old(scope.classes), scope.enums, scope.classes);
      RegisterOne(types, scope.elem, ms, m, scope.enums, scope.classes);
      CollectEvent(types, scope.elem, ms, m, methods, events, built.value);
      r := Ok((methods, events + [built.value]));
    } else {
      CollectOther(types, scope.elem, ms, m, methods, events);
      RegisterOne(types, scope.elem, ms, m, scope.enums, scope.classes);
      r := Ok((methods, events));
    }
  }
}

=== FILE: method_emitter.dfy ===
/** The Java text of one method: a hand-written signature when the method's
    path has one, otherwise a `default` overload for each trailing optional
    param, with fewer and fewer params, and then the full signature. */
module MethodEmitter {
  import opened Results
  import opened Text
  import opened Schema
  import opened TypeResolution
  import opened Definitions

  // ---------------------------------------------------------------------
  // Params

  /** Params renamed in the generated Java, by path. */
  const CustomParamNames: map<string, string> := map[
    "Keyboard.type.options" := "delay",
    "Keyboard.press.options" := "delay"
  ]

  /** `Param.name()`: the override for the param's path, else its name in
      the description. */
  function ParamName(p: ParamDef): string {
    var path := p.elem.Path();
    if path in CustomParamNames then CustomParamNames[path] else p.elem.JsonName()
  }

  /** The options param of `Keyboard.type` and `Keyboard.press` is named
      `delay`; a param whose path has no override keeps its own name. */
  lemma ParamNameOverride(p: ParamDef, method_: string)
    requires method_ == "type" || method_ == "press"
    ensures ParamName(ParamDef(ParamEl(MethodEl(InterfaceEl("Keyboard"), method_), "options"), p.typeRef, p.required)) == "delay"
    ensures p.elem.Path() !in CustomParamNames ==> ParamName(p) == p.elem.JsonName()
  {
    var e := ParamEl(MethodEl(InterfaceEl("Keyboard"), method_), "options");
    assert MethodEl(InterfaceEl("Keyboard"), method_).Path() == "Keyboard" + "." + method_;
    assert e.Path() == "Keyboard" + "." + method_ + "." + "options";
    if method_ == "type" {
      assert "Keyboard" + "." + "type" + "." + "options" == "Keyboard.type.options";
    } else {
      assert "Keyboard" + "." + "press" + "." + "options" == "Keyboard.press.options";
    }
  }

  /** `Param.toJava`: its type and its name. */
  function ParamJava(p: ParamDef): (r: Result<string>)
    ensures r.Ok? ==> |r.value| > 0
  {
    var t :- ToJava(p.typeRef);
    Ok(t + " " + ParamName(p))
  }

  /** The rendered params, in order; the first failing param's error wins. */
  function RenderAll(ps: seq<ParamDef>): Result<seq<string>> {
    MapAll(ps, ParamJava)
  }

  // ---------------------------------------------------------------------
  // Method.toJava

  /** `Method.toJava`: the return type, the Java name and the params joined
      by commas. The params render first, so a failing param is reported
      before a failing return type. */
  function Signature(m: MethodDef): Result<string> {
    var ps :- RenderAll(m.params);
    var rt :- ToJava(m.returnType);
    Ok(rt + " " + m.name + "(" + Join(ps, ", ") + ");")
  }

  /** One param joined onto a list in the way the StringBuilder loops do:
      a separator first unless the list is still empty. */
  lemma AppendJoined(parts: seq<string>, text: string, x: string, sep: string)
    requires text == Join(parts, sep) && (|text| > 0 <==> |parts| > 0)
    ensures (if |text| > 0 then text + sep + x else text + x) == Join(parts + [x], sep)
  {
    if |parts| > 0 {
      JoinSnoc(parts, x, sep);
    } else {
      assert parts + [x] == [x];
    }
  }

  method MethodToJava(m: MethodDef) returns (r: Result<string>)
    ensures r == Signature(m)
  {
    var paramList := "";
    var i := 0;
    while i < |m.params|
      invariant 0 <= i <= |m.params|
      invariant RenderAll(m.params[..i]).Ok?
      invariant paramList == Join(RenderAll(m.params[..i]).value, ", ")
      invariant |paramList| > 0 <==> i > 0
    {
      var p := ParamJava(m.params[i]);
      MapAllSnoc(m.params, i, ParamJava);
      if p.Fail? {
        return Fail(p.error);
      }
      AppendJoined(RenderAll(m.params[..i]).value, paramList, p.value, ", ");
      if |paramList| > 0 {
        paramList := paramList + ", ";
      }
      paramList := paramList + p.value;
      i := i + 1;
    }
    assert m.params[..i] == m.params;
    var rt := ToJava(m.returnType);
    if rt.Fail? {
      return Fail(rt.error);
    }
    r := Ok(rt.value + " " + m.name + "(" + paramList + ");");
  }

  // ---------------------------------------------------------------------
  // writeDefaultOverloadedMethod

  /** The names forwarded for params, as they appear in the description. */
  function ArgNames(ps: seq<ParamDef>): (r: seq<string>)
    ensures |r| == |ps| && forall i :: 0 <= i < |ps| ==> r[i] == ps[i].elem.JsonName()
  {
    seq(|ps|, i requires 0 <= i < |ps| => ps[i].elem.JsonName())
  }

  /** The value forwarded for the first omitted param. */
  function DefaultArg(rendered: string): string {
    if rendered == "int" then "0" else "null"
  }

  /** `writeDefaultOverloadedMethod(k)`: a `default` method taking the first
      k params that calls the method with those k args and a default for
      param k; the call is returned unless the return type is `void`. The
      argument list gets its ", " before the default only when it is not
      empty. */
  function OverloadLines(m: MethodDef, offset: string, k: nat): (r: Result<seq<string>>)
    requires k < |m.params|
    ensures r.Ok? ==> |r.value| == 3
  {
    var ps :- RenderAll(m.params[..k]);
    var last :- ToJava(m.params[k].typeRef);
    var rt :- ToJava(m.returnType);
    var names := Join(ArgNames(m.params[..k]), ", ");
    var args := (if |names| > 0 then names + ", " else names) + DefaultArg(last);
    Ok([offset + "default " + rt + " " + m.name + "(" + Join(ps, ", ") + ") {",
        offset + "  " + (if rt == "void" then "" else "return ") + m.name + "(" + args + ");",
        offset + "}"])
  }

  method WriteDefaultOverloadedMethod(m: MethodDef, k: nat, offset: string) returns (r: Result<seq<string>>)
    requires k < |m.params|
    ensures r == OverloadLines(m, offset, k)
  {
    var lists := JoinFirstParams(m, k);
    if lists.Fail? {
      return Fail(lists.error);
    }
    var (paramList, argList) := lists.value;
    if |argList| > 0 {
      argList := argList + ", ";
    }
    var last := ToJava(m.params[k].typeRef);
    if last.Fail? {
      return Fail(last.error);
    }
    argList := argList + DefaultArg(last.value);
    var rt := ToJava(m.returnType);
    if rt.Fail? {
      return Fail(rt.error);
    }
    var returnPrefix := if rt.value == "void" then "" else "return ";
    r := Ok([offset + "default " + rt.value + " " + m.name + "(" + paramList + ") {",
             offset + "  " + returnPrefix + m.name + "(" + argList + ");",
             offset + "}"]);
  }

  /** The loop of `writeDefaultOverloadedMethod`: the first k params
      rendered into the parameter list and their names into the argument
      list, both comma-separated; a separator goes into both lists whenever
      the parameter list is not empty. */
  method JoinFirstParams(m: MethodDef, k: nat) returns (r: Result<(string, string)>)
    requires k <= |m.params|
    ensures RenderAll(m.params[..k]).Fail? ==> r == Fail(RenderAll(m.params[..k]).error)
    ensures RenderAll(m.params[..k]).Ok? ==>
      r == Ok((Join(RenderAll(m.params[..k]).value, ", "), Join(ArgNames(m.params[..k]), ", ")))
  {
    var paramList, argList := "", "";
    var i := 0;
    while i < k
      invariant 0 <= i <= k
      invariant RenderAll(m.params[..i]).Ok?
      invariant paramList == Join(RenderAll(m.params[..i]).value, ", ")
      invariant argList == Join(ArgNames(m.params[..i]), ", ")
      invariant |paramList| > 0 <==> i > 0
    {
      var p := ParamJava(m.params[i]);
      assert m.params[..k][..i] == m.params[..i] && m.params[..k][..i + 1] == m.params[..i + 1];
      MapAllSnoc(m.params[..k], i, ParamJava);
      if p.Fail? {
        return Fail(p.error);
      }
      AppendJoined(RenderAll(m.params[..i]).value, paramList, p.value, ", ");
      assert ArgNames(m.params[..i + 1]) == ArgNames(m.params[..i]) + [m.params[i].elem.JsonName()];
      if |paramList| > 0 {
        JoinSnoc(ArgNames(m.params[..i]), m.params[i].elem.JsonName(), ", ");
        paramList := paramList + ", ";
        argList := argList + ", ";
      } else {
        assert ArgNames(m.params[..i + 1]) == [m.params[i].elem.JsonName()];
      }
      paramList := paramList + p.value;
      argList := argList + m.params[i].elem.JsonName();
      i := i + 1;
    }
    r := Ok((paramList, argList));
  }

  /** The overload with k params declares exactly the first k params and
      forwards their names followed by `0` when param k renders as `int`
      and `null` otherwise; it returns the call's result unless the return
      type is `void`. */
  lemma OverloadForwards(m: MethodDef, offset: string, k: nat, ps: seq<string>, last: string, rt: string)
    requires k < |m.params|
    requires RenderAll(m.params[..k]) == Ok(ps)
    requires ToJava(m.params[k].typeRef) == Ok(last) && ToJava(m.returnType) == Ok(rt)
    requires forall i :: 0 <= i < k ==> m.params[i].elem.JsonName() != ""
    ensures OverloadLines(m, offset, k).Ok?
    ensures var lines, forwarded := OverloadLines(m, offset, k).value, ArgNames(m.params[..k]) + [if last == "int" then "0" else "null"];
      && |lines| == 3
      && lines[0] == offset + "default " + rt + " " + m.name + "(" + Join(ps, ", ") + ") {"
      && lines[1] == offset + "  " + (if rt == "void" then "" else "return ") + m.name + "(" + Join(forwarded, ", ") + ");"
      && lines[2] == offset + "}"
  {
    ForwardedArgs(ArgNames(m.params[..k]), DefaultArg(last));
  }

  /** The argument list of an overload: the names, then ", " when they
      are not empty, then the default, is the names and the default joined
      when no name is empty. */
  lemma ForwardedArgs(names: seq<string>, last: string)
    requires forall i :: 0 <= i < |names| ==> names[i] != ""
    ensures var joined := Join(names, ", ");
      (if |joined| > 0 then joined + ", " else joined) + last == Join(names + [last], ", ")
  {
    if |names| > 0 {
      JoinStartsWith(names, ", ");
      JoinSnoc(names, last, ", ");
    } else {
      assert names + [last] == [last];
    }
  }

  // ---------------------------------------------------------------------
  // Method.writeTo

  /** Hand-written signatures, by method path. */
  const CustomSignatures: map<string, seq<string>> := map[
    "Page.setViewportSize" := ["void setViewportSize(int width, int height);"],
    "BrowserContext.setHTTPCredentials" := ["void setHTTPCredentials(String username, String password);"],
    "BrowserContext.route" := RouteSignatures,
    "Page.frame" := [
      "Frame frameByName(String name);",
      "Frame frameByUrl(String glob);",
      "Frame frameByUrl(Pattern pattern);",
      "Frame frameByUrl(Predicate<String> predicate);"],
    "Page.route" := RouteSignatures,
    "BrowserContext.unroute" := UnrouteSignatures,
    "Page.unroute" := UnrouteSignatures,
    "FileChooser.setFiles" := [
      "default void setFiles(File file) { setFiles(file, null); }",
      "default void setFiles(File file, SetFilesOptions options) { setFiles(new File[]{ file }, options); }",
      "default void setFiles(File[] files) { setFiles(files, null); }",
      "void setFiles(File[] files, SetFilesOptions options);",
      "default void setFiles(FileChooser.FilePayload file) { setFiles(file, null); }",
      "default void setFiles(FileChooser.FilePayload file, SetFilesOptions options)  { setFiles(new FileChooser.FilePayload[]{ file }, options); }",
      "default void setFiles(FileChooser.FilePayload[] files) { setFiles(files, null); }",
      "void setFiles(FileChooser.FilePayload[] files, SetFilesOptions options);"],
    "ElementHandle.setInputFiles" := [
      "default void setInputFiles(File file) { setInputFiles(file, null); }",
      "default void setInputFiles(File file, SetInputFilesOptions options) { setInputFiles(new File[]{ file }, options); }",
      "default void setInputFiles(File[] files) { setInputFiles(files, null); }",
      "void setInputFiles(File[] files, SetInputFilesOptions options);",
      "default void setInputFiles(FileChooser.FilePayload file) { setInputFiles(file, null); }",
      "default void setInputFiles(FileChooser.FilePayload file, SetInputFilesOptions options)  { setInputFiles(new FileChooser.FilePayload[]{ file }, options); }",
      "default void setInputFiles(FileChooser.FilePayload[] files) { setInputFiles(files, null); }",
      "void setInputFiles(FileChooser.FilePayload[] files, SetInputFilesOptions options);"],
    "Page.setInputFiles" := SetInputFilesWithSelector,
    "Frame.setInputFiles" := SetInputFilesWithSelector,
    "Page.waitForEvent" := WaitForEventSignatures,
    "BrowserContext.waitForEvent" := WaitForEventSignatures
  ]

  /** The method paths that have hand-written signatures. */
  const CustomSignaturePaths: set<string> := {
    "Page.setViewportSize", "BrowserContext.setHTTPCredentials", "BrowserContext.route", "Page.frame",
    "Page.route", "BrowserContext.unroute", "Page.unroute", "FileChooser.setFiles",
    "ElementHandle.setInputFiles", "Page.setInputFiles", "Frame.setInputFiles",
    "Page.waitForEvent", "BrowserContext.waitForEvent"}

  /** Exactly those paths carry a hand-written signature. */
  lemma CustomSignaturePathsAreKeys()
    ensures CustomSignatures.Keys == CustomSignaturePaths
  {
  }

  const RouteSignatures: seq<string> := [
    "void route(String url, BiConsumer<Route, Request> handler);",
    "void route(Pattern url, BiConsumer<Route, Request> handler);",
    "void route(Predicate<String> url, BiConsumer<Route, Request> handler);"]

  const UnrouteSignatures: seq<string> := [
    "default void unroute(String url) { unroute(url, null); }",
    "default void unroute(Pattern url) { unroute(url, null); }",
    "default void unroute(Predicate<String> url) { unroute(url, null); }",
    "void unroute(String url, BiConsumer<Route, Request> handler);",
    "void unroute(Pattern url, BiConsumer<Route, Request> handler);",
    "void unroute(Predicate<String> url, BiConsumer<Route, Request> handler);"]

  const SetInputFilesWithSelector: seq<string> := [
    "default void setInputFiles(String selector, File file) { setInputFiles(selector, file, null); }",
    "default void setInputFiles(String selector, File file, SetInputFilesOptions options) { setInputFiles(selector, new File[]{ file }, options); }",
    "default void setInputFiles(String selector, File[] files) { setInputFiles(selector, files, null); }",
    "void setInputFiles(String selector, File[] files, SetInputFilesOptions options);",
    "default void setInputFiles(String selector, FileChooser.FilePayload file) { setInputFiles(selector, file, null); }",
    "default void setInputFiles(String selector, FileChooser.FilePayload file, SetInputFilesOptions options)  { setInputFiles(selector, new FileChooser.FilePayload[]{ file }, options); }",
    "default void setInputFiles(String selector, FileChooser.FilePayload[] files) { setInputFiles(selector, files, null); }",
    "void setInputFiles(String selector, FileChooser.FilePayload[] files, SetInputFilesOptions options);"]

  const WaitForEventSignatures: seq<string> := [
    "default Deferred<Event<EventType>> waitForEvent(EventType event) {",
    "  return waitForEvent(event, (WaitForEventOptions) null);",
    "}",
    "default Deferred<Event<EventType>> waitForEvent(EventType event, Predicate<Event<EventType>> predicate) {",
    "  WaitForEventOptions options = new WaitForEventOptions();",
    "  options.predicate = predicate;",
    "  return waitForEvent(event, options);",
    "}",
    "Deferred<Event<EventType>> waitForEvent(EventType event, WaitForEventOptions options);"]

  /** Each line indented by `offset`. */
  function Indented(offset: string, lines: seq<string>): (r: seq<string>)
    ensures |r| == |lines| && forall i :: 0 <= i < |lines| ==> r[i] == offset + lines[i]
  {
    seq(|lines|, i requires 0 <= i < |lines| => offset + lines[i])
  }

  /** The length of the maximal run of optional params at the end. */
  function TrailingOptional(ps: seq<ParamDef>): (k: nat)
    ensures k <= |ps|
    ensures forall i :: |ps| - k <= i < |ps| ==> !ps[i].required
    ensures k < |ps| ==> ps[|ps| - k - 1].required
  {
    if ps == [] || ps[|ps| - 1].required then 0 else 1 + TrailingOptional(ps[..|ps| - 1])
  }

  /** The backward loop stops at a required param. */
  function StopAt(m: MethodDef): int -> bool {
    j => 0 <= j < |m.params| && m.params[j].required
  }

  function OverloadAt(m: MethodDef, offset: string): int -> Result<seq<string>> {
    j => if 0 <= j < |m.params| then OverloadLines(m, offset, j) else Ok([])
  }

  /** The overloads written by the backward loop from param i down, which
      stops at the first required param. */
  function Cascade(m: MethodDef, offset: string, i: int): Result<seq<string>> {
    Backward(StopAt(m), OverloadAt(m, offset), i)
  }

  function SignatureLine(m: MethodDef, offset: string): Result<seq<string>> {
    var sig :- Signature(m);
    Ok([offset + sig])
  }

  /** What `Method.writeTo` writes for a method without a hand-written
      signature: the overloads, then the full signature. */
  function GeneratedLines(m: MethodDef, offset: string): Result<seq<string>> {
    Then(Cascade(m, offset, |m.params| - 1), SignatureLine(m, offset))
  }

  /** `Method.writeTo`, given the table of hand-written signatures
      (`CustomSignatures` in the generator). */
  function MethodLines(m: MethodDef, offset: string, custom: map<string, seq<string>>): Result<seq<string>> {
    var path := m.elem.Path();
    if path in custom then Ok(Indented(offset, custom[path]))
    else GeneratedLines(m, offset)
  }

  method WriteMethod(m: MethodDef, offset: string, custom: map<string, seq<string>>) returns (r: Result<seq<string>>)
    ensures r == MethodLines(m, offset, custom)
  {
    var path := m.elem.Path();
    var output: seq<string> := [];
    if path in custom {
      var lines := custom[path];
      var j := 0;
      while j < |lines|
        invariant 0 <= j <= |lines|
        invariant output == Indented(offset, lines[..j])
      {
        output := output + [offset + lines[j]];
        j := j + 1;
      }
      assert lines[..j] == lines;
      return Ok(output);
    }
    r := WriteGenerated(m, offset);
  }

  /** The overloads and the signature: the backward loop over the params,
      stopping at the first required one. */
  method WriteGenerated(m: MethodDef, offset: string) returns (r: Result<seq<string>>)
    ensures r == GeneratedLines(m, offset)
  {
    var output: seq<string> := [];
    var i := |m.params| - 1;
    assert Cascade(m, offset, i).Ok? ==> [] + Cascade(m, offset, i).value == Cascade(m, offset, i).value;
    while i >= 0
      invariant -1 <= i < |m.params|
      invariant Cascade(m, offset, |m.params| - 1) == Then(Ok(output), Cascade(m, offset, i))
    {
      if m.params[i].required {
        break;
      }
      var overload := WriteDefaultOverloadedMethod(m, i, offset);
      if overload.Fail? {
        return Fail(overload.error);
      }
      ThenAssoc(output, overload.value, Cascade(m, offset, i - 1));
      output := output + overload.value;
      i := i - 1;
    }
    assert Cascade(m, offset, i) == Ok([]);
    assert output + [] == output;
    var sig := MethodToJava(m);
    if sig.Fail? {
      return Fail(sig.error);
    }
    r := Ok(output + [offset + sig.value]);
  }

  // ---------------------------------------------------------------------
  // Properties of Method.writeTo

  /** The backward loop from param i visits exactly the trailing run of
      optional params ending at i. */
  lemma {:induction false} RunIsTrailingOptional(m: MethodDef, i: int)
    requires -1 <= i < |m.params|
    ensures RunLength(StopAt(m), i) == TrailingOptional(m.params[..i + 1])
    decreases i + 1
  {
    if i >= 0 {
      assert m.params[..i + 1][..i] == m.params[..i];
      RunIsTrailingOptional(m, i - 1);
    }
  }

  /** The backward loop from param i writes three lines per optional param
      of the trailing run ending at i, the overload with p params being the
      (i - p)-th block. */
  lemma CascadeShape(m: MethodDef, offset: string, i: int)
    requires -1 <= i < |m.params| && Cascade(m, offset, i).Ok?
    ensures var lines, k := Cascade(m, offset, i).value, TrailingOptional(m.params[..i + 1]);
      && |lines| == 3 * k
      && forall p :: i - k < p <= i ==>
           OverloadLines(m, offset, p).Ok? && lines[3 * (i - p)..3 * (i - p) + 3] == OverloadLines(m, offset, p).value
  {
    forall j | 0 <= j <= i && OverloadAt(m, offset)(j).Ok?
      ensures |OverloadAt(m, offset)(j).value| == 3
    {
      assert OverloadAt(m, offset)(j) == OverloadLines(m, offset, j);
    }
    BackwardShape(StopAt(m), OverloadAt(m, offset), i);
    RunIsTrailingOptional(m, i);
    forall p | i - TrailingOptional(m.params[..i + 1]) < p <= i
      ensures OverloadAt(m, offset)(p) == OverloadLines(m, offset, p)
    {
    }
  }

  /** Without a hand-written signature, k being the number of trailing
      optional params, `writeTo` emits k overloads in decreasing param count
      (the overload with p params in block n - 1 - p) and then the full
      signature: 3k + 1 lines. */
  lemma GeneratedLinesShape(m: MethodDef, offset: string)
    requires GeneratedLines(m, offset).Ok?
    ensures var lines, n, k := GeneratedLines(m, offset).value, |m.params|, TrailingOptional(m.params);
      && |lines| == 3 * k + 1
      && (forall p :: n - k <= p < n ==>
            OverloadLines(m, offset, p).Ok? &&
            lines[3 * (n - 1 - p)..3 * (n - 1 - p) + 3] == OverloadLines(m, offset, p).value)
      && lines[3 * k] == offset + Signature(m).value
  {
    var n := |m.params|;
    assert m.params[..n] == m.params;
    CascadeShape(m, offset, n - 1);
    var c := Cascade(m, offset, n - 1).value;
    var last := offset + Signature(m).value;
    var lines := GeneratedLines(m, offset).value;
    assert lines == c + [last];
    forall p | n - TrailingOptional(m.params) <= p < n
      ensures OverloadLines(m, offset, p).Ok?
      ensures lines[3 * (n - 1 - p)..3 * (n - 1 - p) + 3] == OverloadLines(m, offset, p).value
    {
      SliceOfPrefix(c, [last], 3 * (n - 1 - p), 3 * (n - 1 - p) + 3);
    }
  }

  /** A hand-written signature wins: the output is exactly its lines, each
      indented by `offset`, whatever the method's params and return type,
      and it cannot fail. */
  lemma OverrideWins(m1: MethodDef, m2: MethodDef, offset: string, custom: map<string, seq<string>>)
    requires m1.elem.Path() in custom && m2.elem.Path() == m1.elem.Path()
    ensures MethodLines(m1, offset, custom).Ok?
    ensures MethodLines(m1, offset, custom) == MethodLines(m2, offset, custom)
    ensures var lines := custom[m1.elem.Path()];
      |MethodLines(m1, offset, custom).value| == |lines| &&
      forall i :: 0 <= i < |lines| ==> MethodLines(m1, offset, custom).value[i] == offset + lines[i]
  {
  }

  /** The error of an overload with k params: the first failing param
      among the first k + 1, else the return type's. */
  lemma OverloadError(m: MethodDef, offset: string, k: nat)
    requires k < |m.params|
    ensures OverloadLines(m, offset, k).Fail? <==>
      RenderAll(m.params[..k + 1]).Fail? || ToJava(m.returnType).Fail?
    ensures OverloadLines(m, offset, k).Fail? ==>
      (OverloadLines(m, offset, k).error ==
         if RenderAll(m.params[..k + 1]).Fail? then RenderAll(m.params[..k + 1]).error else ToJava(m.returnType).error)
  {
    assert m.params[..k + 1] == m.params[..k] + [m.params[k]];
    MapAllConcat(m.params[..k], [m.params[k]], ParamJava);
    assert [m.params[k]][1..] == [];
  }

  /** Without a hand-written signature, `writeTo` fails exactly when a
      param or the return type cannot be rendered, and reports the first
      failing param, else the return type: the overloads render the same
      types in the same order as the full signature. */
  lemma GeneratedLinesError(m: MethodDef, offset: string)
    ensures GeneratedLines(m, offset).Fail? <==> RenderAll(m.params).Fail? || ToJava(m.returnType).Fail?
    ensures GeneratedLines(m, offset).Fail? ==>
      (GeneratedLines(m, offset).error ==
         if RenderAll(m.params).Fail? then RenderAll(m.params).error else ToJava(m.returnType).error)
  {
    var n := |m.params|;
    if n > 0 && !m.params[n - 1].required {
      OverloadError(m, offset, n - 1);
      assert m.params[..n] == m.params;
      if OverloadLines(m, offset, n - 1).Ok? {
        CascadeOk(m, offset, n - 2);
      }
    }
  }

  /** When the overload with the most params renders, so does every
      overload with fewer. */
  lemma {:induction false} CascadeOk(m: MethodDef, offset: string, i: int)
    requires -1 <= i < |m.params|
    requires RenderAll(m.params).Ok? && ToJava(m.returnType).Ok?
    ensures Cascade(m, offset, i).Ok?
    decreases i + 1
  {
    if i >= 0 && !m.params[i].required {
      assert m.params == m.params[..i + 1] + m.params[i + 1..];
      MapAllConcat(m.params[..i + 1], m.params[i + 1..], ParamJava);
      OverloadError(m, offset, i);
      CascadeOk(m, offset, i - 1);
    }
  }
}

=== FILE: method_examples.dfy ===
/** Worked examples of `Method.writeTo`: a method with two optional params,
    and the `startTracing` method of `ChromiumBrowser` in particular. */
module MethodExamples {
  import opened Results
  import opened Text
  import opened Schema
  import opened TypeResolution
  import opened Definitions
  import opened MethodEmitter

  /** A single param renders as its own rendering. */
  lemma RenderOne(p: ParamDef, s: string)
    requires ParamJava(p) == Ok(s)
    ensures RenderAll([p]) == Ok([s])
  {
    assert [p][1..] == [];
    assert MapAll([p][1..], ParamJava) == Ok([]);
    assert [s] + [] == [s];
  }

  /** Two params render as their renderings, in order. */
  lemma RenderTwo(p: ParamDef, q: ParamDef, s: string, t: string)
    requires ParamJava(p) == Ok(s) && ParamJava(q) == Ok(t)
    ensures RenderAll([p, q]) == Ok([s, t])
  {
    RenderOne(q, t);
    assert [p, q][1..] == [q];
    assert [s] + [t] == [s, t];
  }

  /** The overload keeping the first of two params of a `void` method
      forwards `null` for the second. */
  lemma OverloadOfOne(m: MethodDef, offset: string, first: string)
    requires |m.params| == 2 && m.params[0].elem.JsonName() != ""
    requires ParamJava(m.params[0]) == Ok(first)
    requires ToJava(m.params[1].typeRef).Ok? && ToJava(m.params[1].typeRef) != Ok("int")
    requires ToJava(m.returnType) == Ok("void")
    ensures OverloadLines(m, offset, 1) == Ok([
      offset + "default void " + m.name + "(" + first + ") {",
      offset + "  " + m.name + "(" + m.params[0].elem.JsonName() + ", null);",
      offset + "}"])
  {
    var p0 := m.params[0];
    assert m.params[..1] == [p0];
    RenderOne(p0, first);
    var name0 := p0.elem.JsonName();
    assert ArgNames([p0]) == [name0];
    assert Join([name0], ", ") == name0;
    assert Join([first], ", ") == first;
    var last := ToJava(m.params[1].typeRef).value;
    assert DefaultArg(last) == "null";
    var args := name0 + ", " + "null";
    assert args == name0 + ", null";
    assert OverloadLines(m, offset, 1) == Ok([
      offset + "default " + "void" + " " + m.name + "(" + first + ") {",
      offset + "  " + "" + m.name + "(" + args + ");",
      offset + "}"]);
    assert "default " + "void" + " " == "default void ";
    assert offset + "default " + "void" + " " == offset + ("default " + "void" + " ");
    assert offset + "default " + "void" + " " + m.name == offset + "default void " + m.name;
    assert offset + "  " + "" == offset + "  ";
    assert offset + "  " + "" + m.name + "(" + args + ");" == offset + "  " + m.name + "(" + name0 + ", null);";
    assert offset + "default " + "void" + " " + m.name + "(" + first + ") {" == offset + "default void " + m.name + "(" + first + ") {";
  }

  /** The overload keeping none of two params of a `void` method forwards
      `null` alone. */
  lemma OverloadOfNone(m: MethodDef, offset: string)
    requires |m.params| == 2
    requires ToJava(m.params[0].typeRef).Ok? && ToJava(m.params[0].typeRef) != Ok("int")
    requires ToJava(m.returnType) == Ok("void")
    ensures OverloadLines(m, offset, 0) == Ok([
      offset + "default void " + m.name + "() {",
      offset + "  " + m.name + "(null);",
      offset + "}"])
  {
    assert m.params[..0] == [];
    assert RenderAll([]) == Ok([]);
    assert ArgNames([]) == [];
    assert Join([], ", ") == "";
    var last := ToJava(m.params[0].typeRef).value;
    assert DefaultArg(last) == "null";
    assert OverloadLines(m, offset, 0) == Ok([
      offset + "default " + "void" + " " + m.name + "(" + "" + ") {",
      offset + "  " + "" + m.name + "(" + ("" + "null") + ");",
      offset + "}"]);
    assert "default " + "void" + " " == "default void ";
    assert offset + "default " + "void" + " " == offset + ("default " + "void" + " ");
    assert offset + "default " + "void" + " " + m.name == offset + "default void " + m.name;
    assert offset + "  " + "" == offset + "  ";
    assert "" + "null" == "null";
    assert m.name + "(" + "" + ") {" == m.name + "() {";
    assert offset + "  " + "" + m.name + "(" + ("" + "null") + ");" == offset + "  " + m.name + "(null);";
    assert offset + "default " + "void" + " " + m.name + "(" + "" + ") {" == offset + "default void " + m.name + "() {";
  }

  /** The abstract signature of a `void` method with two params. */
  lemma SignatureOfTwo(m: MethodDef, first: string, second: string)
    requires |m.params| == 2
    requires ParamJava(m.params[0]) == Ok(first) && ParamJava(m.params[1]) == Ok(second)
    requires ToJava(m.returnType) == Ok("void")
    ensures Signature(m) == Ok("void " + m.name + "(" + first + ", " + second + ");")
  {
    assert m.params == [m.params[0], m.params[1]];
    RenderTwo(m.params[0], m.params[1], first, second);
    assert Join([first, second], ", ") == first + ", " + second by {
      assert [first, second][1..] == [second];
    }
    assert "void" + " " + m.name + "(" + (first + ", " + second) + ");" == "void " + m.name + "(" + first + ", " + second + ");";
  }

  /** With two optional params the backward loop writes the overload for
      param 1, then the one for param 0, then runs off the front. */
  lemma CascadeOfTwo(m: MethodDef, offset: string)
    requires |m.params| == 2 && !m.params[0].required && !m.params[1].required
    ensures Cascade(m, offset, 1) == Then(OverloadLines(m, offset, 1), Then(OverloadLines(m, offset, 0), Ok([])))
  {
    assert Cascade(m, offset, -1) == Ok([]);
    assert Cascade(m, offset, 0) == Then(OverloadLines(m, offset, 0), Cascade(m, offset, -1)) by {
      assert OverloadAt(m, offset)(0) == OverloadLines(m, offset, 0);
      assert !StopAt(m)(0);
    }
    assert Cascade(m, offset, 1) == Then(OverloadLines(m, offset, 1), Cascade(m, offset, 0)) by {
      assert OverloadAt(m, offset)(1) == OverloadLines(m, offset, 1);
      assert !StopAt(m)(1);
    }
  }

  /** A method whose two params are both optional and render as neither
      `int` nor fail, returning `void`: two overloads, the first forwarding
      `null` for the second param, the second forwarding `null` alone, then
      the full signature. */
  lemma TwoOptionalParams(m: MethodDef, offset: string, first: string, second: string)
    requires |m.params| == 2 && !m.params[0].required && !m.params[1].required
    requires m.params[0].elem.JsonName() != ""
    requires ParamJava(m.params[0]) == Ok(first) && ParamJava(m.params[1]) == Ok(second)
    requires ToJava(m.params[0].typeRef).Ok? && ToJava(m.params[0].typeRef) != Ok("int")
    requires ToJava(m.params[1].typeRef).Ok? && ToJava(m.params[1].typeRef) != Ok("int")
    requires ToJava(m.returnType) == Ok("void")
    ensures GeneratedLines(m, offset) == Ok([
      offset + "default void " + m.name + "(" + first + ") {",
      offset + "  " + m.name + "(" + m.params[0].elem.JsonName() + ", null);",
      offset + "}",
      offset + "default void " + m.name + "() {",
      offset + "  " + m.name + "(null);",
      offset + "}",
      offset + "void " + m.name + "(" + first + ", " + second + ");"])
  {
    var a := [
      offset + "default void " + m.name + "(" + first + ") {",
      offset + "  " + m.name + "(" + m.params[0].elem.JsonName() + ", null);",
      offset + "}"];
    var b := [
      offset + "default void " + m.name + "() {",
      offset + "  " + m.name + "(null);",
      offset + "}"];
    var c := offset + "void " + m.name + "(" + first + ", " + second + ");";
    OverloadOfOne(m, offset, first);
    OverloadOfNone(m, offset);
    CascadeOfTwoLines(m, offset, a, b);
    SignatureLineOfTwo(m, offset, first, second);
    assert GeneratedLines(m, offset) == Ok(a + b + [c]);
    assert a + b + [c] == [a[0], a[1], a[2], b[0], b[1], b[2], c];
  }

  /** The cascade of two optional params is the overload with one param,
      then the one with none. */
  lemma CascadeOfTwoLines(m: MethodDef, offset: string, a: seq<string>, b: seq<string>)
    requires |m.params| == 2 && !m.params[0].required && !m.params[1].required
    requires OverloadLines(m, offset, 1) == Ok(a) && OverloadLines(m, offset, 0) == Ok(b)
    ensures Cascade(m, offset, 1) == Ok(a + b)
  {
    CascadeOfTwo(m, offset);
    assert b + [] == b;
  }

  /** The signature line of a `void` method with two params. */
  lemma SignatureLineOfTwo(m: MethodDef, offset: string, first: string, second: string)
    requires |m.params| == 2
    requires ParamJava(m.params[0]) == Ok(first) && ParamJava(m.params[1]) == Ok(second)
    requires ToJava(m.returnType) == Ok("void")
    ensures SignatureLine(m, offset) == Ok([offset + "void " + m.name + "(" + first + ", " + second + ");"])
  {
    SignatureOfTwo(m, first, second);
    assert offset + ("void " + m.name + "(" + first + ", " + second + ");") == offset + "void " + m.name + "(" + first + ", " + second + ");";
  }

  /** The method element of `ChromiumBrowser.startTracing` with its params:
      an optional `Page` and an optional options object whose nested class
      takes the name synthesized for the options param, returning
      `Promise`. */
  function StartTracing(options: TypeDesc): MethodDef {
    var elem := MethodEl(InterfaceEl("ChromiumBrowser"), "startTracing");
    var page := ParamEl(elem, "page");
    var opts := ParamEl(elem, "options");
    var optionsClass := SynthesizedClassName(opts);
    MethodDef(elem, "startTracing",
      TypeRef(elem, TypeObj("Promise", []), true, None, false),
      [ParamDef(page, TypeRef(page, TypeObj("Page", []), false, None, false), false),
       ParamDef(opts, TypeRef(opts, options, false, Some(optionsClass.value), true), false)])
  }

  /** The options param of startTracing synthesizes `StartTracingOptions`:
      the method's name, title-cased, followed by the param's. */
  lemma StartTracingOptionsName(elem: Element)
    requires elem == MethodEl(InterfaceEl("ChromiumBrowser"), "startTracing")
    ensures SynthesizedClassName(ParamEl(elem, "options")) == Ok("StartTracingOptions")
  {
    assert ToTitle("startTracing") == Ok("StartTracing") by {
      assert [UpperChar("startTracing"[0])] + "startTracing"[1..] == "StartTracing";
    }
    assert ToTitle("options") == Ok("Options") by {
      assert [UpperChar("options"[0])] + "options"[1..] == "Options";
    }
    assert "StartTracing" + "Options" == "StartTracingOptions";
  }

  /** startTracing has no hand-written signature. */
  lemma StartTracingNotCustom(elem: Element)
    requires elem == MethodEl(InterfaceEl("ChromiumBrowser"), "startTracing")
    ensures elem.Path() !in CustomSignaturePaths
  {
    assert elem.Path() == "ChromiumBrowser.startTracing";
  }

  /** Neither param of startTracing has a name override. */
  lemma StartTracingParamPaths(elem: Element)
    requires elem == MethodEl(InterfaceEl("ChromiumBrowser"), "startTracing")
    ensures ParamEl(elem, "page").Path() !in CustomParamNames
    ensures ParamEl(elem, "options").Path() !in CustomParamNames
  {
    assert elem.Path() == "ChromiumBrowser.startTracing";
    assert ParamEl(elem, "page").Path() == "ChromiumBrowser.startTracing.page";
    assert ParamEl(elem, "options").Path() == "ChromiumBrowser.startTracing.options";
  }

  /** An optional `Page` param named `page` renders as `Page page`. */
  lemma PageParam(p: ParamDef)
    requires p.elem.Path() !in CustomParamNames && p.elem.JsonName() == "page"
    requires p.typeRef == TypeRef(p.elem, TypeObj("Page", []), false, None, false)
    ensures ToJava(p.typeRef) == Ok("Page") && ParamJava(p) == Ok("Page page")
  {
    RenderPlain(p.elem, "Page", false);
    assert ParamName(p) == "page";
    assert "Page" + " " + "page" == "Page page";
  }

  /** The options param renders with its nested class name. */
  lemma OptionsParam(p: ParamDef, options: TypeDesc)
    requires p.elem.Path() !in CustomParamNames && p.elem.JsonName() == "options"
    requires p.typeRef == TypeRef(p.elem, options, false, Some("StartTracingOptions"), true)
    ensures ToJava(p.typeRef) == Ok("StartTracingOptions") && ParamJava(p) == Ok("StartTracingOptions options")
  {
    assert ParamName(p) == "options";
    assert "StartTracingOptions" + " " + "options" == "StartTracingOptions options";
  }

  /** `startTracing(Page page, StartTracingOptions options)`, both params
      optional and returning `Promise`, gets two overloads: one without the
      options, forwarding `null`, and one without any param, forwarding
      `null` for the page. */
  lemma StartTracingOverloads(options: TypeDesc, m: MethodDef)
    requires m == StartTracing(options)
    ensures GeneratedLines(m, "  ") == Ok([
      "  default void startTracing(Page page) {",
      "    startTracing(page, null);",
      "  }",
      "  default void startTracing() {",
      "    startTracing(null);",
      "  }",
      "  void startTracing(Page page, StartTracingOptions options);"])
  {
    StartTracingShape(options, m);
    assert m.name == "startTracing" && m.params[0].elem.JsonName() == "page";
    OverloadText();
    ForwardText();
    OverloadNoneText();
    ForwardNoneText();
    SignatureText();
    assert "  " + "}" == "  }";
  }

  /** The startTracing lines before the pieces are put together. */
  lemma StartTracingShape(options: TypeDesc, m: MethodDef)
    requires m == StartTracing(options)
    ensures GeneratedLines(m, "  ") == Ok([
      "  " + "default void " + m.name + "(" + "Page page" + ") {",
      "  " + "  " + m.name + "(" + m.params[0].elem.JsonName() + ", null);",
      "  " + "}",
      "  " + "default void " + m.name + "() {",
      "  " + "  " + m.name + "(null);",
      "  " + "}",
      "  " + "void " + m.name + "(" + "Page page" + ", " + "StartTracingOptions options" + ");"])
  {
    StartTracingParamPaths(m.elem);
    StartTracingOptionsName(m.elem);
    PageParam(m.params[0]);
    OptionsParam(m.params[1], options);
    RenderVoid(m.elem);
    TwoOptionalParams(m, "  ", "Page page", "StartTracingOptions options");
  }

  // The startTracing lines assembled from their pieces, one append at a
  // time.

  lemma OverloadText()
    ensures "  " + "default void " + "startTracing" + "(" + "Page page" + ") {" == "  default void startTracing(Page page) {"
  {
    assert "  " + "default void " == "  default void ";
    assert "  default void " + "startTracing" == "  default void startTracing";
    assert "  default void startTracing" + "(" == "  default void startTracing(";
    assert "  default void startTracing(" + "Page page" == "  default void startTracing(Page page";
    assert "  default void startTracing(Page page" + ") {" == "  default void startTracing(Page page) {";
  }

  lemma ForwardText()
    ensures "  " + "  " + "startTracing" + "(" + "page" + ", null);" == "    startTracing(page, null);"
  {
    assert "  " + "  " == "    ";
    assert "    " + "startTracing" == "    startTracing";
    assert "    startTracing" + "(" == "    startTracing(";
    assert "    startTracing(" + "page" == "    startTracing(page";
    assert "    startTracing(page" + ", null);" == "    startTracing(page, null);";
  }

  lemma OverloadNoneText()
    ensures "  " + "default void " + "startTracing" + "() {" == "  default void startTracing() {"
  {
    assert "  " + "default void " == "  default void ";
    assert "  default void " + "startTracing" == "  default void startTracing";
    assert "  default void startTracing" + "() {" == "  default void startTracing() {";
  }

  lemma ForwardNoneText()
    ensures "  " + "  " + "startTracing" + "(null);" == "    startTracing(null);"
  {
    assert "  " + "  " == "    ";
    assert "    " + "startTracing" == "    startTracing";
    assert "    startTracing" + "(null);" == "    startTracing(null);";
  }

  lemma SignatureHeadText()
    ensures "  " + "void " + "startTracing" + "(" == "  void startTracing("
  {
    assert "  " + "void " == "  void ";
    assert "  void " + "startTracing" == "  void startTracing";
  }

  lemma SignatureText()
    ensures "  " + "void " + "startTracing" + "(" + "Page page" + ", " + "StartTracingOptions options" + ");" == "  void startTracing(Page page, StartTracingOptions options);"
  {
    SignatureHeadText();
    assert "  void startTracing(" + "Page page" == "  void startTracing(Page page";
    assert "  void startTracing(Page page" + ", " == "  void startTracing(Page page, ";
    assert "  void startTracing(Page page, " + "StartTracingOptions options" == "  void startTracing(Page page, StartTracingOptions options";
    assert "  void startTracing(Page page, StartTracingOptions options" + ");" == "  void startTracing(Page page, StartTracingOptions options);";
  }
}

=== FILE: resolution.dfy ===
/** TypeRef: how a member's type expression is resolved against the type
    table (`createCustomType`) and rendered as Java (`toJava`). */
module TypeResolution {
  import opened Results
  import opened Text
  import opened Schema

  /** An entry of the type table: the schema type expected at a path, the
      Java type name to use instead, and whether the entry carries a
      `defineTypesIn` callback (whose effect is not modelled). */
  datatype Mapping = Mapping(from: string, to: string, hasCallback: bool)

  /** The type table, keyed by the path of the member that owns the type. */
  type TypeTable = map<string, Mapping>

  /** A literal-union enum type: it holds `|"`. */
  predicate IsEnum(typeName: string) {
    Contains(typeName, "|\"")
  }

  /** An anonymous object type: `Object` once `null|` is removed. */
  predicate IsClass(typeName: string) {
    Replace(typeName, "null|", "") == "Object"
  }

  /** What resolving a type asks of the enclosing type scope. */
  datatype Synthesis =
    | NoSynthesis
    /** The mapping's callback defines the types; nothing is synthesized. */
    | Callback
    | SynthesizeEnum(enumName: string)
    | SynthesizeClass(className: string)

  /** The outcome of `createCustomType`: the `customType` field and the
      synthesis request sent to the type scope. */
  datatype Plan = Plan(customType: Option<string>, synthesis: Synthesis)

  /** A resolved TypeRef: its owner (the method, param, field or event whose
      "type" it is), the type entry, the owner's "required" flag and the
      outcome of resolution. */
  datatype TypeRef = TypeRef(owner: Element, desc: TypeDesc, ownerRequired: bool,
                             customType: Option<string>, isNestedClass: bool)

  /** The name given to an anonymous object type that has no mapping: the
      field's name, title-cased, for a field; otherwise the title-cased name
      of the owner's parent followed by the owner's. */
  function SynthesizedClassName(owner: Element): (r: Result<string>)
    requires owner.IsMember()
    ensures owner.FieldEl? ==> r == ToTitle(owner.jsonName)
    ensures !owner.FieldEl? && r.Ok? ==>
      var outer := ToTitle(owner.parent.JsonName());
      var inner := ToTitle(owner.jsonName);
      outer.Ok? && inner.Ok? && r.value == outer.value + inner.value
    ensures r.Ok? <==> |owner.jsonName| > 0 && (owner.FieldEl? || |owner.parent.JsonName()| > 0)
  {
    if owner.FieldEl? then ToTitle(owner.jsonName)
    else
      var outer :- ToTitle(owner.parent.JsonName());
      var inner :- ToTitle(owner.jsonName);
      Ok(outer + inner)
  }

  /** `TypeRef.createCustomType`, as a decision: the mapping at the owner's
      path is consulted; an enum without one fails; a mapping whose source
      type differs fails; otherwise the custom type and the synthesis to
      perform in the type scope are returned. */
  function PlanCustomType(types: TypeTable, owner: Element, desc: TypeDesc): (r: Result<Plan>)
    requires owner.IsMember()
    ensures var path, n := owner.Path(), TypeName(desc);
      (r == Fail(MissingEnumMapping(path)) <==> path !in types && IsEnum(n))
    ensures var path, n := owner.Path(), TypeName(desc);
      (r.Fail? && r.error.UnexpectedSourceType? <==> path in types && types[path].from != n)
    ensures var path, n := owner.Path(), TypeName(desc);
      path in types && types[path].from != n ==> r == Fail(UnexpectedSourceType(path, types[path].from, n))
    ensures var path, n := owner.Path(), TypeName(desc);
      path in types && types[path].from == n ==> r.Ok? && r.value.customType == Some(types[path].to)
    // Under a matching entry: the callback defines the types, otherwise an
    // enum or class named by the entry is synthesized.
    ensures var path, n := owner.Path(), TypeName(desc);
      path in types && types[path].from == n ==>
        && (types[path].hasCallback ==> r.value.synthesis == Callback)
        && (!types[path].hasCallback && IsEnum(n) ==> r.value.synthesis == SynthesizeEnum(types[path].to))
        && (!types[path].hasCallback && !IsEnum(n) && IsClass(n) ==> r.value.synthesis == SynthesizeClass(types[path].to))
        && (!types[path].hasCallback && !IsEnum(n) && !IsClass(n) ==> r.value.synthesis == NoSynthesis)
    ensures var path, n := owner.Path(), TypeName(desc);
      path !in types && !IsEnum(n) && !IsClass(n) ==> r == Ok(Plan(None, NoSynthesis))
    ensures var path, n := owner.Path(), TypeName(desc);
      path !in types && !IsEnum(n) && IsClass(n) ==>
        var name := SynthesizedClassName(owner);
        (r.Ok? <==> name.Ok?) && (r.Ok? ==> r.value == Plan(Some(name.value), SynthesizeClass(name.value)))
    // What is synthesized is always named by the custom type.
    ensures r.Ok? && r.value.synthesis.SynthesizeEnum? ==> r.value.customType == Some(r.value.synthesis.enumName)
    ensures r.Ok? && r.value.synthesis.SynthesizeClass? ==> r.value.customType == Some(r.value.synthesis.className)
    // An enum is synthesized only under a mapping, and a class only for `Object`.
    ensures r.Ok? && r.value.synthesis.SynthesizeEnum? ==> owner.Path() in types && IsEnum(TypeName(desc))
    ensures r.Ok? && r.value.synthesis.SynthesizeClass? ==> IsClass(TypeName(desc)) && !IsEnum(TypeName(desc))
  {
    var path, n := owner.Path(), TypeName(desc);
    if path !in types then
      if IsEnum(n) then Fail(MissingEnumMapping(path))
      else if !IsClass(n) then Ok(Plan(None, NoSynthesis))
      else
        var name :- SynthesizedClassName(owner);
        Ok(Plan(Some(name), SynthesizeClass(name)))
    else
      var mapping := types[path];
      if mapping.from != n then Fail(UnexpectedSourceType(path, mapping.from, n))
      else if mapping.hasCallback then Ok(Plan(Some(mapping.to), Callback))
      else if IsEnum(n) then Ok(Plan(Some(mapping.to), SynthesizeEnum(mapping.to)))
      else if IsClass(n) then Ok(Plan(Some(mapping.to), SynthesizeClass(mapping.to)))
      else Ok(Plan(Some(mapping.to), NoSynthesis))
  }

  /** The synthesized class names of a field and of a method parameter. */
  lemma SynthesizedClassNameExamples()
    ensures SynthesizedClassName(FieldEl(NestedClassEl(TypeRefEl(ParamEl(MethodEl(InterfaceEl("Page"), "click"), "options"), "Object"), "Object", "ClickOptions"), "position"))
         == Ok("Position")
    ensures SynthesizedClassName(ParamEl(MethodEl(InterfaceEl("Page"), "click"), "options")) == Ok("ClickOptions")
  {
    assert ToTitle("click") == Ok("Click") by {
      assert [UpperChar("click"[0])] + "click"[1..] == "Click";
    }
    assert ToTitle("options") == Ok("Options") by {
      assert [UpperChar("options"[0])] + "options"[1..] == "Options";
    }
    assert ToTitle("position") == Ok("Position") by {
      assert [UpperChar("position"[0])] + "position"[1..] == "Position";
    }
    assert "Click" + "Options" == "ClickOptions";
  }

  /** `stripPromise`: the Java API is synchronous, so `Promise` becomes
      `void` and `Promise<X>` becomes `X`; the substring call throws on the
      bare prefix `Promise<`. */
  function StripPromise(t: string): (r: Result<string>)
    ensures t == "Promise" ==> r == Ok("void")
    ensures r.Fail? <==> t == "Promise<"
    ensures StartsWith(t, "Promise<") && r.Ok? ==> "Promise<" + r.value + [t[|t| - 1]] == t
    ensures t != "Promise" && !StartsWith(t, "Promise<") ==> r == Ok(t)
  {
    if t == "Promise" then Ok("void")
    else if StartsWith(t, "Promise<") then
      if |t| - 1 < |"Promise<"| then Fail(StringIndexOutOfBounds(t))
      else Ok(t[|"Promise<"|..|t| - 1])
    else Ok(t)
  }

  /** `convertBuiltinType`: the fixed replacements, applied in this order. */
  function ConvertBuiltinType(t: string): string {
    Replace(Replace(Replace(Replace(Replace(t, "Array<", "List<"), "Object<", "Map<"), "string", "String"), "number", "int"), "null|", "")
  }

  /** The owner is optional and the type is a boxed primitive. */
  predicate Boxed(tr: TypeRef) {
    !tr.ownerRequired && tr.desc.TypeObj? && (tr.desc.name == "number" || tr.desc.name == "boolean")
  }

  /** `TypeRef.toJava`: a custom type verbatim; JSON null as `void`; an
      optional `number` or `boolean` boxed; a union left after removing
      `null|` fails; anything else unwrapped from `Promise` and converted. */
  function ToJava(tr: TypeRef): (r: Result<string>)
    ensures tr.customType.Some? ==> r == Ok(tr.customType.value)
    ensures tr.customType.None? && tr.desc.NullType? ==> r == Ok("void")
    ensures tr.customType.None? && Boxed(tr) ==>
      r == Ok(if tr.desc.name == "number" then "Integer" else "Boolean")
    ensures r.Fail? <==>
      tr.customType.None? && tr.desc.TypeObj? && !Boxed(tr) &&
      (Contains(Replace(tr.desc.name, "null|", ""), "|") || tr.desc.name == "Promise<")
    ensures r.Fail? && tr.desc.name != "Promise<" ==> r.error == MissingUnionMapping(tr.owner.Path(), tr.desc.name)
    ensures tr.customType.None? && tr.desc.TypeObj? && !Boxed(tr) && r.Ok? ==>
      StripPromise(tr.desc.name).Ok? && r.value == ConvertBuiltinType(StripPromise(tr.desc.name).value)
  {
    if tr.customType.Some? then Ok(tr.customType.value)
    else if tr.desc.NullType? then Ok("void")
    else
      var n := tr.desc.name;
      if !tr.ownerRequired && n == "number" then Ok("Integer")
      else if !tr.ownerRequired && n == "boolean" then Ok("Boolean")
      else if Contains(Replace(n, "null|", ""), "|") then Fail(MissingUnionMapping(tr.owner.Path(), n))
      else
        var stripped :- StripPromise(n);
        Ok(ConvertBuiltinType(stripped))
  }

  /** Rendering of builtin types: `Promise<X>` is unwrapped and an array
      inside it becomes a List, e.g. `Promise<Array<Frame>>` renders as
      `List<Frame>`. */
  lemma RenderPromiseOfArray(owner: Element, x: string)
    requires 'A' !in x && 'O' !in x && 'g' !in x && 'b' !in x && 'u' !in x && '|' !in x
    ensures ToJava(TypeRef(owner, TypeObj("Promise<Array<" + x + ">>", []), true, None, false)) == Ok("List<" + x + ">")
  {
    var n := "Promise<Array<" + x + ">>";
    NoBarNoUnion(n);
    StripPromiseOfArray(x);
    ConvertArrayOfPlain(x);
    RenderBuiltin(owner, n, "Array<" + x + ">", "List<" + x + ">");
  }

  /** A required builtin that is no union renders as its converted,
      unwrapped name. */
  lemma RenderBuiltin(owner: Element, n: string, unwrapped: string, converted: string)
    requires !Contains(Replace(n, "null|", ""), "|")
    requires StripPromise(n) == Ok(unwrapped) && ConvertBuiltinType(unwrapped) == converted
    ensures ToJava(TypeRef(owner, TypeObj(n, []), true, None, false)) == Ok(converted)
  {
  }

  /** A name without `|` is no union. */
  lemma NoBarNoUnion(n: string)
    requires '|' !in n
    ensures !Contains(Replace(n, "null|", ""), "|")
  {
    ReplaceMissingChar(n, "null|", "", '|');
    NotContainsMissingChar(n, "|", '|');
  }

  lemma StripPromiseOfArray(x: string)
    ensures StripPromise("Promise<Array<" + x + ">>") == Ok("Array<" + x + ">")
  {
    assert "Promise<Array<" + x + ">>" == "Promise<" + ("Array<" + x + ">") + ">";
    StripPromiseUnwraps("Array<" + x + ">");
  }

  /** Stripping undoes wrapping in `Promise<...>`. */
  lemma StripPromiseUnwraps(x: string)
    ensures StripPromise("Promise<" + x + ">") == Ok(x)
  {
    var n := "Promise<" + x + ">";
    assert n[..8] == "Promise<";
    assert n[8..|n| - 1] == x;
  }

  /** An array of a type whose name none of the other replacements touch
      becomes a List of it. */
  lemma ConvertArrayOfPlain(x: string)
    requires 'A' !in x && 'O' !in x && 'g' !in x && 'b' !in x && 'u' !in x
    ensures ConvertBuiltinType("Array<" + x + ">") == "List<" + x + ">"
  {
    ConvertArrayPrefix(x + ">");
    assert "Array<" + (x + ">") == "Array<" + x + ">";
    assert "List<" + (x + ">") == "List<" + x + ">";
  }

  lemma ConvertArrayPrefix(x: string)
    requires 'A' !in x && 'O' !in x && 'g' !in x && 'b' !in x && 'u' !in x
    ensures ConvertBuiltinType("Array<" + x) == "List<" + x
  {
    var s, u := "Array<" + x, "List<" + x;
    assert Replace(s, "Array<", "List<") == u by {
      ReplaceMissingChar(x, "Array<", "List<", 'A');
      assert StartsWith(s, "Array<");
      assert s[|"Array<"|..] == x;
    }
    ReplaceMissingChar(u, "Object<", "Map<", 'O');
    ReplaceMissingChar(u, "string", "String", 'g');
    ReplaceMissingChar(u, "number", "int", 'b');
    ReplaceMissingChar(u, "null|", "", 'u');
  }

  /** A required `number` is `int`, an optional one `Integer`. */
  lemma RenderNumber(owner: Element)
    ensures ToJava(TypeRef(owner, TypeObj("number", []), true, None, false)) == Ok("int")
    ensures ToJava(TypeRef(owner, TypeObj("number", []), false, None, false)) == Ok("Integer")
  {
    NumberIsNoUnion();
    ConvertNumber();
  }

  lemma NumberIsNoUnion()
    ensures !Contains(Replace("number", "null|", ""), "|") && !StartsWith("number", "Promise<")
  {
    ReplaceMissingChar("number", "null|", "", '|');
    NotContainsMissingChar("number", "|", '|');
  }

  lemma ConvertNumber()
    ensures ConvertBuiltinType("number") == "int"
  {
    var n := "number";
    ReplaceMissingChar(n, "Array<", "List<", 'A');
    ReplaceMissingChar(n, "Object<", "Map<", 'O');
    ReplaceMissingChar(n, "string", "String", 's');
    assert StartsWith(n, "number") && n[|"number"|..] == [];
    assert Replace(n, "number", "int") == "int";
    ReplaceMissingChar("int", "null|", "", '|');
  }

  /** `Promise` alone is `void`. */
  lemma RenderVoid(owner: Element)
    ensures ToJava(TypeRef(owner, TypeObj("Promise", []), true, None, false)) == Ok("void")
  {
    PromiseIsNoUnion();
    assert StripPromise("Promise") == Ok("void");
    ConvertVoid();
  }

  lemma PromiseIsNoUnion()
    ensures !Contains(Replace("Promise", "null|", ""), "|")
  {
    ReplaceMissingChar("Promise", "null|", "", '|');
    NotContainsMissingChar("Promise", "|", '|');
  }

  lemma ConvertVoid()
    ensures ConvertBuiltinType("void") == "void"
  {
    ReplaceMissingChar("void", "Array<", "List<", 'A');
    ReplaceMissingChar("void", "Object<", "Map<", 'O');
    ReplaceMissingChar("void", "string", "String", 's');
    ReplaceMissingChar("void", "number", "int", 'n');
    ReplaceMissingChar("void", "null|", "", 'n');
  }

  /** A union of builtins, such as `string|number`, has no rendering
      without a mapping. */
  lemma RenderUnion(owner: Element, a: string, b: string)
    requires 'l' !in a && 'l' !in b
    ensures ToJava(TypeRef(owner, TypeObj(a + "|" + b, []), true, None, false))
         == Fail(MissingUnionMapping(owner.Path(), a + "|" + b))
  {
    var u := a + "|" + b;
    ReplaceMissingChar(u, "null|", "", 'l');
    ContainsAt(u, "|", |a|);
  }

  /** A type name that no rule touches renders as itself, e.g. `Page`. */
  lemma RenderPlain(owner: Element, x: string, required: bool)
    requires '<' !in x && '|' !in x && 't' !in x && 'n' !in x && x != "Promise"
    ensures ToJava(TypeRef(owner, TypeObj(x, []), required, None, false)) == Ok(x)
  {
    assert !Contains(Replace(x, "null|", ""), "|") by {
      ReplaceMissingChar(x, "null|", "", '|');
      NotContainsMissingChar(x, "|", '|');
    }
    assert !StartsWith(x, "Promise<") by {
      if |x| >= 8 {
        assert x[..8][7] == x[7] != '<';
      }
    }
    assert ConvertBuiltinType(x) == x by {
      ReplaceMissingChar(x, "Array<", "List<", '<');
      ReplaceMissingChar(x, "Object<", "Map<", '<');
      ReplaceMissingChar(x, "string", "String", 't');
      ReplaceMissingChar(x, "number", "int", 'n');
      ReplaceMissingChar(x, "null|", "", '|');
    }
  }
}

=== FILE: results.dfy ===
/** The generator's failure modes. Every one of them aborts the whole run in
    the generator, so each operation that can fail returns a Result. */
module Results {

  datatype Option<+T> = None | Some(value: T)

  /** One constructor per exception the generator can raise. */
  datatype GenError =
    /** A literal-union enum type whose owner path has no type mapping. */
    | MissingEnumMapping(path: string)
    /** A type mapping whose recorded source type differs from the schema's. */
    | UnexpectedSourceType(path: string, expected: string, found: string)
    /** A union left after removing `null|` that no mapping resolves. */
    | MissingUnionMapping(path: string, typeName: string)
    /** A substring or charAt call outside the string's bounds. */
    | StringIndexOutOfBounds(text: string)
    /** A parameter whose "type" entry is not a JSON object. */
    | NotAnObject(path: string)

  datatype Result<+T> = Ok(value: T) | Fail(error: GenError) {
    predicate IsFailure() { Fail? }
    function PropagateFailure<U>(): Result<U>
      requires Fail?
    {
      Fail(error)
    }
    function Extract(): T
      requires Ok?
    {
      value
    }
  }

  /** Lines emitted by two writers called one after the other: the first
      failure wins, as the first exception thrown would. */
  function Then(a: Result<seq<string>>, b: Result<seq<string>>): (r: Result<seq<string>>)
    ensures r.Ok? <==> a.Ok? && b.Ok?
    ensures r.Ok? ==> r.value == a.value + b.value
    ensures a.Fail? ==> r == a
    ensures a.Ok? && b.Fail? ==> r == b
  {
    if a.Fail? then a else if b.Fail? then b else Ok(a.value + b.value)
  }

  /** Writing `a`, then `b`, then `c` is writing `a + b`, then `c`. */
  lemma ThenAssoc(a: seq<string>, b: seq<string>, c: Result<seq<string>>)
    ensures Then(Ok(a), Then(Ok(b), c)) == Then(Ok(a + b), c)
  {
    if c.Ok? {
      assert a + (b + c.value) == (a + b) + c.value;
    }
  }

  /** A fallible renderer applied to each item in order: the renderings in
      order, or the first item's failure. */
  function MapAll<T>(xs: seq<T>, f: T -> Result<string>): (r: Result<seq<string>>)
    ensures r.Ok? ==> |r.value| == |xs|
  {
    if xs == [] then Ok([])
    else
      var first :- f(xs[0]);
      var rest :- MapAll(xs[1..], f);
      Ok([first] + rest)
  }

  /** Rendering a concatenation renders the first part, then the second:
      a failure in the first part is reported before one in the second. */
  lemma {:induction false} MapAllConcat<T>(a: seq<T>, b: seq<T>, f: T -> Result<string>)
    ensures MapAll(a + b, f) == Then(MapAll(a, f), MapAll(b, f))
  {
    if a == [] {
      assert a + b == b;
      if MapAll(b, f).Ok? {
        assert [] + MapAll(b, f).value == MapAll(b, f).value;
      }
    } else {
      assert (a + b)[0] == a[0] && (a + b)[1..] == a[1..] + b;
      MapAllConcat(a[1..], b, f);
      if MapAll(a, f).Ok? && MapAll(b, f).Ok? {
        assert [f(a[0]).value] + (MapAll(a[1..], f).value + MapAll(b, f).value)
            == ([f(a[0]).value] + MapAll(a[1..], f).value) + MapAll(b, f).value;
      }
    }
  }

  /** One more item: its rendering is appended, or, when every item before
      it renders, its failure is the failure of the whole sequence. */
  lemma MapAllSnoc<T>(xs: seq<T>, i: nat, f: T -> Result<string>)
    requires i < |xs| && MapAll(xs[..i], f).Ok?
    ensures f(xs[i]).Ok? ==> MapAll(xs[..i + 1], f) == Ok(MapAll(xs[..i], f).value + [f(xs[i]).value])
    ensures f(xs[i]).Fail? ==> MapAll(xs, f) == Fail(f(xs[i]).error)
  {
    assert xs[..i + 1] == xs[..i] + [xs[i]];
    MapAllConcat(xs[..i], [xs[i]], f);
    assert [xs[i]][1..] == [];
    if f(xs[i]).Ok? {
      assert MapAll([], f) == Ok([]);
      assert [f(xs[i]).value] + [] == [f(xs[i]).value];
      assert MapAll([xs[i]], f) == Ok([f(xs[i]).value]);
    } else {
      assert xs == xs[..i] + xs[i..];
      MapAllConcat(xs[..i], xs[i..], f);
      assert xs[i..][0] == xs[i];
    }
  }

  /** The lines of a loop that writes each item in turn, or the first
      item's failure. */
  function ConcatAll<T>(xs: seq<T>, f: T -> Result<seq<string>>): (r: Result<seq<string>>)
  {
    if xs == [] then Ok([]) else Then(f(xs[0]), ConcatAll(xs[1..], f))
  }

  /** Writing a concatenation writes the first part, then the second. */
  lemma {:induction false} ConcatAllSplit<T>(a: seq<T>, b: seq<T>, f: T -> Result<seq<string>>)
    ensures ConcatAll(a + b, f) == Then(ConcatAll(a, f), ConcatAll(b, f))
  {
    if a == [] {
      assert a + b == b;
      if ConcatAll(b, f).Ok? {
        assert [] + ConcatAll(b, f).value == ConcatAll(b, f).value;
      }
    } else {
      assert (a + b)[0] == a[0] && (a + b)[1..] == a[1..] + b;
      ConcatAllSplit(a[1..], b, f);
      if f(a[0]).Ok? && ConcatAll(a[1..], f).Ok? && ConcatAll(b, f).Ok? {
        assert f(a[0]).value + (ConcatAll(a[1..], f).value + ConcatAll(b, f).value)
            == (f(a[0]).value + ConcatAll(a[1..], f).value) + ConcatAll(b, f).value;
      }
    }
  }

  /** One more item: its lines are appended, or, when every item before it
      is written, its failure is the failure of the whole loop. */
  lemma ConcatAllSnoc<T>(xs: seq<T>, i: nat, f: T -> Result<seq<string>>)
    requires i < |xs| && ConcatAll(xs[..i], f).Ok?
    ensures f(xs[i]).Ok? ==> ConcatAll(xs[..i + 1], f) == Ok(ConcatAll(xs[..i], f).value + f(xs[i]).value)
    ensures f(xs[i]).Fail? ==> ConcatAll(xs, f) == Fail(f(xs[i]).error)
  {
    assert xs[..i + 1] == xs[..i] + [xs[i]];
    ConcatAllSplit(xs[..i], [xs[i]], f);
    assert [xs[i]][1..] == [];
    if f(xs[i]).Ok? {
      assert f(xs[i]).value + [] == f(xs[i]).value;
    } else {
      assert xs == xs[..i] + xs[i..];
      ConcatAllSplit(xs[..i], xs[i..], f);
      assert xs[i..][0] == xs[i];
    }
  }

  /** A property of single lines that every item's lines have holds for
      every line the loop writes. */
  lemma {:induction false} ConcatAllEach<T>(xs: seq<T>, f: T -> Result<seq<string>>, p: string -> bool)
    requires forall i, k :: 0 <= i < |xs| && f(xs[i]).Ok? && 0 <= k < |f(xs[i]).value| ==> p(f(xs[i]).value[k])
    requires ConcatAll(xs, f).Ok?
    ensures forall k :: 0 <= k < |ConcatAll(xs, f).value| ==> p(ConcatAll(xs, f).value[k])
  {
    if xs != [] {
      assert forall i, k :: 0 <= i < |xs[1..]| && f(xs[1..][i]).Ok? && 0 <= k < |f(xs[1..][i]).value| ==>
        p(f(xs[1..][i]).value[k]) by {
        forall i | 0 <= i < |xs[1..]| ensures xs[1..][i] == xs[i + 1] { }
      }
      ConcatAllEach(xs[1..], f, p);
      var head, tail := f(xs[0]).value, ConcatAll(xs[1..], f).value;
      forall k | 0 <= k < |head + tail| ensures p((head + tail)[k]) {
        if k >= |head| {
          assert (head + tail)[k] == tail[k - |head|];
        }
      }
    }
  }

  /** The lines written by a loop over positions i, i - 1, ... down to 0
      that stops at the first position `stop` holds for; `write(j)` writes
      position j. The first failure wins. */
  function Backward(stop: int -> bool, write: int -> Result<seq<string>>, i: int): Result<seq<string>>
    decreases i + 1
  {
    if i < 0 || stop(i) then Ok([]) else Then(write(i), Backward(stop, write, i - 1))
  }

  /** A property every written line has holds for every line of the loop's
      output. */
  lemma {:induction false} BackwardEach(stop: int -> bool, write: int -> Result<seq<string>>, i: int, p: string -> bool)
    requires forall j, k :: 0 <= j <= i && write(j).Ok? && 0 <= k < |write(j).value| ==> p(write(j).value[k])
    requires Backward(stop, write, i).Ok?
    ensures forall k :: 0 <= k < |Backward(stop, write, i).value| ==> p(Backward(stop, write, i).value[k])
    decreases i + 1
  {
    if !(i < 0 || stop(i)) {
      BackwardEach(stop, write, i - 1, p);
      var head, tail := write(i).value, Backward(stop, write, i - 1).value;
      forall k | 0 <= k < |head + tail| ensures p((head + tail)[k]) {
        if k >= |head| {
          assert (head + tail)[k] == tail[k - |head|];
        }
      }
    }
  }

  /** How many positions that loop visits before it stops. */
  function RunLength(stop: int -> bool, i: int): nat
    decreases i + 1
  {
    if i < 0 || stop(i) then 0 else 1 + RunLength(stop, i - 1)
  }

  /** When every position writes three lines, the loop writes three lines
      per position visited, in visiting order: position p's lines are the
      (i - p)-th block. */
  lemma {:induction false} BackwardShape(stop: int -> bool, write: int -> Result<seq<string>>, i: int)
    requires forall j :: 0 <= j <= i && write(j).Ok? ==> |write(j).value| == 3
    requires Backward(stop, write, i).Ok?
    ensures var lines := Backward(stop, write, i).value;
      && |lines| == 3 * RunLength(stop, i)
      && forall p :: i - RunLength(stop, i) < p <= i ==>
           write(p).Ok? && lines[3 * (i - p)..3 * (i - p) + 3] == write(p).value
    decreases i + 1
  {
    if !(i < 0 || stop(i)) {
      BackwardShape(stop, write, i - 1);
      var head, tail := write(i).value, Backward(stop, write, i - 1).value;
      assert Backward(stop, write, i).value == head + tail;
      forall p | i - RunLength(stop, i) < p <= i
        ensures write(p).Ok? && (head + tail)[3 * (i - p)..3 * (i - p) + 3] == write(p).value
      {
        if p < i {
          assert (head + tail)[3 * (i - p)..3 * (i - p) + 3] == tail[3 * (i - 1 - p)..3 * (i - 1 - p) + 3];
        } else {
          assert (head + tail)[..3] == head;
        }
      }
    }
  }

  /** A slice inside the first part of a concatenation is a slice of that
      part. */
  lemma SliceOfPrefix<T>(a: seq<T>, b: seq<T>, i: nat, j: nat)
    requires i <= j <= |a|
    ensures (a + b)[i..j] == a[i..j]
  {
  }
}

=== FILE: routing.dfy ===
/** The route table of a page or browser context: an ordered list of
    (URL matcher, handler) pairs. A request goes to the handler of the
    first route whose matcher accepts its URL. Matchers are compared by
    value (`equals`), handlers by identity; both are type parameters whose
    equality is that comparison, and a matcher's URL test is a function
    passed to `Handle`. */
module Routing {
  import opened Results

  datatype RouteInfo<M, H> = RouteInfo(matcher: M, handler: H)

  /** The filter condition of `remove`: a route survives unless its
      matcher equals the given one and, when a handler is given, its
      handler is that very handler. */
  predicate Kept<M(==), H(==)>(info: RouteInfo<M, H>, matcher: M, handler: Option<H>) {
    info.matcher != matcher || (handler.Some? && info.handler != handler.value)
  }

  /** The routes `remove` keeps, in their order. */
  function Filtered<M(==), H(==)>(routes: seq<RouteInfo<M, H>>, matcher: M, handler: Option<H>): seq<RouteInfo<M, H>> {
    if routes == [] then []
    else (if Kept(routes[0], matcher, handler) then [routes[0]] else []) + Filtered(routes[1..], matcher, handler)
  }

  /** The position of the first route whose matcher accepts `url`, if any. */
  function FirstMatch<M, H>(routes: seq<RouteInfo<M, H>>, url: string, test: (M, string) -> bool): (r: Option<nat>)
    ensures r.Some? ==> r.value < |routes| && test(routes[r.value].matcher, url)
    ensures r.Some? ==> forall j :: 0 <= j < r.value ==> !test(routes[j].matcher, url)
    ensures r.None? <==> forall j :: 0 <= j < |routes| ==> !test(routes[j].matcher, url)
  {
    if routes == [] then None
    else if test(routes[0].matcher, url) then Some(0)
    else
      match FirstMatch(routes[1..], url, test)
      case None => None
      case Some(k) => Some(k + 1)
  }

  class Router<M(==), H(==)> {
    var routes: seq<RouteInfo<M, H>>

    constructor()
      ensures routes == []
    {
      routes := [];
    }

    /** `add`: the new route goes last, after every existing one. */
    method Add(matcher: M, handler: H)
      modifies this
      ensures routes == old(routes) + [RouteInfo(matcher, handler)]
      ensures Size() == old(Size()) + 1
    {
      routes := routes + [RouteInfo(matcher, handler)];
    }

    /** `remove`: the list is replaced by the routes the filter keeps;
        `None` stands for a null handler. */
    method Remove(matcher: M, handler: Option<H>)
      modifies this
      ensures routes == Filtered(old(routes), matcher, handler)
      ensures Size() <= old(Size())
    {
      var all := routes;
      var kept: seq<RouteInfo<M, H>> := [];
      for i := 0 to |all|
        invariant kept == Filtered(all[..i], matcher, handler)
      {
        FilteredConcat(all[..i], [all[i]], matcher, handler);
        assert all[..i + 1] == all[..i] + [all[i]];
        if Kept(all[i], matcher, handler) {
          kept := kept + [all[i]];
        }
      }
      assert all[..|all|] == all;
      FilteredLength(all, matcher, handler);
      routes := kept;
    }

    /** `size`: the number of routes. */
    function Size(): (n: nat)
      reads this
    {
      |routes|
    }

    /** `handle`: the routes are tried in order; the first whose matcher
        accepts the URL has its handler invoked (returned in `invoked`) and
        the request counts as handled. With no such route nothing is
        invoked. The route table is not changed. */
    method Handle(url: string, test: (M, string) -> bool) returns (handled: bool, invoked: Option<H>)
      ensures handled <==> invoked.Some?
      ensures handled <==> exists k :: 0 <= k < |routes| && test(routes[k].matcher, url)
      ensures handled ==> exists k :: && 0 <= k < |routes| && test(routes[k].matcher, url)
                                      && invoked.value == routes[k].handler
                                      && forall j :: 0 <= j < k ==> !test(routes[j].matcher, url)
    {
      for i := 0 to |routes|
        invariant forall j :: 0 <= j < i ==> !test(routes[j].matcher, url)
      {
        if test(routes[i].matcher, url) {
          return true, Some(routes[i].handler);
        }
      }
      return false, None;
    }
  }

  /** Filtering distributes over concatenation: it keeps the surviving
      routes in their original order. */
  lemma {:induction false} FilteredConcat<M, H>(a: seq<RouteInfo<M, H>>, b: seq<RouteInfo<M, H>>, matcher: M, handler: Option<H>)
    ensures Filtered(a + b, matcher, handler) == Filtered(a, matcher, handler) + Filtered(b, matcher, handler)
  {
    if a != [] {
      assert (a + b)[1..] == a[1..] + b;
      FilteredConcat(a[1..], b, matcher, handler);
    } else {
      assert a + b == b;
    }
  }

  /** A route survives `remove` exactly when it was there and the filter
      keeps it. */
  lemma {:induction false} FilteredMembers<M, H>(routes: seq<RouteInfo<M, H>>, matcher: M, handler: Option<H>, x: RouteInfo<M, H>)
    ensures x in Filtered(routes, matcher, handler) <==> x in routes && Kept(x, matcher, handler)
  {
    if routes != [] {
      FilteredMembers(routes[1..], matcher, handler, x);
      assert routes == [routes[0]] + routes[1..];
    }
  }

  /** `remove` never adds routes, and keeps the length exactly when every
      route survives; in that case the list is unchanged. */
  lemma {:induction false} FilteredLength<M, H>(routes: seq<RouteInfo<M, H>>, matcher: M, handler: Option<H>)
    ensures |Filtered(routes, matcher, handler)| <= |routes|
    ensures |Filtered(routes, matcher, handler)| == |routes| <==> forall k :: 0 <= k < |routes| ==> Kept(routes[k], matcher, handler)
    ensures (forall k :: 0 <= k < |routes| ==> Kept(routes[k], matcher, handler)) ==> Filtered(routes, matcher, handler) == routes
  {
    if routes != [] {
      FilteredLength(routes[1..], matcher, handler);
      assert forall k :: 1 <= k < |routes| ==> routes[k] == routes[1..][k - 1];
      assert routes == [routes[0]] + routes[1..];
    }
  }

  /** Removing twice removes nothing more. */
  lemma {:induction false} FilteredIdempotent<M, H>(routes: seq<RouteInfo<M, H>>, matcher: M, handler: Option<H>)
    ensures Filtered(Filtered(routes, matcher, handler), matcher, handler) == Filtered(routes, matcher, handler)
  {
    if routes != [] {
      FilteredIdempotent(routes[1..], matcher, handler);
      var head := if Kept(routes[0], matcher, handler) then [routes[0]] else [];
      FilteredConcat(head, Filtered(routes[1..], matcher, handler), matcher, handler);
      assert Filtered(head, matcher, handler) == head by {
        if head != [] {
          assert head[1..] == [];
        }
      }
    }
  }

  /** Without a handler, `remove` drops every route of that matcher and
      keeps every other route. */
  lemma RemoveAllOfMatcher<M, H>(routes: seq<RouteInfo<M, H>>, matcher: M, x: RouteInfo<M, H>)
    ensures x in Filtered(routes, matcher, None) <==> x in routes && x.matcher != matcher
  {
    FilteredMembers(routes, matcher, None, x);
  }

  /** With a handler, `remove` drops exactly the routes pairing that
      matcher with that same handler; the matcher's routes with other
      handlers stay. */
  lemma RemoveOneHandler<M, H>(routes: seq<RouteInfo<M, H>>, matcher: M, handler: H, x: RouteInfo<M, H>)
    ensures x in Filtered(routes, matcher, Some(handler)) <==> x in routes && x != RouteInfo(matcher, handler)
  {
    FilteredMembers(routes, matcher, Some(handler), x);
  }

  /** Adding a route and then removing it by matcher and handler leaves
      the same routes as removing from the table before the addition. */
  lemma AddThenRemove<M, H>(routes: seq<RouteInfo<M, H>>, matcher: M, handler: H)
    ensures Filtered(routes + [RouteInfo(matcher, handler)], matcher, Some(handler)) == Filtered(routes, matcher, Some(handler))
  {
    FilteredConcat(routes, [RouteInfo(matcher, handler)], matcher, Some(handler));
    assert Filtered([RouteInfo(matcher, handler)], matcher, Some(handler)) == [];
    assert Filtered(routes, matcher, Some(handler)) + [] == Filtered(routes, matcher, Some(handler));
  }

  /** A route added last only receives requests no earlier route accepts:
      adding never changes where an already-handled URL goes. */
  lemma AddedRouteIsLast<M, H>(routes: seq<RouteInfo<M, H>>, info: RouteInfo<M, H>, url: string, test: (M, string) -> bool)
    ensures FirstMatch(routes, url, test).Some? ==> FirstMatch(routes + [info], url, test) == FirstMatch(routes, url, test)
    ensures FirstMatch(routes, url, test).None? && test(info.matcher, url) ==> FirstMatch(routes + [info], url, test) == Some(|routes|)
    ensures FirstMatch(routes, url, test).None? && !test(info.matcher, url) ==> FirstMatch(routes + [info], url, test).None?
  {
    var all := routes + [info];
    assert forall j :: 0 <= j < |routes| ==> all[j] == routes[j];
    assert all[|routes|] == info;
    FirstMatchUnique(all, url, test);
  }

  /** The first match is the only position with its two properties. */
  lemma FirstMatchUnique<M, H>(routes: seq<RouteInfo<M, H>>, url: string, test: (M, string) -> bool)
    ensures forall k :: 0 <= k < |routes| && test(routes[k].matcher, url)
                     && (forall j :: 0 <= j < k ==> !test(routes[j].matcher, url))
                     ==> FirstMatch(routes, url, test) == Some(k)
  {
  }
}

=== FILE: schema.dfy ===
/** The parsed API description (what Gson hands the generator as a JSON
    tree) and the chain of generator elements built over it, with their
    dotted schema paths and type scopes. */
module Schema {
  import opened Results
  import opened Text

  /** A "type" entry: JSON null, or an object with a "name" (the type
      expression) and, for an anonymous object type, its "properties" in
      document order (an absent "properties" entry reads as none). */
  datatype TypeDesc =
    | NullType
    | TypeObj(name: string, properties: seq<PropDesc>)

  /** One entry of "properties": its key, its own "name", its type (`typ`) and its
      "required" flag. */
  datatype PropDesc = PropDesc(key: string, name: string, typ: TypeDesc, required: bool)

  /** One entry of a method's "args". */
  datatype ParamDesc = ParamDesc(name: string, typ: TypeDesc, required: bool)

  datatype MemberKind = MethodKind | PropertyKind | EventKind | OtherKind

  /** One entry of an interface's "members". */
  datatype MemberDesc = MemberDesc(kind: MemberKind, name: string, typ: TypeDesc, args: seq<ParamDesc>, required: bool)

  /** One top-level entry of the description; `base` is its "extends". */
  datatype InterfaceDesc = InterfaceDesc(name: string, base: Option<string>, members: seq<MemberDesc>)

  /** The `jsonName` of a type entry: its "name", or "" for JSON null. */
  function TypeName(t: TypeDesc): string {
    match t
    case NullType => ""
    case TypeObj(name, _) => name
  }

  /** A generator element together with its chain of parents. Each
      constructor is one subclass of the generator's `Element`; `jsonName` is
      the "name" of the element's JSON object ("" for an enum, which has
      none). */
  datatype Element =
    | InterfaceEl(jsonName: string)
    | MethodEl(parent: Element, jsonName: string)
    | ParamEl(parent: Element, jsonName: string)
    | EventEl(parent: Element, jsonName: string)
    | FieldEl(parent: Element, jsonName: string)
    | TypeRefEl(parent: Element, jsonName: string)
    | NestedClassEl(parent: Element, jsonName: string, className: string)
    | EnumEl(parent: Element, className: string)
  {
    /** The element's `jsonName`; an enum has no JSON object of its own. */
    function JsonName(): string {
      if EnumEl? then "" else jsonName
    }

    /** Interface, NestedClass and Enum extend TypeDefinition. */
    predicate IsTypeDefinition() {
      InterfaceEl? || NestedClassEl? || EnumEl?
    }

    /** The elements that own a TypeRef. */
    predicate IsMember() {
      MethodEl? || ParamEl? || EventEl? || FieldEl?
    }

    /** The element's `jsonPath`: a TypeRef and a NestedClass reuse their
        parent's path, every other element appends "." and its name (an
        enum's name being ""). */
    function Path(): string {
      match this
      case InterfaceEl(n) => n
      case MethodEl(p, n) => p.Path() + "." + n
      case ParamEl(p, n) => p.Path() + "." + n
      case EventEl(p, n) => p.Path() + "." + n
      case FieldEl(p, n) => p.Path() + "." + n
      case TypeRefEl(p, _) => p.Path()
      case NestedClassEl(p, _, _) => p.Path()
      case EnumEl(p, _) => p.Path() + "."
    }

    /** `typeScope()`: the nearest type definition on the parent chain,
        the element itself included. */
    function TypeScope(): (r: Element)
      ensures r.IsTypeDefinition()
      ensures r.IsAncestorOf(this)
    {
      if IsTypeDefinition() then this else parent.TypeScope()
    }

    /** `this` is `e` or on `e`'s parent chain. */
    predicate IsAncestorOf(e: Element) {
      this == e || (!e.InterfaceEl? && IsAncestorOf(e.parent))
    }

    /** The names that make up the path, root first. */
    function Segments(): (r: seq<string>)
      ensures |r| > 0
    {
      match this
      case InterfaceEl(n) => [n]
      case MethodEl(p, n) => p.Segments() + [n]
      case ParamEl(p, n) => p.Segments() + [n]
      case EventEl(p, n) => p.Segments() + [n]
      case FieldEl(p, n) => p.Segments() + [n]
      case TypeRefEl(p, _) => p.Segments()
      case NestedClassEl(p, _, _) => p.Segments()
      case EnumEl(p, _) => p.Segments() + [""]
    }

    /** No name on the path-contributing chain contains a dot. */
    predicate DotFree() {
      forall i :: 0 <= i < |Segments()| ==> '.' !in Segments()[i]
    }
  }

  /** The path is the dot-joined chain of names from the root interface
      down to the element. */
  lemma {:induction false} PathIsJoinedSegments(e: Element)
    ensures e.Path() == Join(e.Segments(), ".")
  {
    match e
    case InterfaceEl(_) =>
    case MethodEl(p, n) => PathIsJoinedSegments(p); JoinSnoc(p.Segments(), n, ".");
    case ParamEl(p, n) => PathIsJoinedSegments(p); JoinSnoc(p.Segments(), n, ".");
    case EventEl(p, n) => PathIsJoinedSegments(p); JoinSnoc(p.Segments(), n, ".");
    case FieldEl(p, n) => PathIsJoinedSegments(p); JoinSnoc(p.Segments(), n, ".");
    case TypeRefEl(p, _) => PathIsJoinedSegments(p);
    case NestedClassEl(p, _, _) => PathIsJoinedSegments(p);
    case EnumEl(p, _) => PathIsJoinedSegments(p); JoinSnoc(p.Segments(), "", ".");
  }

  /** When no name holds a dot, splitting the path on dots recovers the
      chain of names: the path identifies the element's place in the tree. */
  lemma PathSplitsIntoSegments(e: Element)
    requires e.DotFree()
    ensures SplitAll(e.Path(), '.') == e.Segments()
  {
    PathIsJoinedSegments(e);
    SplitAllJoin(e.Segments(), '.');
  }

  /** Two dot-free elements with the same path have the same chain of
      names. */
  lemma SamePathSameSegments(a: Element, b: Element)
    requires a.DotFree() && b.DotFree() && a.Path() == b.Path()
    ensures a.Segments() == b.Segments()
  {
    PathSplitsIntoSegments(a);
    PathSplitsIntoSegments(b);
  }
}

=== FILE: text.dfy ===
/** The string operations of java.lang.String that the generator relies on,
    written out over seq<char>. */
module Text {
  import opened Results

  predicate StartsWith(s: string, prefix: string) {
    |prefix| <= |s| && s[..|prefix|] == prefix
  }

  /** `s.contains(sub)`. */
  predicate Contains(s: string, sub: string)
    decreases |s|
  {
    StartsWith(s, sub) || (|s| > 0 && Contains(s[1..], sub))
  }

  /** `s.replace(target, replacement)`: every non-overlapping occurrence of
      `target`, scanning left to right, is replaced. */
  function Replace(s: string, target: string, replacement: string): (r: string)
    requires |target| > 0
    decreases |s|
  {
    if |s| < |target| then s
    else if StartsWith(s, target) then replacement + Replace(s[|target|..], target, replacement)
    else [s[0]] + Replace(s[1..], target, replacement)
  }

  /** Replacing a string that does not occur changes nothing. */
  lemma {:induction false} ReplaceAbsent(s: string, target: string, replacement: string)
    requires |target| > 0 && !Contains(s, target)
    ensures Replace(s, target, replacement) == s
    decreases |s|
  {
    if |s| >= |target| {
      ReplaceAbsent(s[1..], target, replacement);
      assert [s[0]] + s[1..] == s;
    }
  }

  /** Character.toUpperCase, restricted to ASCII letters. */
  function UpperChar(c: char): (r: char)
    ensures 'a' <= c <= 'z' ==> r as int == c as int - 32
    ensures !('a' <= c <= 'z') ==> r == c
  {
    if 'a' <= c <= 'z' then (c as int - 32) as char else c
  }

  /** String.toUpperCase, restricted to ASCII letters. */
  function Upper(s: string): (r: string)
    ensures |r| == |s|
    ensures forall i :: 0 <= i < |s| ==> r[i] == UpperChar(s[i])
  {
    if s == [] then [] else [UpperChar(s[0])] + Upper(s[1..])
  }

  /** `Element.toTitle`: upper-cases the first character only; `charAt(0)`
      throws on the empty string. */
  function ToTitle(name: string): (r: Result<string>)
    ensures r.Ok? <==> |name| > 0
    ensures r.Ok? ==> |r.value| == |name| && r.value[0] == UpperChar(name[0]) && r.value[1..] == name[1..]
  {
    if |name| == 0 then Fail(StringIndexOutOfBounds(name))
    else Ok([UpperChar(name[0])] + name[1..])
  }

  /** All pieces of `s` between occurrences of `sep`, empty pieces included. */
  function SplitAll(s: string, sep: char): (r: seq<string>)
    ensures |r| > 0
    ensures forall i :: 0 <= i < |r| ==> sep !in r[i]
    decreases |s|
  {
    if s == [] then [""]
    else
      var rest := SplitAll(s[1..], sep);
      if s[0] == sep then [""] + rest
      else [[s[0]] + rest[0]] + rest[1..]
  }

  /** `String.join(sep, parts)`. */
  function Join(parts: seq<string>, sep: string): string {
    if parts == [] then ""
    else if |parts| == 1 then parts[0]
    else parts[0] + sep + Join(parts[1..], sep)
  }

  /** Appending one part to a non-empty list appends the separator and the
      part to the joined string. */
  lemma {:induction false} JoinSnoc(parts: seq<string>, last: string, sep: string)
    requires |parts| > 0
    ensures Join(parts + [last], sep) == Join(parts, sep) + sep + last
    decreases |parts|
  {
    if |parts| > 1 {
      JoinSnoc(parts[1..], last, sep);
      assert (parts + [last])[1..] == parts[1..] + [last];
    }
  }

  /** The joined string starts with the first part. */
  lemma {:induction false} JoinStartsWith(parts: seq<string>, sep: string)
    requires |parts| > 0
    ensures StartsWith(Join(parts, sep), parts[0])
  {
    if |parts| > 1 {
      assert Join(parts, sep) == parts[0] + (sep + Join(parts[1..], sep));
    }
  }

  /** Joining the pieces with the separator gives back the string. */
  lemma {:induction false} JoinSplitAll(s: string, sep: char)
    ensures Join(SplitAll(s, sep), [sep]) == s
    decreases |s|
  {
    if s != [] {
      var rest := SplitAll(s[1..], sep);
      JoinSplitAll(s[1..], sep);
      if s[0] == sep {
        assert SplitAll(s, sep) == [""] + rest;
        assert ([""] + rest)[1..] == rest;
        assert [s[0]] + s[1..] == s;
      } else {
        var r := [[s[0]] + rest[0]] + rest[1..];
        assert SplitAll(s, sep) == r;
        if |rest| == 1 {
          assert [s[0]] + rest[0] == s;
        } else {
          assert r[1..] == rest[1..];
          assert Join(rest, [sep]) == rest[0] + [sep] + Join(rest[1..], [sep]);
          assert [s[0]] + s[1..] == s;
        }
      }
    }
  }

  /** Splitting a dot-free join recovers the parts. */
  lemma {:induction false} SplitAllJoin(parts: seq<string>, sep: char)
    requires |parts| > 0
    requires forall i :: 0 <= i < |parts| ==> sep !in parts[i]
    ensures SplitAll(Join(parts, [sep]), sep) == parts
    decreases |parts|
  {
    if |parts| == 1 {
      SplitAllNoSep(parts[0], sep);
    } else {
      SplitAllJoin(parts[1..], sep);
      SplitAllConcat(parts[0], Join(parts[1..], [sep]), sep);
      assert [parts[0]] + parts[1..] == parts;
    }
  }

  lemma {:induction false} SplitAllNoSep(s: string, sep: char)
    requires sep !in s
    ensures SplitAll(s, sep) == [s]
    decreases |s|
  {
    if s != [] {
      SplitAllNoSep(s[1..], sep);
      assert [s[0]] + s[1..] == s;
    }
  }

  lemma {:induction false} SplitAllConcat(a: string, b: string, sep: char)
    requires sep !in a
    ensures SplitAll(a + [sep] + b, sep) == [a] + SplitAll(b, sep)
    decreases |a|
  {
    if a == [] {
      assert [] + [sep] + b == [sep] + b;
      assert ([sep] + b)[1..] == b;
    } else {
      SplitAllConcat(a[1..], b, sep);
      assert (a + [sep] + b)[1..] == a[1..] + [sep] + b;
      assert [a[0]] + a[1..] == a;
    }
  }

  /** Drops the empty strings at the end of a split, as String.split does. */
  function DropTrailingEmpty(parts: seq<string>): (r: seq<string>)
    ensures |r| <= |parts| && r == parts[..|r|]
    ensures r != [] ==> r[|r| - 1] != ""
    ensures forall i :: |r| <= i < |parts| ==> parts[i] == ""
  {
    if parts == [] then []
    else if parts[|parts| - 1] == "" then DropTrailingEmpty(parts[..|parts| - 1])
    else parts
  }

  /** `s.split(regex)` for a regex matching the single character `sep`:
      without a match the result is the whole string, otherwise trailing
      empty strings are removed. */
  function JavaSplit(s: string, sep: char): seq<string> {
    if sep !in s then [s] else DropTrailingEmpty(SplitAll(s, sep))
  }

  /** A string lacking one of the target's characters holds no occurrence
      of the target. */
  lemma {:induction false} NotContainsMissingChar(s: string, sub: string, c: char)
    requires c in sub && c !in s
    ensures !Contains(s, sub)
    decreases |s|
  {
    if |s| > 0 {
      NotContainsMissingChar(s[1..], sub, c);
    }
  }

  lemma {:induction false} ContainsAt(s: string, sub: string, i: nat)
    requires i + |sub| <= |s| && s[i..i + |sub|] == sub
    ensures Contains(s, sub)
    decreases i
  {
    if i > 0 {
      assert s[1..][i - 1..i - 1 + |sub|] == sub;
      ContainsAt(s[1..], sub, i - 1);
    }
  }

  /** Replacement leaves alone a prefix at none of whose positions the
      target starts. */
  lemma {:induction false} ReplaceSkipsPrefix(a: string, b: string, target: string, replacement: string)
    requires |target| > 0
    requires forall i :: 0 <= i < |a| ==> !StartsWith((a + b)[i..], target)
    ensures Replace(a + b, target, replacement) == a + Replace(b, target, replacement)
    decreases |a|
  {
    if a == [] {
      assert a + b == b;
    } else {
      var s := a + b;
      if |s| < |target| {
        ReplaceShort(b, target, replacement);
        ReplaceShort(s, target, replacement);
      } else {
        assert s[0..] == s;
        assert !StartsWith(s, target);
        assert s[1..] == a[1..] + b;
        forall i | 0 <= i < |a[1..]|
          ensures !StartsWith((a[1..] + b)[i..], target)
        {
          assert (a[1..] + b)[i..] == s[i + 1..];
        }
        ReplaceSkipsPrefix(a[1..], b, target, replacement);
        calc {
          Replace(s, target, replacement);
          [s[0]] + Replace(s[1..], target, replacement);
          [a[0]] + (a[1..] + Replace(b, target, replacement));
          { assert [a[0]] + a[1..] == a; }
          a + Replace(b, target, replacement);
        }
      }
    }
  }

  lemma ReplaceShort(s: string, target: string, replacement: string)
    requires 0 < |target| && |s| < |target|
    ensures Replace(s, target, replacement) == s
  {
  }

  /** A string lacking one of the target's characters is left unchanged. */
  lemma ReplaceMissingChar(s: string, target: string, replacement: string, c: char)
    requires c in target && c !in s
    ensures Replace(s, target, replacement) == s
  {
    NotContainsMissingChar(s, target, c);
    ReplaceAbsent(s, target, replacement);
  }

  /** A replacement cannot reach across a character that occurs nowhere in
      the target: the two sides are replaced separately, and the right side
      keeps its first character. */
  lemma {:induction false} ReplaceSplits(a: string, b: string, target: string, replacement: string)
    requires |target| > 0 && |b| > 0 && b[0] !in target
    ensures Replace(a + b, target, replacement) == Replace(a, target, replacement) + Replace(b, target, replacement)
    ensures |Replace(b, target, replacement)| > 0 && Replace(b, target, replacement)[0] == b[0]
    decreases |a|
  {
    if |b| >= |target| {
      assert b[0] != target[0];
      assert !StartsWith(b, target);
    }
    if a != [] {
      var s := a + b;
      assert s[|a|] == b[0];
      if |s| >= |target| && StartsWith(s, target) {
        if |target| > |a| {
          assert false;
        }
        assert a[..|target|] == target;
        assert s[|target|..] == a[|target|..] + b;
        ReplaceSplits(a[|target|..], b, target, replacement);
      } else if |s| >= |target| {
        assert s[1..] == a[1..] + b;
        ReplaceSplits(a[1..], b, target, replacement);
        if |a| >= |target| {
          assert a[..|target|] == s[..|target|];
        } else {
          ReplaceShort(a[1..], target, replacement);
        }
      } else {
        ReplaceShort(a, target, replacement);
        ReplaceShort(b, target, replacement);
      }
    } else {
      assert a + b == b;
    }
  }

  /** A prefix holding no first character of the target is left alone. */
  lemma ReplaceSkipsNoStart(a: string, b: string, target: string, replacement: string)
    requires |target| > 0 && target[0] !in a
    ensures Replace(a + b, target, replacement) == a + Replace(b, target, replacement)
  {
    forall i | 0 <= i < |a| ensures !StartsWith((a + b)[i..], target) {
      assert (a + b)[i..][0] == a[i];
    }
    ReplaceSkipsPrefix(a, b, target, replacement);
  }

  /** Replacing a character by a character works position by position. */
  lemma {:induction false} ReplaceCharPointwise(s: string, c: char, d: char)
    ensures |Replace(s, [c], [d])| == |s|
    ensures forall i :: 0 <= i < |s| ==> Replace(s, [c], [d])[i] == if s[i] == c then d else s[i]
    decreases |s|
  {
    if |s| >= 1 {
      ReplaceCharPointwise(s[1..], c, d);
      var r := Replace(s, [c], [d]);
      if StartsWith(s, [c]) {
        assert r == [d] + Replace(s[1..], [c], [d]);
      } else {
        assert s[..1] == [s[0]];
        assert r == [s[0]] + Replace(s[1..], [c], [d]);
      }
      assert forall i :: 1 <= i < |s| ==> s[i] == s[1..][i - 1];
    }
  }
}

=== FILE: type_emitter.dfy ===
/** How the type definitions are written out as Java: enums, nested
    classes with their fields, getters and builder methods, and the
    interface around them with its event enum and its `extends` clause.
    Like the method writer, each writer returns the lines it appends, or
    the failure that would abort the run. */
module TypeEmitter {
  import opened Results
  import opened Text
  import opened Schema
  import opened TypeResolution
  import opened Definitions
  import opened MethodEmitter

  /** Every line is empty or starts with `offset`. */
  predicate UnderOffset(lines: seq<string>, offset: string) {
    forall k :: 0 <= k < |lines| ==> lines[k] == "" || StartsWith(lines[k], offset)
  }

  function UnderOffsetLine(offset: string): string -> bool {
    line => line == "" || StartsWith(line, offset)
  }

  lemma StartsWithConcat(a: string, b: string)
    ensures StartsWith(a + b, a)
  {
    assert (a + b)[..|a|] == a;
  }

  lemma EveryConcatStartsWith(a: string)
    ensures forall b :: StartsWith(a + b, a)
  {
    forall b ensures StartsWith(a + b, a) {
      StartsWithConcat(a, b);
    }
  }

  /** A line that starts with a longer prefix starts with its head. */
  lemma StartsWithShorter(s: string, a: string, b: string)
    requires StartsWith(s, a + b)
    ensures StartsWith(s, a)
  {
    assert s[..|a|] == (a + b)[..|a|];
  }

  lemma IndentedUnderOffset(offset: string, lines: seq<string>)
    ensures UnderOffset(Indented(offset, lines), offset)
  {
    forall k | 0 <= k < |lines| ensures StartsWith(Indented(offset, lines)[k], offset) {
      StartsWithConcat(offset, lines[k]);
    }
  }

  /** Lines under a deeper offset are under the shallower one. */
  lemma UnderDeeperOffset(lines: seq<string>, offset: string, more: string)
    requires UnderOffset(lines, offset + more)
    ensures UnderOffset(lines, offset)
  {
    forall k | 0 <= k < |lines| && lines[k] != "" ensures StartsWith(lines[k], offset) {
      StartsWithShorter(lines[k], offset, more);
    }
  }

  lemma UnderOffsetConcat(a: seq<string>, b: seq<string>, offset: string)
    requires UnderOffset(a, offset) && UnderOffset(b, offset)
    ensures UnderOffset(a + b, offset)
  {
    forall k | |a| <= k < |a + b| ensures (a + b)[k] == b[k - |a|] { }
  }

  /** The loop `for (x : xs) write(x)`, one item at a time. */
  method WriteEach<T>(xs: seq<T>, f: T -> Result<seq<string>>) returns (r: Result<seq<string>>)
    ensures r == ConcatAll(xs, f)
  {
    var output: seq<string> := [];
    var i := 0;
    while i < |xs|
      invariant 0 <= i <= |xs|
      invariant ConcatAll(xs[..i], f) == Ok(output)
    {
      var lines := f(xs[i]);
      ConcatAllSnoc(xs, i, f);
      if lines.Fail? {
        return Fail(lines.error);
      }
      output := output + lines.value;
      i := i + 1;
    }
    assert xs[..i] == xs;
    return Ok(output);
  }

  // ---------------------------------------------------------------------
  // Field

  /** The `url` option of `waitForNavigation`, written as three fields. */
  predicate IsUrlOption(path: string) {
    Contains(path, "Frame.waitForNavigation.options.url") || Contains(path, "Page.waitForNavigation.options.url")
  }

  /** The `polling` option of `waitForFunction`, written as an interval. */
  predicate IsPollingOption(path: string) {
    Contains(path, "Frame.waitForFunction.options.polling") || Contains(path, "Page.waitForFunction.options.polling")
  }

  predicate IsHandWritten(f: FieldDef) {
    IsUrlOption(f.elem.Path()) || IsPollingOption(f.elem.Path())
  }

  const UrlFieldText: seq<string> := [
    "public String glob;",
    "public Pattern pattern;",
    "public Predicate<String> predicate;"]

  const PollingFieldText: seq<string> := ["public Integer pollingInterval;"]

  /** `Field.writeTo`: the hand-written fields of the two special options
      (whose type is then never rendered), otherwise one declaration. */
  function FieldLines(f: FieldDef, offset: string, access: string): Result<seq<string>> {
    var path := f.elem.Path();
    if IsUrlOption(path) then Ok(Indented(offset, UrlFieldText))
    else if IsPollingOption(path) then Ok(Indented(offset, PollingFieldText))
    else
      var t :- ToJava(f.typeRef);
      Ok([offset + access + t + " " + f.name + ";"])
  }

  function FieldWriter(offset: string, access: string): FieldDef -> Result<seq<string>> {
    f => FieldLines(f, offset, access)
  }

  /** A hand-written field is written whatever its type; any other field
      is one declaration of its Java type and name, and fails exactly when
      its type does not render. */
  lemma FieldDeclaration(f: FieldDef, offset: string, access: string)
    ensures IsHandWritten(f) ==> FieldLines(f, offset, access).Ok?
    ensures !IsHandWritten(f) ==> (FieldLines(f, offset, access).Ok? <==> ToJava(f.typeRef).Ok?)
    ensures !IsHandWritten(f) && ToJava(f.typeRef).Ok? ==>
      FieldLines(f, offset, access).value == [offset + access + ToJava(f.typeRef).value + " " + f.name + ";"]
    ensures FieldLines(f, offset, access).Ok? ==> UnderOffset(FieldLines(f, offset, access).value, offset)
  {
    IndentedUnderOffset(offset, UrlFieldText);
    IndentedUnderOffset(offset, PollingFieldText);
    if !IsHandWritten(f) && ToJava(f.typeRef).Ok? {
      var t := ToJava(f.typeRef).value;
      StartsWithConcat(offset, access + t + " " + f.name + ";");
      assert offset + access + t + " " + f.name + ";" == offset + (access + t + " " + f.name + ";");
    }
  }

  /** `Field.writeGetter`. */
  function GetterLines(f: FieldDef, offset: string): Result<seq<string>> {
    var t :- ToJava(f.typeRef);
    Ok([offset + "public " + t + " " + f.name + "() {",
        offset + "  return this." + f.name + ";",
        offset + "}"])
  }

  function GetterWriter(offset: string): FieldDef -> Result<seq<string>> {
    f => GetterLines(f, offset)
  }

  /** A getter is a three-line method named after the field that returns
      the field; it fails exactly when the field's type does not render. */
  lemma GetterReturnsField(f: FieldDef, offset: string)
    ensures GetterLines(f, offset).Ok? <==> ToJava(f.typeRef).Ok?
    ensures GetterLines(f, offset).Ok? ==>
      var lines := GetterLines(f, offset).value;
      && |lines| == 3
      && StartsWith(lines[0], offset + "public " + ToJava(f.typeRef).value + " " + f.name + "()")
      && lines[1] == offset + "  return this." + f.name + ";"
      && lines[2] == offset + "}"
      && UnderOffset(lines, offset)
  {
    if ToJava(f.typeRef).Ok? {
      var t := ToJava(f.typeRef).value;
      var head := offset + "public " + t + " " + f.name + "()";
      StartsWithConcat(head, " {");
      StartsWithConcat(offset, "public " + t + " " + f.name + "() {");
      assert offset + "public " + t + " " + f.name + "() {" == offset + ("public " + t + " " + f.name + "() {");
      StartsWithConcat(offset, "  return this." + f.name + ";");
      assert offset + "  return this." + f.name + ";" == offset + ("  return this." + f.name + ";");
      StartsWithConcat(offset, "}");
    }
  }

  const UrlBuilderText: seq<string> := [
    "public WaitForNavigationOptions withUrl(String glob) {",
    "  this.glob = glob;",
    "  return this;",
    "}",
    "public WaitForNavigationOptions withUrl(Pattern pattern) {",
    "  this.pattern = pattern;",
    "  return this;",
    "}",
    "public WaitForNavigationOptions withUrl(Predicate<String> predicate) {",
    "  this.predicate = predicate;",
    "  return this;",
    "}"]

  const PollingBuilderText: seq<string> := [
    "public WaitForFunctionOptions withRequestAnimationFrame() {",
    "  this.pollingInterval = null;",
    "  return this;",
    "}",
    "public WaitForFunctionOptions withPollingInterval(int millis) {",
    "  this.pollingInterval = millis;",
    "  return this;",
    "}"]

  const PostDataBuilderText: seq<string> := [
    "public ContinueOverrides withPostData(String postData) {",
    "  this.postData = postData.getBytes(StandardCharsets.UTF_8);",
    "  return this;",
    "}"]

  const PostDataPath := "Route.continue.overrides.postData"

  /** `Field.writeBuilderMethod`: the hand-written builders of the two
      special options; otherwise the extra `String` overload of `postData`
      (which falls through to the ordinary builder) and the builder chosen
      by the field's name and type, closed by `}`. */
  function BuilderLines(f: FieldDef, offset: string, parentClass: string): Result<seq<string>> {
    var path := f.elem.Path();
    if IsUrlOption(path) then Ok(Indented(offset, UrlBuilderText))
    else if IsPollingOption(path) then Ok(Indented(offset, PollingBuilderText))
    else
      var postData := if path == PostDataPath then Indented(offset, PostDataBuilderText) else [];
      var setter :- SetterLines(f, offset, parentClass);
      Ok(postData + setter + [offset + "}"])
  }

  function BuilderWriter(offset: string, parentClass: string): FieldDef -> Result<seq<string>> {
    f => BuilderLines(f, offset, parentClass)
  }

  /** The head of a fluent builder method `with<Title>(params)` of the
      class `parentClass`. */
  function WithHead(offset: string, parentClass: string, title: string, params: string): string {
    offset + "public " + parentClass + " with" + title + "(" + params + ") {"
  }

  /** The head of the method `set<Title>()` that creates a nested object. */
  function SetHead(offset: string, t: string, title: string): string {
    offset + "public " + t + " set" + title + "() {"
  }

  lemma StartsWithExtend(s: string, a: string, b: string)
    requires StartsWith(s, a)
    ensures StartsWith(s + b, a)
  {
    assert (s + b)[..|a|] == s[..|a|];
  }

  lemma WithHeadStarts(offset: string, parentClass: string, title: string, params: string)
    ensures StartsWith(WithHead(offset, parentClass, title, params), offset + "public " + parentClass + " with")
    ensures StartsWith(WithHead(offset, parentClass, title, params), offset)
  {
    var p := offset + "public " + parentClass + " with";
    StartsWithConcat(offset, "public ");
    StartsWithExtend(offset + "public ", offset, parentClass);
    StartsWithExtend(offset + "public " + parentClass, offset, " with");
    StartsWithConcat(p, title);
    StartsWithExtend(p + title, p, "(");
    StartsWithExtend(p + title + "(", p, params);
    StartsWithExtend(p + title + "(" + params, p, ") {");
    StartsWithTrans(WithHead(offset, parentClass, title, params), p, offset);
  }

  lemma SetHeadStarts(offset: string, t: string, title: string)
    ensures StartsWith(SetHead(offset, t, title), offset + "public " + t + " set")
    ensures StartsWith(SetHead(offset, t, title), offset)
  {
    var p := offset + "public " + t + " set";
    StartsWithConcat(p, title);
    StartsWithExtend(p + title, p, "() {");
    StartsWithConcat(offset, "public ");
    StartsWithExtend(offset + "public ", offset, t);
    StartsWithExtend(offset + "public " + t, offset, " set");
    StartsWithTrans(SetHead(offset, t, title), p, offset);
  }

  lemma StartsWithTrans(s: string, p: string, q: string)
    requires StartsWith(s, p) && StartsWith(p, q)
    ensures StartsWith(s, q)
  {
    assert s[..|q|] == p[..|q|];
  }

  /** The three lines before the closing brace of an ordinary builder,
      given the field's name, whether its type is a nested class, its
      rendered type `t` and its title-cased name. */
  function Setter(offset: string, parentClass: string, name: string, isNested: bool, t: string, title: string)
    : seq<string>
  {
    if name == "httpCredentials" then
      [WithHead(offset, parentClass, title, "String username, String password"),
       offset + ("  this." + name + " = new " + t + "(username, password);"),
       offset + "  return this;"]
    else if isNested then
      [SetHead(offset, t, title),
       offset + ("  this." + name + " = new " + t + "();"),
       offset + ("  return this." + name + ";")]
    else if t == "Page.Viewport" || t == "Viewport" then
      [WithHead(offset, parentClass, title, "int width, int height"),
       offset + ("  this." + name + " = new " + t + "(width, height);"),
       offset + "  return this;"]
    else if t == "Set<Keyboard.Modifier>" then
      [WithHead(offset, parentClass, title, "Keyboard.Modifier... modifiers"),
       offset + ("  this." + name + " = new HashSet<>(Arrays.asList(modifiers));"),
       offset + "  return this;"]
    else
      [WithHead(offset, parentClass, title, t + " " + name),
       offset + ("  this." + name + " = " + name + ";"),
       offset + "  return this;"]
  }

  /** The setter of a field. The generator tests `httpCredentials` first
      and title-cases the name before rendering the type; in every other
      case it renders the type first (the nested-class builder's first
      line, and the Viewport test). */
  function SetterLines(f: FieldDef, offset: string, parentClass: string): Result<seq<string>> {
    if f.name == "httpCredentials" then
      var title :- ToTitle(f.name);
      var t :- ToJava(f.typeRef);
      Ok(Setter(offset, parentClass, f.name, f.typeRef.isNestedClass, t, title))
    else
      var t :- ToJava(f.typeRef);
      var title :- ToTitle(f.name);
      Ok(Setter(offset, parentClass, f.name, f.typeRef.isNestedClass, t, title))
  }

  /** A builder of an ordinary field fails exactly when its type does not
      render or its name is empty; it is one method (two for `postData`)
      closed by `}`. A field of a nested class type gets a `set` method
      returning the new nested object; every other field gets a fluent
      `with` method of the enclosing class that returns the builder. */
  lemma BuilderShape(f: FieldDef, offset: string, parentClass: string)
    requires !IsHandWritten(f)
    ensures BuilderLines(f, offset, parentClass).Ok? <==> ToJava(f.typeRef).Ok? && |f.name| > 0
    ensures BuilderLines(f, offset, parentClass).Ok? ==>
      var lines := BuilderLines(f, offset, parentClass).value;
      var n := |lines|;
      && n == (if f.elem.Path() == PostDataPath then 8 else 4)
      && (f.elem.Path() == PostDataPath ==> lines[..4] == Indented(offset, PostDataBuilderText))
      && lines[n - 1] == offset + "}"
      && (f.typeRef.isNestedClass && f.name != "httpCredentials" ==>
            && StartsWith(lines[n - 4], offset + "public " + ToJava(f.typeRef).value + " set")
            && lines[n - 2] == offset + ("  return this." + f.name + ";"))
      && (!f.typeRef.isNestedClass || f.name == "httpCredentials" ==>
            && StartsWith(lines[n - 4], offset + "public " + parentClass + " with")
            && lines[n - 2] == offset + "  return this;")
  {
    SetterOk(f, offset, parentClass);
    if SetterLines(f, offset, parentClass).Ok? {
      var t, title := ToJava(f.typeRef).value, ToTitle(f.name).value;
      var setter := Setter(offset, parentClass, f.name, f.typeRef.isNestedClass, t, title);
      SetterShape(offset, parentClass, f.name, f.typeRef.isNestedClass, t, title);
      BuilderLength(f, offset, parentClass, setter);
      BuilderHeadIsSetterHead(f, offset, parentClass, setter);
      BuilderReturnIsSetterReturn(f, offset, parentClass, setter);
      if f.elem.Path() == PostDataPath {
        PostDataOverloadLeads(f, offset, parentClass, setter);
        LeadingLines(Indented(offset, PostDataBuilderText), setter, [offset + "}"]);
      }
    }
  }

  /** Around the three setter lines: the `postData` overload before, `}`
      after. */
  lemma BuilderLength(f: FieldDef, offset: string, parentClass: string, setter: seq<string>)
    requires !IsHandWritten(f)
    requires SetterLines(f, offset, parentClass) == Ok(setter) && |setter| == 3
    ensures BuilderLines(f, offset, parentClass).Ok?
    ensures |BuilderLines(f, offset, parentClass).value| == (if f.elem.Path() == PostDataPath then 8 else 4)
    ensures BuilderLines(f, offset, parentClass).value[|BuilderLines(f, offset, parentClass).value| - 1] == offset + "}"
  {
  }

  lemma BuilderHeadIsSetterHead(f: FieldDef, offset: string, parentClass: string, setter: seq<string>)
    requires !IsHandWritten(f)
    requires SetterLines(f, offset, parentClass) == Ok(setter) && |setter| == 3
    ensures BuilderLines(f, offset, parentClass).Ok?
    ensures |BuilderLines(f, offset, parentClass).value| >= 4
    ensures BuilderLines(f, offset, parentClass).value[|BuilderLines(f, offset, parentClass).value| - 4] == setter[0]
  {
  }

  lemma BuilderReturnIsSetterReturn(f: FieldDef, offset: string, parentClass: string, setter: seq<string>)
    requires !IsHandWritten(f)
    requires SetterLines(f, offset, parentClass) == Ok(setter) && |setter| == 3
    ensures BuilderLines(f, offset, parentClass).Ok?
    ensures |BuilderLines(f, offset, parentClass).value| >= 4
    ensures BuilderLines(f, offset, parentClass).value[|BuilderLines(f, offset, parentClass).value| - 2] == setter[2]
  {
  }

  /** The setter fails exactly on an unrenderable type or an empty name
      (`httpCredentials` is never empty). */
  lemma SetterOk(f: FieldDef, offset: string, parentClass: string)
    ensures SetterLines(f, offset, parentClass).Ok? <==> ToJava(f.typeRef).Ok? && |f.name| > 0
    ensures SetterLines(f, offset, parentClass).Ok? ==>
      SetterLines(f, offset, parentClass).value ==
        Setter(offset, parentClass, f.name, f.typeRef.isNestedClass, ToJava(f.typeRef).value, ToTitle(f.name).value)
  {
  }

  /** Each setter is a method head, one assignment and a return: of the
      new nested object for a nested class type, of the builder otherwise;
      every line is indented by the offset. */
  lemma SetterShape(offset: string, parentClass: string, name: string, isNested: bool, t: string, title: string)
    ensures UnderOffset(Setter(offset, parentClass, name, isNested, t, title), offset)
    ensures var lines := Setter(offset, parentClass, name, isNested, t, title);
      && |lines| == 3
      && (isNested && name != "httpCredentials" ==>
            && StartsWith(lines[0], offset + "public " + t + " set")
            && lines[2] == offset + ("  return this." + name + ";"))
      && (!isNested || name == "httpCredentials" ==>
            && StartsWith(lines[0], offset + "public " + parentClass + " with")
            && lines[2] == offset + "  return this;")
  {
    SetHeadStarts(offset, t, title);
    WithHeadStarts(offset, parentClass, title, "String username, String password");
    WithHeadStarts(offset, parentClass, title, "int width, int height");
    WithHeadStarts(offset, parentClass, title, "Keyboard.Modifier... modifiers");
    WithHeadStarts(offset, parentClass, title, t + " " + name);
    SetterIndented(offset, parentClass, name, isNested, t, title);
  }

  lemma SetterIndented(offset: string, parentClass: string, name: string, isNested: bool, t: string, title: string)
    ensures UnderOffset(Setter(offset, parentClass, name, isNested, t, title), offset)
  {
    SetHeadStarts(offset, t, title);
    WithHeadStarts(offset, parentClass, title, "String username, String password");
    WithHeadStarts(offset, parentClass, title, "int width, int height");
    WithHeadStarts(offset, parentClass, title, "Keyboard.Modifier... modifiers");
    WithHeadStarts(offset, parentClass, title, t + " " + name);
    EveryConcatStartsWith(offset);
  }

  /** Every line of a builder is indented by the offset. */
  lemma BuilderIndented(f: FieldDef, offset: string, parentClass: string)
    requires BuilderLines(f, offset, parentClass).Ok?
    ensures UnderOffset(BuilderLines(f, offset, parentClass).value, offset)
  {
    if IsHandWritten(f) {
      IndentedUnderOffset(offset, UrlBuilderText);
      IndentedUnderOffset(offset, PollingBuilderText);
    } else {
      SetterOk(f, offset, parentClass);
      var t, title := ToJava(f.typeRef).value, ToTitle(f.name).value;
      SetterIndented(offset, parentClass, f.name, f.typeRef.isNestedClass, t, title);
      OrdinaryBuilderIndented(f, offset, parentClass, Setter(offset, parentClass, f.name, f.typeRef.isNestedClass, t, title));
    }
  }

  lemma PostDataOverloadLeads(f: FieldDef, offset: string, parentClass: string, setter: seq<string>)
    requires !IsHandWritten(f) && f.elem.Path() == PostDataPath
    requires SetterLines(f, offset, parentClass) == Ok(setter)
    ensures BuilderLines(f, offset, parentClass) == Ok(Indented(offset, PostDataBuilderText) + setter + [offset + "}"])
  {
    OrdinaryBuilder(f, offset, parentClass, setter);
  }
  lemma LeadingLines(lead: seq<string>, middle: seq<string>, rest: seq<string>)
    requires |lead| == 4
    ensures (lead + middle + rest)[..4] == lead
  {
  }
  lemma OrdinaryBuilderIndented(f: FieldDef, offset: string, parentClass: string, setter: seq<string>)
    requires !IsHandWritten(f)
    requires SetterLines(f, offset, parentClass) == Ok(setter) && UnderOffset(setter, offset)
    ensures BuilderLines(f, offset, parentClass).Ok?
    ensures UnderOffset(BuilderLines(f, offset, parentClass).value, offset)
  {
    IndentedUnderOffset(offset, PostDataBuilderText);
    var post := if f.elem.Path() == PostDataPath then Indented(offset, PostDataBuilderText) else [];
    ClosedUnderOffset(post, setter, offset);
    OrdinaryBuilder(f, offset, parentClass, setter);
  }

  /** An ordinary field's builder: the `postData` overload if any, the
      setter, and the closing brace. */
  lemma OrdinaryBuilder(f: FieldDef, offset: string, parentClass: string, setter: seq<string>)
    requires !IsHandWritten(f)
    requires SetterLines(f, offset, parentClass) == Ok(setter)
    ensures BuilderLines(f, offset, parentClass)
      == Ok((if f.elem.Path() == PostDataPath then Indented(offset, PostDataBuilderText) else []) + setter + [offset + "}"])
  {
  }

  lemma ClosedUnderOffset(post: seq<string>, setter: seq<string>, offset: string)
    requires UnderOffset(post, offset) && UnderOffset(setter, offset)
    ensures UnderOffset(post + setter + [offset + "}"], offset)
  {
    StartsWithConcat(offset, "}");
    UnderOffsetConcat(post, setter, offset);
    UnderOffsetConcat(post + setter, [offset + "}"], offset);
  }

  // ---------------------------------------------------------------------
  // Enum

  /** `parent.typeScope() instanceof NestedClass`: the element's parent
      lies inside a nested class. */
  predicate InNestedClass(e: Element) {
    !e.InterfaceEl? && e.parent.TypeScope().NestedClassEl?
  }

  /** `Enum.writeTo`: one line listing the values; the enum is public
      inside a nested class. */
  function EnumLine(e: EnumDef, offset: string): string {
    offset + ((if e.scope.TypeScope().NestedClassEl? then "public " else "") +
              "enum " + e.name + " { " + Join(e.values, ", ") + " }")
  }

  function EnumLines(enums: seq<EnumDef>, offset: string): (r: seq<string>)
    ensures |r| == |enums| && forall i :: 0 <= i < |enums| ==> r[i] == EnumLine(enums[i], offset)
  {
    seq(|enums|, i requires 0 <= i < |enums| => EnumLine(enums[i], offset))
  }

  /** An enum line is indented by the offset and starts with `public`
      exactly when the enum is declared inside a nested class. */
  lemma EnumPublicInsideClass(e: EnumDef, offset: string)
    ensures StartsWith(EnumLine(e, offset), offset)
    ensures StartsWith(EnumLine(e, offset), offset + "public ") <==> e.scope.TypeScope().NestedClassEl?
  {
    var line := EnumLine(e, offset);
    var rest := line[|offset|..];
    assert line == offset + rest;
    StartsWithConcat(offset, rest);
    if e.scope.TypeScope().NestedClassEl? {
      StartsWithConcat("public ", rest[7..]);
      assert rest == "public " + rest[7..];
      assert (offset + "public ") + rest[7..] == offset + rest;
      StartsWithConcat(offset + "public ", rest[7..]);
    } else {
      assert line[|offset|] == 'e';
      assert (offset + "public ")[|offset|] == 'p';
    }
  }

  // ---------------------------------------------------------------------
  // NestedClass and TypeDefinition.writeTo

  /** `parent.parent instanceof Method`: the class was synthesized for a
      method's return type. */
  predicate IsReturnType(e: Element) {
    !e.InterfaceEl? && !e.parent.InterfaceEl? && e.parent.parent.MethodEl?
  }

  function ClassHead(c: ClassDef, offset: string): string {
    offset + ((if InNestedClass(c.elem) then "public " else "") + "class " + c.name + " {")
  }

  /** The constructor and the `done()` method that returns to the
      enclosing builder `outer`. */
  function DoneLines(body: string, name: string, outer: string): seq<string> {
    [body + (name + "() {"),
     body + "}",
     body + ("public " + outer + " done() {"),
     body + ("  return " + outer + ".this;"),
     body + "}",
     ""]
  }

  /** `NestedClass.writeBuilderMethods`: inside another nested class, a
      constructor and `done()`; then each field's builder. */
  function BuilderMethodsLines(c: ClassDef, body: string): Result<seq<string>> {
    var outer := if InNestedClass(c.elem) then DoneLines(body, c.name, c.elem.parent.TypeScope().className) else [];
    var builders :- ConcatAll(c.fields, BuilderWriter(body, c.name));
    Ok(outer + builders)
  }

  /** `NestedClass.writeTo`: the class head, the enums and classes of its
      own scope, the fields (private for a method's return type, public
      otherwise), a blank line, then getters for a return type or builder
      methods otherwise, and the closing brace. The body is indented two
      more spaces. */
  function ClassLines(c: ClassDef, offset: string): Result<seq<string>>
    decreases c, 2
  {
    var body := offset + "  ";
    var scope :- ScopeLines(c.enums, c.classes, body);
    var fields :- ConcatAll(c.fields, FieldWriter(body, if IsReturnType(c.elem) then "private " else "public "));
    var tail :- if IsReturnType(c.elem) then ConcatAll(c.fields, GetterWriter(body)) else BuilderMethodsLines(c, body);
    Ok([ClassHead(c, offset)] + scope + fields + [""] + tail + [offset + "}"])
  }

  /** `TypeDefinition.writeTo`: the enums, then the nested classes, each
      in registration order. */
  function ScopeLines(enums: seq<EnumDef>, classes: seq<ClassDef>, offset: string): Result<seq<string>>
    decreases classes, 1
  {
    var cs :- ClassesLines(classes, offset);
    Ok(EnumLines(enums, offset) + cs)
  }

  function ClassesLines(classes: seq<ClassDef>, offset: string): Result<seq<string>>
    decreases classes, 0
  {
    if classes == [] then Ok([]) else Then(ClassLines(classes[0], offset), ClassesLines(classes[1..], offset))
  }

  function ClassWriter(offset: string): ClassDef -> Result<seq<string>> {
    c => ClassLines(c, offset)
  }

  lemma {:induction false} ClassesLinesIsConcatAll(classes: seq<ClassDef>, offset: string)
    ensures ClassesLines(classes, offset) == ConcatAll(classes, ClassWriter(offset))
  {
    if classes != [] {
      ClassesLinesIsConcatAll(classes[1..], offset);
    }
  }

  /** `NestedClass.writeBuilderMethods`. */
  method WriteBuilderMethods(c: ClassDef, body: string) returns (r: Result<seq<string>>)
    ensures r == BuilderMethodsLines(c, body)
  {
    var output: seq<string> := [];
    if InNestedClass(c.elem) {
      var outer := c.elem.parent.TypeScope();
      output := DoneLines(body, c.name, outer.className);
    }
    var builders := WriteEach(c.fields, BuilderWriter(body, c.name));
    if builders.Fail? {
      return Fail(builders.error);
    }
    return Ok(output + builders.value);
  }

  /** `NestedClass.writeTo`. */
  method WriteClass(c: ClassDef, offset: string) returns (r: Result<seq<string>>)
    ensures r == ClassLines(c, offset)
    decreases c, 2
  {
    var output := [ClassHead(c, offset)];
    var body := offset + "  ";
    var scope := WriteScope(c.enums, c.classes, body);
    if scope.Fail? {
      return Fail(scope.error);
    }
    output := output + scope.value;
    var isReturnType := IsReturnType(c.elem);
    var fieldAccess := if isReturnType then "private " else "public ";
    var fields := WriteEach(c.fields, FieldWriter(body, fieldAccess));
    if fields.Fail? {
      return Fail(fields.error);
    }
    output := output + fields.value + [""];
    var tail: Result<seq<string>>;
    if isReturnType {
      tail := WriteEach(c.fields, GetterWriter(body));
    } else {
      tail := WriteBuilderMethods(c, body);
    }
    if tail.Fail? {
      return Fail(tail.error);
    }
    output := output + tail.value + [offset + "}"];
    return Ok(output);
  }

  /** `TypeDefinition.writeTo`: a loop over the enums, then one over the
      nested classes. */
  method WriteScope(enums: seq<EnumDef>, classes: seq<ClassDef>, offset: string) returns (r: Result<seq<string>>)
    ensures r == ScopeLines(enums, classes, offset)
    decreases classes, 1
  {
    var output: seq<string> := [];
    for j := 0 to |enums|
      invariant output == EnumLines(enums, offset)[..j]
    {
      assert EnumLines(enums, offset)[..j + 1] == EnumLines(enums, offset)[..j] + [EnumLine(enums[j], offset)];
      output := output + [EnumLine(enums[j], offset)];
    }
    assert EnumLines(enums, offset)[..|enums|] == EnumLines(enums, offset);
    ClassesLinesIsConcatAll(classes, offset);
    var written: seq<string> := [];
    for j := 0 to |classes|
      invariant ConcatAll(classes[..j], ClassWriter(offset)) == Ok(written)
    {
      var lines := WriteClass(classes[j], offset);
      ConcatAllSnoc(classes, j, ClassWriter(offset));
      if lines.Fail? {
        return Fail(lines.error);
      }
      written := written + lines.value;
    }
    assert classes[..|classes|] == classes;
    return Ok(output + written);
  }

  // Indentation: the body of a class is two spaces deeper than its head.

  lemma ConcatAllUnderOffset<T>(xs: seq<T>, f: T -> Result<seq<string>>, offset: string)
    requires forall i :: 0 <= i < |xs| && f(xs[i]).Ok? ==> UnderOffset(f(xs[i]).value, offset)
    requires ConcatAll(xs, f).Ok?
    ensures UnderOffset(ConcatAll(xs, f).value, offset)
  {
    var p := UnderOffsetLine(offset);
    forall i, k | 0 <= i < |xs| && f(xs[i]).Ok? && 0 <= k < |f(xs[i]).value|
      ensures p(f(xs[i]).value[k])
    {
    }
    ConcatAllEach(xs, f, p);
  }

  lemma FieldsIndented(fields: seq<FieldDef>, body: string, access: string)
    requires ConcatAll(fields, FieldWriter(body, access)).Ok?
    ensures UnderOffset(ConcatAll(fields, FieldWriter(body, access)).value, body)
  {
    forall i | 0 <= i < |fields| && FieldWriter(body, access)(fields[i]).Ok?
      ensures UnderOffset(FieldWriter(body, access)(fields[i]).value, body)
    {
      FieldDeclaration(fields[i], body, access);
    }
    ConcatAllUnderOffset(fields, FieldWriter(body, access), body);
  }

  lemma GettersIndented(fields: seq<FieldDef>, body: string)
    requires ConcatAll(fields, GetterWriter(body)).Ok?
    ensures UnderOffset(ConcatAll(fields, GetterWriter(body)).value, body)
  {
    forall i | 0 <= i < |fields| && GetterWriter(body)(fields[i]).Ok?
      ensures UnderOffset(GetterWriter(body)(fields[i]).value, body)
    {
      GetterReturnsField(fields[i], body);
    }
    ConcatAllUnderOffset(fields, GetterWriter(body), body);
  }

  lemma BuilderMethodsIndented(c: ClassDef, body: string)
    requires BuilderMethodsLines(c, body).Ok?
    ensures UnderOffset(BuilderMethodsLines(c, body).value, body)
  {
    forall i | 0 <= i < |c.fields| && BuilderWriter(body, c.name)(c.fields[i]).Ok?
      ensures UnderOffset(BuilderWriter(body, c.name)(c.fields[i]).value, body)
    {
      BuilderIndented(c.fields[i], body, c.name);
    }
    ConcatAllUnderOffset(c.fields, BuilderWriter(body, c.name), body);
    if InNestedClass(c.elem) {
      DoneLinesIndented(body, c.name, c.elem.parent.TypeScope().className);
    }
    var outer := if InNestedClass(c.elem) then DoneLines(body, c.name, c.elem.parent.TypeScope().className) else [];
    UnderOffsetConcat(outer, ConcatAll(c.fields, BuilderWriter(body, c.name)).value, body);
  }

  lemma DoneLinesIndented(body: string, name: string, outer: string)
    ensures UnderOffset(DoneLines(body, name, outer), body)
  {
    EveryConcatStartsWith(body);
  }

  /** A class's lines: its head, a body every line of which is blank or
      indented two spaces deeper, and its closing brace; nested classes
      are indented further still. */
  lemma {:induction false} ClassIndented(c: ClassDef, offset: string)
    requires ClassLines(c, offset).Ok?
    ensures var lines := ClassLines(c, offset).value;
      && |lines| >= 3
      && lines[0] == ClassHead(c, offset)
      && lines[|lines| - 1] == offset + "}"
      && UnderOffset(lines[1..|lines| - 1], offset + "  ")
      && UnderOffset(lines, offset)
    decreases c, 2
  {
    var body := offset + "  ";
    var scope := ScopeLines(c.enums, c.classes, body).value;
    ScopeIndented(c.enums, c.classes, body);
    var access := if IsReturnType(c.elem) then "private " else "public ";
    var fields := ConcatAll(c.fields, FieldWriter(body, access)).value;
    FieldsIndented(c.fields, body, access);
    var tail: seq<string>;
    if IsReturnType(c.elem) {
      tail := ConcatAll(c.fields, GetterWriter(body)).value;
      GettersIndented(c.fields, body);
    } else {
      tail := BuilderMethodsLines(c, body).value;
      BuilderMethodsIndented(c, body);
    }
    StartsWithConcat(offset, ClassHead(c, offset)[|offset|..]);
    assert ClassHead(c, offset) == offset + ClassHead(c, offset)[|offset|..];
    ClassBodyIndented(ClassHead(c, offset), scope, fields, tail, offset);
  }

  lemma ClassBodyIndented(head: string, scope: seq<string>, fields: seq<string>, tail: seq<string>, offset: string)
    requires StartsWith(head, offset)
    requires UnderOffset(scope, offset + "  ") && UnderOffset(fields, offset + "  ") && UnderOffset(tail, offset + "  ")
    ensures var lines := [head] + scope + fields + [""] + tail + [offset + "}"];
      && |lines| >= 3
      && lines[0] == head
      && lines[|lines| - 1] == offset + "}"
      && UnderOffset(lines[1..|lines| - 1], offset + "  ")
      && UnderOffset(lines, offset)
  {
    var body := offset + "  ";
    var middle := scope + fields + [""] + tail;
    UnderOffsetConcat(scope, fields, body);
    UnderOffsetConcat(scope + fields, [""], body);
    UnderOffsetConcat(scope + fields + [""], tail, body);
    var lines := [head] + scope + fields + [""] + tail + [offset + "}"];
    assert lines == [head] + middle + [offset + "}"];
    assert lines[1..|lines| - 1] == middle;
    UnderDeeperOffset(middle, offset, "  ");
    StartsWithConcat(offset, "}");
    UnderOffsetConcat([head], middle, offset);
    UnderOffsetConcat([head] + middle, [offset + "}"], offset);
  }

  lemma {:induction false} ScopeIndented(enums: seq<EnumDef>, classes: seq<ClassDef>, offset: string)
    requires ScopeLines(enums, classes, offset).Ok?
    ensures UnderOffset(ScopeLines(enums, classes, offset).value, offset)
    decreases classes, 1
  {
    ClassesIndented(classes, offset);
    forall i | 0 <= i < |enums| ensures StartsWith(EnumLines(enums, offset)[i], offset) {
      EnumPublicInsideClass(enums[i], offset);
    }
    UnderOffsetConcat(EnumLines(enums, offset), ClassesLines(classes, offset).value, offset);
  }

  lemma {:induction false} ClassesIndented(classes: seq<ClassDef>, offset: string)
    requires ClassesLines(classes, offset).Ok?
    ensures UnderOffset(ClassesLines(classes, offset).value, offset)
    decreases classes, 0
  {
    if classes != [] {
      ClassIndented(classes[0], offset);
      ClassesIndented(classes[1..], offset);
      UnderOffsetConcat(ClassLines(classes[0], offset).value, ClassesLines(classes[1..], offset).value, offset);
    }
  }

  // ---------------------------------------------------------------------
  // Interface.writeEvents

  const ListenerText: seq<string> := [
    "void addListener(EventType type, Listener<EventType> listener);",
    "void removeListener(EventType type, Listener<EventType> listener);"]

  /** One constant of the event enum: the event's name, upper-cased,
      followed by a comma. */
  function EventConstant(e: EventDef, offset: string): string {
    offset + ("  " + Upper(e.elem.JsonName()) + ",")
  }

  function EventConstants(events: seq<EventDef>, offset: string): (r: seq<string>)
    ensures |r| == |events| && forall i :: 0 <= i < |events| ==> r[i] == EventConstant(events[i], offset)
  {
    seq(|events|, i requires 0 <= i < |events| => EventConstant(events[i], offset))
  }

  /** Where the event constants start: after the enum head, and after
      `CLOSE` for `Page`. */
  function FirstEventLine(interfaceName: string): nat {
    if interfaceName == "Page" then 2 else 1
  }

  /** `Interface.writeEvents`: nothing for an interface without events;
      otherwise the `EventType` enum (`CLOSE` first for `Page`), a blank
      line and the two listener methods. */
  function EventLines(events: seq<EventDef>, interfaceName: string, offset: string): seq<string> {
    if events == [] then []
    else
      [offset + "enum EventType {"]
      + (if interfaceName == "Page" then [offset + "  CLOSE,"] else [])
      + EventConstants(events, offset)
      + [offset + "}", ""]
      + Indented(offset, ListenerText)
  }

  /** The loop of `writeEvents`. Its comma test compares the index with
      the number of events, which no index inside the loop reaches, so the
      last constant keeps its comma too. */
  method WriteEvents(events: seq<EventDef>, interfaceName: string, offset: string) returns (lines: seq<string>)
    ensures lines == EventLines(events, interfaceName, offset)
  {
    if |events| == 0 {
      return [];
    }
    lines := [offset + "enum EventType {"];
    if interfaceName == "Page" {
      lines := lines + [offset + "  CLOSE,"];
    }
    var head := lines;
    for i := 0 to |events|
      invariant lines == head + EventConstants(events, offset)[..i]
    {
      var comma := if i == |events| then "" else ",";
      assert EventConstants(events, offset)[..i + 1] == EventConstants(events, offset)[..i] + [EventConstant(events[i], offset)];
      lines := lines + [offset + ("  " + Upper(events[i].elem.JsonName()) + comma)];
    }
    assert EventConstants(events, offset)[..|events|] == EventConstants(events, offset);
    lines := lines + [offset + "}", ""] + Indented(offset, ListenerText);
  }

  /** The event enum lists, after its head (and `CLOSE` for `Page`), the
      event constants in the order of the events; then its closing brace,
      a blank line and the listener methods. Without events nothing is
      written. */
  lemma EventLinesShape(events: seq<EventDef>, interfaceName: string, offset: string)
    ensures events == [] ==> EventLines(events, interfaceName, offset) == []
    ensures events != [] ==>
      var lines := EventLines(events, interfaceName, offset);
      var k := FirstEventLine(interfaceName);
      && |lines| == k + |events| + 4
      && lines[0] == offset + "enum EventType {"
      && (interfaceName == "Page" ==> lines[1] == offset + "  CLOSE,")
      && lines[k..k + |events|] == EventConstants(events, offset)
      && lines[k + |events|] == offset + "}"
      && lines[k + |events| + 1] == ""
      && lines[k + |events| + 2..] == Indented(offset, ListenerText)
  {
    if events != [] {
      var head := [offset + "enum EventType {"] + (if interfaceName == "Page" then [offset + "  CLOSE,"] else []);
      var consts := EventConstants(events, offset);
      var lines := head + consts + [offset + "}", ""] + Indented(offset, ListenerText);
      assert lines[|head|..|head| + |consts|] == consts;
    }
  }

  /** Every event constant, the last one included, is the upper-cased event
      name under the offset and ends with a comma. */
  lemma EventConstantsEndWithComma(events: seq<EventDef>, offset: string)
    ensures forall i :: 0 <= i < |events| ==>
      var line := EventConstants(events, offset)[i];
      && StartsWith(line, offset + "  " + Upper(events[i].elem.JsonName()))
      && line[|line| - 1] == ','
  {
    forall i | 0 <= i < |events|
      ensures var line := EventConstants(events, offset)[i];
        && StartsWith(line, offset + "  " + Upper(events[i].elem.JsonName()))
        && line[|line| - 1] == ','
    {
      EventConstantComma(events[i], offset);
    }
  }

  lemma EventConstantComma(e: EventDef, offset: string)
    ensures StartsWith(EventConstant(e, offset), offset + "  " + Upper(e.elem.JsonName()))
    ensures EventConstant(e, offset)[|EventConstant(e, offset)| - 1] == ','
  {
    var n := offset + "  " + Upper(e.elem.JsonName());
    assert EventConstant(e, offset) == n + ",";
  }

  // ---------------------------------------------------------------------
  // Interface.writeTo

  /** The only bases an interface may name in its `extends` clause. */
  const AllowedBaseInterfaces: set<string> := {"Browser", "JSHandle", "BrowserContext"}

  function ExtendsClause(base: Option<string>): string {
    if base.Some? && base.value in AllowedBaseInterfaces then " extends " + base.value else ""
  }

  function Declaration(i: InterfaceDef): string {
    "public interface " + i.elem.JsonName() + ExtendsClause(i.base) + " {"
  }

  /** The declaration names a base exactly when the description gives one
      and it is allowed; any other base is dropped. */
  lemma ExtendsOnlyAllowed(i: InterfaceDef)
    ensures ExtendsClause(i.base) != "" <==> i.base.Some? && i.base.value in {"Browser", "JSHandle", "BrowserContext"}
    ensures i.base.Some? && i.base.value in AllowedBaseInterfaces ==>
      Declaration(i) == "public interface " + i.elem.JsonName() + " extends " + i.base.value + " {"
    ensures !(i.base.Some? && i.base.value in AllowedBaseInterfaces) ==>
      Declaration(i) == "public interface " + i.elem.JsonName() + " {"
  {
    if i.base.Some? && i.base.value in AllowedBaseInterfaces {
      assert |ExtendsClause(i.base)| > 0;
    } else {
      assert "public interface " + i.elem.JsonName() + "" == "public interface " + i.elem.JsonName();
    }
  }

  function MethodWriter(offset: string, custom: map<string, seq<string>>): MethodDef -> Result<seq<string>> {
    m => MethodLines(m, offset, custom)
  }

  const WorkerWaitForEvent := "Deferred<Event<EventType>> waitForEvent(EventType event);"

  /** `Interface.writeTo`, given the file header and import lines
      (`preamble`), the shared type declarations (`sharedTypes`) and the
      table of hand-written signatures: the declaration, the shared types,
      the events, the interface's own enums and classes, each method, the
      extra `waitForEvent` of `Worker`, and the closing lines. */
  function InterfaceLines(i: InterfaceDef, preamble: seq<string>, sharedTypes: seq<string>,
                          custom: map<string, seq<string>>): Result<seq<string>>
  {
    var name := i.elem.JsonName();
    var scope :- ScopeLines(i.enums, i.classes, "  ");
    var methods :- ConcatAll(i.methods, MethodWriter("  ", custom));
    Ok(preamble + [Declaration(i)] + sharedTypes + EventLines(i.events, name, "  ") + scope + methods
       + (if name == "Worker" then ["  " + WorkerWaitForEvent] else []) + ["}", "\n"])
  }

  method WriteInterface(i: InterfaceDef, preamble: seq<string>, sharedTypes: seq<string>,
                        custom: map<string, seq<string>>) returns (r: Result<seq<string>>)
    ensures r == InterfaceLines(i, preamble, sharedTypes, custom)
  {
    var name := i.elem.JsonName();
    var output := preamble + [Declaration(i)] + sharedTypes;
    var events := WriteEvents(i.events, name, "  ");
    output := output + events;
    var scope := WriteScope(i.enums, i.classes, "  ");
    if scope.Fail? {
      return Fail(scope.error);
    }
    output := output + scope.value;
    var written: seq<string> := [];
    for j := 0 to |i.methods|
      invariant ConcatAll(i.methods[..j], MethodWriter("  ", custom)) == Ok(written)
    {
      var lines := WriteMethod(i.methods[j], "  ", custom);
      ConcatAllSnoc(i.methods, j, MethodWriter("  ", custom));
      if lines.Fail? {
        return Fail(lines.error);
      }
      written := written + lines.value;
    }
    assert i.methods[..|i.methods|] == i.methods;
    output := output + written;
    if name == "Worker" {
      output := output + ["  " + WorkerWaitForEvent];
    } else {
      assert output + [] == output;
    }
    output := output + ["}", "\n"];
    return Ok(output);
  }

  // ---------------------------------------------------------------------
  // Properties of the interface file

  /** Every line of a generated overload starts with the offset. */
  lemma OverloadIndented(m: MethodDef, offset: string, k: nat)
    requires k < |m.params| && OverloadLines(m, offset, k).Ok?
    ensures UnderOffset(OverloadLines(m, offset, k).value, offset)
  {
    var lines := OverloadLines(m, offset, k).value;
    forall j | 0 <= j < 3 ensures StartsWith(lines[j], offset) {
      assert lines[j][..|offset|] == offset;
    }
  }

  /** Whatever `Method.writeTo` writes, hand-written or generated, lies
      under its offset. */
  lemma MethodIndented(m: MethodDef, offset: string, custom: map<string, seq<string>>)
    requires MethodLines(m, offset, custom).Ok?
    ensures UnderOffset(MethodLines(m, offset, custom).value, offset)
  {
    var path := m.elem.Path();
    if path in custom {
      IndentedUnderOffset(offset, custom[path]);
    } else {
      var p := UnderOffsetLine(offset);
      var write := OverloadAt(m, offset);
      forall j, k | 0 <= j <= |m.params| - 1 && write(j).Ok? && 0 <= k < |write(j).value|
        ensures p(write(j).value[k])
      {
        OverloadIndented(m, offset, j);
      }
      BackwardEach(StopAt(m), write, |m.params| - 1, p);
      var sig := SignatureLine(m, offset).value;
      StartsWithConcat(offset, Signature(m).value);
      UnderOffsetConcat(Cascade(m, offset, |m.params| - 1).value, sig, offset);
    }
  }

  /** Every line of the event enum and its listener methods lies under the
      offset, blank line aside. */
  lemma EventLinesIndented(events: seq<EventDef>, interfaceName: string, offset: string)
    ensures UnderOffset(EventLines(events, interfaceName, offset), offset)
  {
    if events != [] {
      var head := [offset + "enum EventType {"] + (if interfaceName == "Page" then [offset + "  CLOSE,"] else []);
      var consts := EventConstants(events, offset);
      EveryConcatStartsWith(offset);
      IndentedUnderOffset(offset, ListenerText);
      assert UnderOffset(consts, offset);
      UnderOffsetConcat(head, consts, offset);
      UnderOffsetConcat(head + consts, [offset + "}", ""], offset);
      UnderOffsetConcat(head + consts + [offset + "}", ""], Indented(offset, ListenerText), offset);
    }
  }

  /** The interface file fails exactly when its enums and classes or one of
      its methods cannot be rendered; the scope's error is reported before
      any method's. */
  lemma InterfaceErrors(i: InterfaceDef, preamble: seq<string>, sharedTypes: seq<string>,
                        custom: map<string, seq<string>>)
    ensures var r, scope, methods := InterfaceLines(i, preamble, sharedTypes, custom),
                                     ScopeLines(i.enums, i.classes, "  "), ConcatAll(i.methods, MethodWriter("  ", custom));
      && (r.Ok? <==> scope.Ok? && methods.Ok?)
      && (scope.Fail? ==> r == Fail(scope.error))
      && (scope.Ok? && methods.Fail? ==> r == Fail(methods.error))
  {
  }

  /** The file starts with the preamble and the declaration, followed by
      the shared types and the events; it ends with the closing brace and
      an empty line, preceded for `Worker` by its extra `waitForEvent`. */
  lemma InterfaceLayout(i: InterfaceDef, preamble: seq<string>, sharedTypes: seq<string>,
                        custom: map<string, seq<string>>)
    requires InterfaceLines(i, preamble, sharedTypes, custom).Ok?
    ensures var lines, n, s := InterfaceLines(i, preamble, sharedTypes, custom).value, |preamble|, |sharedTypes|;
      var events := EventLines(i.events, i.elem.JsonName(), "  ");
      && |lines| >= n + s + |events| + 3
      && lines[..n] == preamble
      && lines[n] == Declaration(i)
      && lines[n + 1..n + 1 + s] == sharedTypes
      && lines[n + 1 + s..n + 1 + s + |events|] == events
      && lines[|lines| - 2..] == ["}", "\n"]
      && (i.elem.JsonName() == "Worker" ==> lines[|lines| - 3] == "  " + WorkerWaitForEvent)
  {
    var name := i.elem.JsonName();
    InterfaceLinesSplit(i, preamble, sharedTypes, custom);
    FileLayout(preamble, Declaration(i), sharedTypes, EventLines(i.events, name, "  "),
               ScopeLines(i.enums, i.classes, "  ").value, ConcatAll(i.methods, MethodWriter("  ", custom)).value,
               if name == "Worker" then ["  " + WorkerWaitForEvent] else [], ["}", "\n"]);
  }

  /** Between the declaration and the closing brace every line is indented
      by two spaces (or blank), provided the shared types are. */
  lemma InterfaceBodyIndented(i: InterfaceDef, preamble: seq<string>, sharedTypes: seq<string>,
                              custom: map<string, seq<string>>)
    requires InterfaceLines(i, preamble, sharedTypes, custom).Ok?
    requires UnderOffset(sharedTypes, "  ")
    ensures var lines := InterfaceLines(i, preamble, sharedTypes, custom).value;
      |lines| >= |preamble| + 3 && UnderOffset(lines[|preamble| + 1..|lines| - 2], "  ")
  {
    var name := i.elem.JsonName();
    var events := EventLines(i.events, name, "  ");
    var scope := ScopeLines(i.enums, i.classes, "  ").value;
    var methods := ConcatAll(i.methods, MethodWriter("  ", custom)).value;
    var worker := if name == "Worker" then ["  " + WorkerWaitForEvent] else [];
    EventLinesIndented(i.events, name, "  ");
    ScopeIndented(i.enums, i.classes, "  ");
    MethodsIndented(i.methods, "  ", custom);
    StartsWithConcat("  ", WorkerWaitForEvent);
    FiveUnderOffset(sharedTypes, events, scope, methods, worker, "  ");
    InterfaceLinesSplit(i, preamble, sharedTypes, custom);
    MiddleSlice(preamble, Declaration(i), sharedTypes, events, scope, methods, worker, ["}", "\n"]);
  }

  lemma FiveUnderOffset(a: seq<string>, b: seq<string>, c: seq<string>, d: seq<string>, e: seq<string>, offset: string)
    requires UnderOffset(a, offset) && UnderOffset(b, offset) && UnderOffset(c, offset)
    requires UnderOffset(d, offset) && UnderOffset(e, offset)
    ensures UnderOffset(a + b + c + d + e, offset)
  {
    UnderOffsetConcat(a, b, offset);
    UnderOffsetConcat(a + b, c, offset);
    UnderOffsetConcat(a + b + c, d, offset);
    UnderOffsetConcat(a + b + c + d, e, offset);
  }

  lemma MethodsIndented(methods: seq<MethodDef>, offset: string, custom: map<string, seq<string>>)
    requires ConcatAll(methods, MethodWriter(offset, custom)).Ok?
    ensures UnderOffset(ConcatAll(methods, MethodWriter(offset, custom)).value, offset)
  {
    forall j | 0 <= j < |methods| && MethodWriter(offset, custom)(methods[j]).Ok?
      ensures UnderOffset(MethodWriter(offset, custom)(methods[j]).value, offset)
    {
      MethodIndented(methods[j], offset, custom);
    }
    ConcatAllUnderOffset(methods, MethodWriter(offset, custom), offset);
  }

  /** The interface file, section by section. */
  lemma InterfaceLinesSplit(i: InterfaceDef, preamble: seq<string>, sharedTypes: seq<string>,
                            custom: map<string, seq<string>>)
    requires InterfaceLines(i, preamble, sharedTypes, custom).Ok?
    ensures var name := i.elem.JsonName();
      InterfaceLines(i, preamble, sharedTypes, custom).value
      == preamble + [Declaration(i)] + sharedTypes + EventLines(i.events, name, "  ")
         + ScopeLines(i.enums, i.classes, "  ").value + ConcatAll(i.methods, MethodWriter("  ", custom)).value
         + (if name == "Worker" then ["  " + WorkerWaitForEvent] else []) + ["}", "\n"]
  {
  }

  lemma MiddleSlice(front: seq<string>, decl: string, a: seq<string>, b: seq<string>, c: seq<string>,
                    d: seq<string>, e: seq<string>, close: seq<string>)
    ensures var lines := front + [decl] + a + b + c + d + e + close;
      |lines| >= |front| + 1 + |close| && lines[|front| + 1..|lines| - |close|] == a + b + c + d + e
  {
    var lines := front + [decl] + a + b + c + d + e + close;
    assert lines == (front + [decl]) + (a + b + c + d + e) + close;
  }

  /** Where the parts of `front + [decl] + a + b + c + d + e + close` lie. */
  lemma FileLayout(front: seq<string>, decl: string, a: seq<string>, b: seq<string>, c: seq<string>,
                   d: seq<string>, e: seq<string>, close: seq<string>)
    ensures var lines := front + [decl] + a + b + c + d + e + close;
      var n := |front|;
      && |lines| == n + 1 + |a| + |b| + |c| + |d| + |e| + |close|
      && lines[..n] == front
      && lines[n] == decl
      && lines[n + 1..n + 1 + |a|] == a
      && lines[n + 1 + |a|..n + 1 + |a| + |b|] == b
      && lines[|lines| - |close|..] == close
      && (|e| == 1 ==> lines[|lines| - |close| - 1] == e[0])
  {
    var lines := front + [decl] + a + b + c + d + e + close;
    var n := |front|;
    assert lines == (front + [decl] + a + b) + (c + d + e + close);
    assert lines[n + 1..n + 1 + |a|] == (front + [decl] + a + b)[n + 1..n + 1 + |a|];
    assert lines == (front + [decl] + a + b + c + d) + (e + close);
  }
}
